=== FILE: README.md ===
# Storj satellite core in Dafny

This project models the decision logic of a Storj satellite and proves properties of it.
Most of the model covers the metainfo endpoint, which stores one *pointer* per object segment
under a path key: the segment with index `-1` is the object's *last segment* and carries the
object's metadata. The model covers:

- how a segment's path is built;
- how the space a pointer uses is accounted;
- which uploaded pieces a committed segment keeps;
- the segment-listing pages;
- how an object's pointers and pieces are deleted;
- how signed stream and segment IDs expire;
- how order limits are put in piece order;
- the commit paths for remote segments, inline segments and objects.

Smaller parts are modelled beside it:

- the Reed–Solomon configuration flag;
- overlay-cache helpers: the wallet-features codec, exit-status fields, the unreliable-node
  complement, batched statistics updates, and the bookkeeping of one audit update;
- API-key paging, both in the database layer and in the administration service;
- the administration service's order direction, full address and node-usage summary;
- the GraphQL `BigInt` coercion and paging cursor;
- the selection state of the web console's access-grants page.

The pointer database is an immutable `Store`. It is a map from path to pointer plus a set of
*broken* paths, where every access fails with an internal error. Collaborators the code calls
are parameters:

- signing, request authorisation and pointer validation;
- the piece-hash check, the identity lookup, the redundancy strategy and `CalcPieceSize`;
- the overlay's reliability lookup and the piece-deletion service;
- the `memory.Size` codec;
- SQL query results.

Go's fixed-width arithmetic is written out where it matters:

- int32 wrap-around of segment indices in listing;
- int64 wrap-around of the node-usage totals and of `int64(uint)`;
- truncating integer division.

`satellite/metainfo/config.go` comes from a different revision of the code than
`satellite/metainfo/metainfo.go`. Its `RSConfig` is therefore modelled on its own, in module
`RsConfig`, and is not tied to the redundancy scheme the endpoint stores.

Modules, one file each:

| file | module |
|---|---|
| `wrappers.dfy` | `Wrappers` |
| `text.dfy` | `Text` |
| `decimal.dfy` | `Decimal` |
| `segment_path.dfy` | `SegmentPath` |
| `pointers.dfy` | `Pointers` |
| `segment_store.dfy` | `SegmentStore` |
| `piece_validation.dfy` | `PieceValidation` |
| `tokens.dfy` | `Tokens` |
| `listing.dfy` | `Listing` |
| `piece_collection.dfy` | `PieceCollection` |
| `deletion.dfy` | `Deletion` |
| `order_limits.dfy` | `OrderLimits` |
| `endpoint.dfy` | `Endpoint` |
| `rs_config.dfy` | `RsConfig` |
| `overlay_cache.dfy` | `OverlayCache` |
| `overlay_batches.dfy` | `OverlayBatches` |
| `api_keys_db.dfy` | `ApiKeysDb` |
| `admin_service.dfy` | `AdminService` |
| `admin_api_keys.dfy` | `AdminApiKeys` |
| `adminql_common.dfy` | `AdminQl` |
| `access_grants.dfy` | `AccessGrants` |

## Model

| member | source | states |
|---|---|---|
| SegmentPath.SegmentMarker | satellite/metainfo/metainfo.go:685-688 | The segment component is `l` exactly for the last segment, and no marker contains `/`. |
| SegmentPath.CreatePath | satellite/metainfo/metainfo.go:680-700 | An index below -1 is the only error. Otherwise the path is the project ID, `/`, the segment marker, then `/bucket` and `/key`, each omitted when empty. |
| SegmentPath.CreatePathInjective | satellite/metainfo/metainfo.go:680-700 | Different (project, index, bucket, key) tuples never share a path, given IDs and buckets without `/` and no key without a bucket. |
| SegmentPath.BucketPathIsPrefix | satellite/metainfo/metainfo.go:680-700 | The path built with an empty key, followed by `/`, is a prefix of every path of an object in that bucket. |
| SegmentPath.ProjectPathIsPrefix | satellite/metainfo/metainfo.go:680-700 | The path built with an empty bucket, followed by `/`, is a prefix of every path with a bucket. |
| SegmentPath.BucketIdInjective | satellite/metainfo/metainfo.go:484-489 | Two bucket IDs are equal only for the same project and bucket. |
| Pointers.CalculateSpaceUsed | satellite/metainfo/metainfo.go:227-242 | An inline pointer uses its data length twice. A pointer with no remote part uses nothing. A remote pointer reports its segment size, and stores the segment size divided by MinReq (truncated toward zero) times its piece count. |
| Pointers.SpaceUsedBound | satellite/metainfo/metainfo.go:238-241 | For a positive MinReq k and n pieces, the stored total lies within one share per piece of segmentSize·n/k: at or below it for a non-negative segment size, at or above it for a negative one. |
| Pointers.NumberOfSegments | satellite/metainfo/metainfo.go:2139-2146 | Stream metadata gives its recorded count. Empty metadata decodes to 0. Segment-level or malformed metadata fails to decode. |
| SegmentStore.GetPointer | satellite/metainfo/metainfo.go:2106-2125 | An index below -1 is InvalidArgument. A stored path yields its pointer. A path that is neither stored nor broken is NotFound. Any other failure is Internal. |
| SegmentStore.DeletePointer | satellite/metainfo/metainfo.go:2454-2473 | It succeeds exactly when the pointer exists, returns that pointer and removes only its path. Otherwise it fails with the read's status. |
| SegmentStore.GetObjectNumberOfSegments | satellite/metainfo/metainfo.go:2131-2147 | It reads the count from the last segment's metadata. It is NotFound exactly when the last segment is missing. |
| SegmentStore.FindIndexPreviousLastSegment | satellite/metainfo/metainfo.go:2481-2500 | The result r has segments 0..r present and r+1 missing. For a consistent n-segment object it is n-2. It fails only on a read error inside the run. |
| PieceValidation.StatusOf | satellite/metainfo/metainfo.go:599-669 | Only a failed identity lookup is Internal; every other refusal is InvalidArgument. |
| PieceValidation.Scan | satellite/metainfo/metainfo.go:524-600 | The size scan accepts exactly when all usable pieces share one positive size. In that case the kept list is the usable pieces, in order. |
| PieceValidation.FilterValidPieces | satellite/metainfo/metainfo.go:498-659 | A non-remote pointer passes unchanged. Failed identity lookup and inconsistent sizes each fail. On success the pieces are replaced by the usable ones, all of the expected size and at least SuccessThreshold many. Once the size checks pass, too few usable pieces give the repair-threshold error exactly when their count is ≤ the repair threshold and < the success threshold, and the success-threshold error exactly when it lies between the two. Both errors carry the usable count. |
| PieceValidation.FilterIdempotent | satellite/metainfo/metainfo.go:498-659 | Filtering an accepted pointer again accepts it unchanged. |
| Tokens.SignStreamId | satellite/metainfo/metainfo.go:2171-2189 | Signing changes only the signature field. |
| Tokens.UnmarshalStreamId | satellite/metainfo/metainfo.go:2211-2230 | A stream ID is accepted exactly when it decodes, its signature verifies and it is at most 24 hours old. It is IdExpired exactly when it verifies but is older. |
| Tokens.UnmarshalSegmentId | satellite/metainfo/metainfo.go:2232-2254 | The same rules for segment IDs. A segment ID that lacks its stream ID is refused. |
| Tokens.PackedStreamIdRoundTrip | satellite/metainfo/metainfo.go:2171-2230 | A stream ID the satellite signed reads back unchanged within 24 hours of its creation. |
| Tokens.PackedSegmentIdRoundTrip | satellite/metainfo/metainfo.go:2191-2254 | A segment ID the satellite signed reads back unchanged within 24 hours of its creation. |
| Tokens.TamperedStreamIdRejected | satellite/metainfo/metainfo.go:2220-2223 | With a collision-free signer, a stream ID the satellite signed and then changed in any other field is refused with BadSignature. |
| Tokens.ExpiryIsPermanent | satellite/metainfo/metainfo.go:2225-2227 | Once an ID has expired it stays expired at every later time. |
| Listing.ListFromNumberOfSegments | satellite/metainfo/metainfo.go:1869-1927 | n ≤ 0 or cursor > n is Internal. The cursor's sign is not checked. When n−c fits in int32, there is more exactly when n−c exceeds the limit, and then the page is c..c+L−1. Otherwise it is c..n−2 followed by the last segment, or empty when c = n. When n−c overflows int32 it wraps negative and the page is empty. |
| Listing.NegativeCursorListsLastTwice | satellite/metainfo/metainfo.go:1887-1917 | A cursor of −1 on a two-segment object lists −1, 0 and then the last segment, so index −1 appears twice. |
| Listing.ListManually | satellite/metainfo/metainfo.go:1935-1983 | A limit ≤ 0 is InvalidArgument. Otherwise the result is the run of existing indices from the cursor, cut at the limit. There is more exactly when the limit was reached, and the last segment is appended otherwise. Read errors other than NotFound propagate. |
| Listing.ProbeFromSound | satellite/metainfo/metainfo.go:1946-1967 | The probe loop stops at the first missing index or at the limit, with every index it passed present, and reports any other read error at the index where it occurred. |
| Listing.ManualAgreesWithCount | satellite/metainfo/metainfo.go:1869-1983 | On a consistent object with the cursor below n, probing and counting give the same page. |
| Listing.CursorPastEndDiffers | satellite/metainfo/metainfo.go:1869-1983 | With the cursor at n the two listings differ: counting gives an empty page, probing lists the last segment. |
| Listing.ListSegments | satellite/metainfo/metainfo.go:1819-1867 | A missing last segment gives an empty page. Limit 0 or over 1000 becomes 1000. A positive recorded count selects counting, with the count wrapped to int32. Any other count selects probing. |
| Listing.ListingIgnoresRecordedTotal | satellite/metainfo/metainfo.go:1819-1927 | For a consistent object whose metadata records n or nothing, the listing is the counted page for n. |
| PieceCollection.CollectMeaning | satellite/metainfo/metainfo.go:2340-2355 | The collected nodes are the distinct nodes of the pieces, in first-seen order and without duplicates. Each node maps to exactly its pieces, in order. |
| PieceCollection.EveryPieceCollected | satellite/metainfo/metainfo.go:2390-2401 | Every piece of a deleted remote segment is filed under its node. |
| Deletion.DeleteLastSegment | satellite/metainfo/metainfo.go:2316-2353 | Deleting the last segment aborts exactly when its read fails with something other than NotFound. Otherwise its key is removed, and a remote one contributes its pieces and size. |
| Deletion.DeleteSegment | satellite/metainfo/metainfo.go:2356-2404 | One iteration removes segment idx when it can be read and adds a remote segment's pieces and size; a missing or failing index changes nothing. |
| Deletion.WalkDown | satellite/metainfo/metainfo.go:2355-2405 | The walk from the start index down to 0 removes exactly the present segments. It collects their pieces and sizes in walk order, and skips missing or failing indices. |
| Deletion.WalkAndSend | satellite/metainfo/metainfo.go:2355-2447 | After the last segment, the walk and the send together have exactly the effect the references give for that start index. |
| Deletion.Send | satellite/metainfo/metainfo.go:2407-2447 | No pieces, or a failed reliability lookup, is success with no accounting. Otherwise one request per reliable node is sent, and usage drops by the summed size only if deletion succeeds. |
| Deletion.SendMeaning | satellite/metainfo/metainfo.go:2386-2445 | Each request carries exactly the pieces stored on its node. |
| Deletion.StartIndex | satellite/metainfo/metainfo.go:2273-2309 | A positive count starts at count−2. A missing last segment, or a count ≤ 0, is probed instead. NotFound when nothing at all exists; other errors propagate. |
| Deletion.StartIndexAsWritten | satellite/metainfo/metainfo.go:2273-2309 | As written, any successfully read count starts at count−2, including count 0. |
| Deletion.DeleteObjectPieces | satellite/metainfo/metainfo.go:2261-2448 | It fails NotFound, deleting nothing, when neither the last segment nor segment 0 exists, and read errors of the count leave the store unchanged. Otherwise the last segment and the walk are removed and pieces sent. A consistent object whose count is recorded, or 0, is removed completely. |
| Deletion.ZeroCountSkipsSegments | satellite/metainfo/metainfo.go:2301-2307 | As written, an object whose last segment records no count starts the walk at -2 and leaves segment 0 behind. |
| Deletion.ZeroCountProbed | satellite/metainfo/metainfo.go:2273-2309 | With the count of 0 probed, the same object's walk starts at segment 0. |
| OrderLimits.GetLimitByStorageNodeId | satellite/metainfo/metainfo.go:2158-2169 | It returns the first limit addressed to the node, and none exactly when no limit is. |
| OrderLimits.AssignMeaning | satellite/metainfo/metainfo.go:2150-2156 | Slot k holds the limit of the node of the last piece numbered k, or keeps its value when no piece has that number. |
| OrderLimits.SortLimits | satellite/metainfo/metainfo.go:2150-2156 | The result has one slot per piece of the redundancy total. Each slot holds the limit of the node storing that piece number, or none. |
| Endpoint.PiecesFromUploads | satellite/metainfo/metainfo.go:1548-1555 | Each upload result becomes one piece with the same number, node and hash, in order. |
| Endpoint.ClearHashes | satellite/metainfo/metainfo.go:1616-1619 | Only the piece hashes change, and they are dropped. |
| Endpoint.CommitSegment | satellite/metainfo/metainfo.go:1517-1655 | A commit succeeds exactly when every check passes and the store accepts the write at the segment's key. The checks are a valid ID, authorisation, at least SuccessThreshold upload results, pointer validation, the piece filter, an index of at least -1, the usage limits and the stored-size check. Each refusal before the write leaves the store unchanged, reports no usage and has its own code: a bad ID, too few uploads, failed validation, a bad index or too much stored data give InvalidArgument. A failed authorisation gives Unauthenticated, a filter error gives its own status, a failed usage lookup gives Internal, and exceeded usage gives ResourceExhausted. Once the checks pass the uploaded size is reported. A failed write gives Internal; otherwise the filtered pointer without hashes is stored at the key and the kept piece count is returned. |
| Endpoint.StoredWithinRedundancy | satellite/metainfo/metainfo.go:1621-1636 | A pointer with at most Total pieces never trips the stored-size check. |
| Endpoint.CommittedSegmentReadsBack | satellite/metainfo/metainfo.go:1517-1655 | After a successful commit, reading the segment's path returns the stored pointer. |
| Endpoint.InlinePointer | satellite/metainfo/metainfo.go:1696-1715 | The inline pointer's space used is its data length, twice. |
| Endpoint.MakeInlineSegment | satellite/metainfo/metainfo.go:1658-1732 | An invalid stream ID is InvalidArgument. Refused requests leave the store unchanged. An accepted one writes the inline pointer at its path and adds the data length to usage; a failing order step still leaves the pointer. |
| Endpoint.CommitObject | satellite/metainfo/metainfo.go:1124-1200 | An invalid or expired stream ID is refused. The last numbered segment must exist and is moved to the last-segment path with the stream's redundancy and the new metadata. A write failure after the delete loses the segment. |
| Endpoint.CommittedObjectRecordsCount | satellite/metainfo/metainfo.go:1124-1200 | After a successful commit the object's recorded segment count reads back as the committed count. |
| Endpoint.CommitSegmentKeepsWellFormed | satellite/metainfo/metainfo.go:1517-1655 | CommitSegment only stores remote pointers whose MinReq is positive, so every stored pointer keeps a computable space. |
| Endpoint.CommitSegmentKeepsRemoteParts | satellite/metainfo/metainfo.go:1557-1582 | CommitSegment's REMOTE pointer always carries its remote part, so every stored REMOTE pointer still has one. |
| Endpoint.MakeInlineSegmentKeepsRemoteParts | satellite/metainfo/metainfo.go:1709-1721 | MakeInlineSegment stores an INLINE pointer, so every stored REMOTE pointer still has a remote part. |
| Endpoint.CommitObjectKeepsRemoteParts | satellite/metainfo/metainfo.go:1173-1178 | CommitObject gives the last segment a remote part when it lacks one, so every stored REMOTE pointer still has one. |
| Endpoint.MakeInlineSegmentKeepsWellFormed | satellite/metainfo/metainfo.go:1658-1732 | MakeInlineSegment only stores inline pointers, so every stored pointer keeps a computable space. |
| Endpoint.CommitObjectKeepsWellFormed | satellite/metainfo/metainfo.go:1124-1200 | When signed stream IDs carry a positive MinReq, CommitObject keeps every stored pointer's space computable. |
| RsConfig.ParseNumbers | satellite/metainfo/config.go:82-94 | Every field is an int64 at least 1 and at least its predecessor, or the parse fails. Failure is NotInteger only if some field is not a number. |
| RsConfig.Set | satellite/metainfo/config.go:60-103 | A value without exactly one `-` is WrongShape. On success there are four fields that parse to min ≤ repair ≤ success ≤ total, all ≥ 1, and the share size parses. |
| RsConfig.SetFormatRoundTrip | satellite/metainfo/config.go:50-103 | Parsing the rendered text of a valid configuration gives it back. |
| OverlayCache.EncodeWalletFeatures | satellite/satellitedb/overlaycache.go:1077-1090 | It fails exactly when some feature contains `,`. Otherwise splitting the result on `,` gives the features back. |
| OverlayCache.DecodeWalletFeatures | satellite/satellitedb/overlaycache.go:1093-1099 | Empty text decodes to no features. Other text decodes to comma-free features that join back to it. |
| OverlayCache.WalletFeaturesRoundTrip | satellite/satellitedb/overlaycache.go:1077-1099 | Decoding an encoding gives the features back, except that `[""]` comes back empty. |
| OverlayCache.PopulateExitStatusFields | satellite/satellitedb/overlaycache.go:998-1013 | Each timestamp is set exactly when it is non-zero, and ExitSuccess is always set. |
| OverlayCache.ExitUpdateKeepsRecordedTimes | satellite/satellitedb/overlaycache.go:998-1013 | Applying the update keeps a recorded time wherever the request has zero, and takes the request's time elsewhere. |
| OverlayCache.Complement | satellite/satellitedb/overlaycache.go:381-394 | The result is exactly the input IDs not in the good set. |
| OverlayCache.KnownUnreliableOrOffline | satellite/satellitedb/overlaycache.go:356-396 | An empty input is an error. Otherwise the result is the input IDs absent from the good set, in input order. |
| OverlayCache.ComplementSplitsList | satellite/satellitedb/overlaycache.go:381-394 | The unreliable and the good IDs together account for every input ID. |
| OverlayCache.PopulateUpdateNodeStats | satellite/satellitedb/overlaycache.go:1308-1485 | TotalAuditCount grows by 1 and AuditSuccessCount only on success, and Contained is cleared. Exactly one contact time is set, the failure one iff the outcome is Offline. Vetting happens only for unvetted nodes reaching the required count. Disqualification is set exactly under the three disqualification cases. The unknown-audit suspension is set for a newly low node, cleared when the node recovers or is disqualified under case (b), and otherwise left alone. A node not under review is suspended and put under review exactly when offline-penalised. For a node under review, the review is cleared exactly when the tracking period passed without penalty; its offline suspension is set when newly penalised and cleared when not penalised and suspended or when the review ends. |
| OverlayCache.StatsUpdateKeepsInvariants | satellite/satellitedb/overlaycache.go:1308-1485 | Applying an update keeps successes ≤ total audits and never un-vets or un-disqualifies a node. |
| OverlayBatches.SortByNode | satellite/satellitedb/overlaycache.go:505-507 | The requests are reordered by node ID: sorted and a permutation. |
| OverlayBatches.BatchesShape | satellite/satellitedb/overlaycache.go:576-581 | The batches run contiguously from 0 to n, each full except possibly the last. |
| OverlayBatches.BatchesPartition | satellite/satellitedb/overlaycache.go:576-581 | Every request index lies in exactly one batch. |
| OverlayBatches.FailedMembers | satellite/satellitedb/overlaycache.go:509-590 | A node is reported failed exactly when its own batch's write failed. |
| OverlayBatches.WriteBatches | satellite/satellitedb/overlaycache.go:576-590 | The loop reports the failed nodes of every batch in batch order. |
| OverlayBatches.BatchUpdateStats | satellite/satellitedb/overlaycache.go:498-592 | Empty input reports nothing. Otherwise the failed list is that of the sorted batches, the error is set iff something failed, and every reported node came from a request. |
| OverlayBatches.AppendAllReportsCommittedBatch | satellite/satellitedb/overlaycache.go:510-514 | As written, a failed batch reports a node whose own batch was committed. |
| ApiKeysDb.SearchPattern | satellite/satellitedb/apikeys.go:32 | The pattern wraps the search in `%` with every space widened to `%`. |
| ApiKeysDb.AsciiLower | satellite/satellitedb/apikeys.go:52 | Upper-case ASCII letters are lowered; other characters are kept. |
| ApiKeysDb.LikeArgument | satellite/satellitedb/apikeys.go:32-53 | The query argument is the search wrapped in `%`, with spaces widened to `%` and every other character lowered as in the search; it has no space and no upper-case ASCII letter. |
| ApiKeysDb.CapLimit | satellite/satellitedb/apikeys.go:34-36 | Limits above 50 become 50; others are kept. |
| ApiKeysDb.OrderColumn | satellite/satellitedb/apikeys.go:248-254 | Order 2 sorts by creation time and every other order by name. |
| ApiKeysDb.GetPagedByProjectId | satellite/satellitedb/apikeys.go:29-124 | With no matching keys the page is returned unlisted. An offset past the last key is out of range, and a zero limit divides by zero. Otherwise the page count is the least number of limit-sized pages holding all keys. Only the capped limit, the total, the rows, the page count and the current page are set; every other field, the order direction included, is the caller's. |
| ApiKeysDb.CurrentPageHoldsOffset | satellite/satellitedb/apikeys.go:111-116 | The current page is among the pages and contains the requested offset. |
| AdminApiKeys.MapApiKeys | satellite/admin/service/apikey.go:175-190 | Mapping keeps the length, order and fields of the keys. |
| AdminApiKeys.ClampLimit | satellite/admin/service/apikey.go:125-131 | The limit lands in 1..100: 0 becomes 10, above 100 becomes 100, others are kept. |
| AdminApiKeys.UnmapOrderDirection | satellite/admin/service/apikey.go:171-173 | The console direction is the admin order plus 1, and is 1 or 2 exactly for a valid order. |
| AdminApiKeys.GetApiKeysPage | satellite/admin/service/apikey.go:116-145 | The only error is an offset past the last key. An empty project gives an empty page; otherwise the rows are mapped in order. |
| AdminApiKeys.AdminPageNeverDividesByZero | satellite/admin/service/apikey.go:125-138 | The clamped limit reaches the database positive, so the page count never divides by zero, and pages are sorted by name. |
| AdminApiKeys.GetApiKey | satellite/admin/service/apikey.go:104-113 | It succeeds exactly for a stored ID and returns that key's fields. |
| AdminApiKeys.CreateApiKey | satellite/admin/service/apikey.go:34-72 | A missing project or a name already used in the project is refused. Success is exactly when every step succeeds. Errors leave the keys unchanged. Success adds one key with the project, the name and the project's partner. |
| AdminApiKeys.CreateKeepsNamesUnique | satellite/admin/service/apikey.go:39-47 | Creation keeps key names unique within each project. |
| AdminApiKeys.CreateTwiceRefused | satellite/admin/service/apikey.go:39-47 | Creating the same name in the same project a second time is refused with NameExists. |
| AdminApiKeys.MissingIdsMembers | satellite/admin/service/apikey.go:76-88 | The reported missing IDs are exactly the requested IDs not stored. |
| AdminApiKeys.NoneMissingIffAllPresent | satellite/admin/service/apikey.go:76-88 | Nothing is reported missing exactly when every requested ID is stored. |
| AdminApiKeys.DeleteApiKeys | satellite/admin/service/apikey.go:75-101 | Any missing ID deletes nothing and reports all missing IDs. Success deletes exactly the requested keys and keeps the rest. A failed transaction deletes nothing. |
| AdminApiKeys.ApiKeyToGatewayAccessKey | satellite/admin/service/apikey.go:148-169 | An empty token is refused before anything else. Success is exactly when the parse, hash and serialisation succeed, and yields the serialised scope. |
| AdminService.IsValid | satellite/admin/service/service.go:67-77 | Only ascending (0) and descending (1) are valid directions. |
| AdminService.GetFullAddress | satellite/admin/service/service.go:80-84 | With a node ID and a non-empty address the result is `id@address`; otherwise it is the address. |
| AdminService.FullAddressSplits | satellite/admin/service/service.go:80-84 | Splitting a full address at its first `@` recovers the node ID and the address. |
| AdminService.GetNodeUsage | satellite/admin/service/node.go:72-95 | A bad node ID is checked first, then an empty period. Success echoes the ID and period. Each integer total is the int64-wrapped sum of its column over the rollups, or zero when the lookup failed. |
| AdminQl.CoerceBigIntAsWritten | satellite/admin/adminql/common_type.go:169-248 | As written, a `uint` becomes its int64 wrap-around. |
| AdminQl.CoerceBigInt | satellite/admin/adminql/common_type.go:169-248 | Every result is in the int64 range; a `uint` beyond it is nil. |
| AdminQl.CoerceBigIntMeaning | satellite/admin/adminql/common_type.go:169-248 | A value is coerced exactly when it stands for a whole number in the int64 range, and then to that number; otherwise nil. |
| AdminQl.UintWrapsAsWritten | satellite/admin/adminql/common_type.go:201-202 | As written, `uint(2^63)` becomes -2^63, while the same `uint64` is nil. |
| AdminQl.CoercionsAgreeElsewhere | satellite/admin/adminql/common_type.go:169-248 | The two coercions differ only on a `uint` beyond int64, direct or through a pointer. |
| AdminQl.CustomCursorFromMapAsWritten | satellite/admin/adminql/common_type.go:117-135 | As written, a non-map is nil, the offset repeats the supplied limit, and a limit that is not a `uint64` leaves the defaults 10 and 0. |
| AdminQl.CustomCursorFromMap | satellite/admin/adminql/common_type.go:117-135 | A non-map is nil. The limit defaults to 10 and the offset to 0. Each takes its own supplied `uint64` or non-negative `int64`, the type the `BigInt` scalar parses to. Search and order are kept exactly when given. |
| AdminQl.Search | satellite/admin/adminql/common_type.go:154-160 | A string search is returned; anything else gives the empty string. |
| AdminQl.Order | satellite/admin/adminql/common_type.go:162-167 | The result is always valid, and equals the stored direction exactly when that is a valid direction. |
| AdminQl.CursorRoundTrip | satellite/admin/adminql/common_type.go:63-167 | A cursor read from page arguments as the schema parses them (int64 limit and offset) gives back their search, limit, offset and valid order. |
| AdminQl.SchemaArgsIgnoredAsWritten | satellite/admin/adminql/common_type.go:63-128 | As written, every limit and offset parsed by the `BigInt` scalar is ignored: the cursor always holds limit 10 and offset 0. |
| AdminQl.SchemaPageAsWritten | satellite/admin/adminql/common_type.go:63-128 | Through the schema, limit 5 with offset 20 gives limit 10 and offset 0 as written, and limit 5 and offset 20 when read in the declared type. |
| AdminQl.OffsetReadFromLimitAsWritten | satellite/admin/adminql/common_type.go:126-128 | As written, `uint64` arguments limit 5 and offset 20 read back offset 5. |
| AccessGrants.Remove | web/satellite/src/store/modules/accessGrants.ts:155-157 | Filtering keeps exactly the other elements. |
| AccessGrants.RemoveAbsent | web/satellite/src/store/modules/accessGrants.ts:155-157 | Filtering out an absent element changes nothing. |
| AccessGrants.Toggle | web/satellite/src/store/modules/accessGrants.ts:159-169 | The toggled element's membership flips and no other element's does. |
| AccessGrants.ToggleTwiceRestores | web/satellite/src/store/modules/accessGrants.ts:139-157 | Toggling an absent ID twice restores the list. |
| AccessGrants.MarkId | web/satellite/src/store/modules/accessGrants.ts:139-157 | Only the grants with the given ID get the flag. |
| AccessGrants.SetPage | web/satellite/src/store/modules/accessGrants.ts:109-118 | After loading a page, a grant is marked exactly when it arrived marked or its ID is selected. IDs, names and the selection lists are unchanged. |
| AccessGrants.ToggleSelection | web/satellite/src/store/modules/accessGrants.ts:138-157 | An absent ID is appended and its grants marked. A present ID is removed everywhere and its grants unmarked. Only those grants' flags change; IDs, names and bucket names are untouched. |
| AccessGrants.ToggleBucketSelection | web/satellite/src/store/modules/accessGrants.ts:159-169 | The bucket name's membership flips, and grant IDs and the page are untouched. |
| AccessGrants.ClearSelection | web/satellite/src/store/modules/accessGrants.ts:170-178 | Both lists are emptied and every page grant is unmarked. |
| AccessGrants.SelectedAccessGrants | web/satellite/src/store/modules/accessGrants.ts:245 | The getter lists exactly the page grants that are marked. |
| AccessGrants.SelectedDistributes | web/satellite/src/store/modules/accessGrants.ts:245 | The getter keeps page order: it distributes over concatenation. |
| AccessGrants.SetPageConsistent | web/satellite/src/store/modules/accessGrants.ts:109-118 | A freshly fetched page is marked exactly for the selected IDs. |
| AccessGrants.ToggleKeepsConsistent | web/satellite/src/store/modules/accessGrants.ts:138-157 | Toggling keeps the marks in step with the selection and the ID list free of duplicates. |
| AccessGrants.ClearConsistent | web/satellite/src/store/modules/accessGrants.ts:170-178 | After clearing, the page is consistent and nothing is selected. |
| AccessGrants.SelectedAreSelectedIds | web/satellite/src/store/modules/accessGrants.ts:109-178 | In a consistent state the getter lists exactly the page grants whose ID is selected. |

## Left out

- Signing, macaroon authorisation, pointer validation, peer-identity lookup, piece-hash checks, `CalcPieceSize` and the redundancy-strategy constructor are parameters. Their code is not part of this model.
- Logging, metrics and tracing have no effect on results and are omitted.
- Endpoint.CommitSegment: the float64 stored-size check at satellite/metainfo/metainfo.go:1627 is compared exactly, with integers cross-multiplied, rather than in floating point.
- Endpoint.CommitObject: `GetWithBytes` on a missing key is assumed to fail like `Get`, giving Internal. Its behaviour is not shown in this code.
- Deletion.DeleteObjectPieces: the concurrent `DeletePieces` fan-out and its cancellation handling are one collaborator call.
- Marshalling and unmarshalling failures of protobuf messages are not modelled, apart from the decoded-or-not input of the ID checks.
- Pointers.SpaceUsedBound: the bracket is stated for a positive MinReq only. A negative MinReq never passes the redundancy-strategy check, and the exact value for every non-zero MinReq is in CalculateSpaceUsed.
- Pointers.NumberOfSegments: segment-level metadata is modelled as failing to decode as stream metadata. Which bytes protobuf accepts is not modelled.
- Endpoint.CommitSegment: pointer validation is assumed to refuse a pointer whose piece number, for a known node, lies outside the original limits. filterValidPieces indexes the limits with it at satellite/metainfo/metainfo.go:542, and the validation code is not part of this model. A valid redundancy strategy is assumed to have a positive MinReq.
- Endpoint.CommitObjectKeepsWellFormed: it assumes that every stream ID the satellite signed carries a positive MinReq. BeginObject, which validates the scheme before signing, is not part of this model.
- Deletion.DeleteObjectPieces: the store must hold no remote pointer with MinReq 0. In Go, dividing by that MinReq at satellite/metainfo/metainfo.go:239 panics. The three writers are proved to keep this property: Endpoint.CommitSegmentKeepsWellFormed, Endpoint.MakeInlineSegmentKeepsWellFormed and Endpoint.CommitObjectKeepsWellFormed.
- OverlayBatches.BatchUpdateStats: a non-empty request list needs a positive batch size. With size 0 the Go loop at satellite/satellitedb/overlaycache.go:576 never advances, and with a negative size the slice at 582 panics.
- Listing.ListSegments: a request without a cursor panics in Go at satellite/metainfo/metainfo.go:1862 and :1866, where `req.CursorPosition.Index` is read. Here the cursor index is always given.
- Endpoint.MakeInlineSegment: a request without a position panics in Go at satellite/metainfo/metainfo.go:1676, where `req.Position.Index` is read. Here the index is always given.
- Deletion.DeleteObjectPieces: a REMOTE pointer with no remote part panics in Go at satellite/metainfo/metainfo.go:2341 and :2390, where `GetRemote().RootPieceId` is read. Here such a pointer contributes no pieces. The writers never store one, as Endpoint.CommitSegmentKeepsRemoteParts, Endpoint.MakeInlineSegmentKeepsRemoteParts and Endpoint.CommitObjectKeepsRemoteParts prove.
- OrderLimits.SortLimits: a piece number outside the redundancy total panics in Go; here it is excluded by the precondition.
- ApiKeysDb.GetPagedByProjectId: a zero limit panics in Go; here it is the DivideByZero error.
- ApiKeysDb.AsciiLower: `strings.ToLower` is modelled on ASCII letters only.
- AdminQl.CoerceBigInt: floating-point arguments and a nil typed pointer (a Go panic) are not modelled. Unlisted types, including floats, give nil.
- OverlayCache.PopulateUpdateNodeStats: reputation arithmetic, audit history and the online score are floats and clock reads. Their boolean outcomes are inputs.
- OverlayCache.PopulateUpdateNodeStats: int64 overflow of the audit counters is not modelled.
- `updateReputation` and `buildUpdateStatement` are float arithmetic and SQL text, so they are not modelled.
- OverlayBatches.BatchUpdateStats: the per-node lookups, skips and SQL of a batch are one outcome per batch. A lookup failure reports nothing, as the code's `doAppendAll := false` does.
- OverlayBatches.SortByNode: Go's `sort.Slice` is not stable. The model fixes one sorted order, so requests for the same node may come out in another order in Go.
- RsConfig.Set: the `memory.Size` codec is a parameter, and `Type()` is a constant string with no behaviour.
- AdminService.GetNodeUsage: the at-rest total is a float sum and is not modelled. A failing rollup query gives zero totals, as in the code.
- AdminApiKeys.GetApiKeysPage: `sanitizeOrderDirectionName` is not part of this model. The direction is passed on as computed.
- `GetNodesByWallet` only delegates to the database and is not modelled.
- The SQL queries of satellite/satellitedb/apikeys.go and satellite/satellitedb/overlaycache.go are inputs: counts, rows and per-batch outcomes.
- In satellite/satellitedb/overlaycache.go, the retry loop and the SQL of `knownUnreliableOrOffline` are left out. Only its complement step is modelled.
- AccessGrants: the web-worker and gateway-credential mutations, the sort and search setters and `CLEAR` hold no selection logic and are not modelled.
- `cursorFromMap` is a type conversion of `customCursorFromMap`'s result and has no separate member.

## Findings

| source | as written | input that shows it | evidently intended | confidence | as-written member | corrected member |
|---|---|---|---|---|---|---|
| satellite/metainfo/metainfo.go:2301-2307 | A successfully read segment count is always used as `count - 2`. An object whose last segment has empty metadata reads as 0 segments, so the walk starts at -2. | A last segment with no metadata plus segment 0: segment 0 is never deleted and its pieces are never sent. | A count of 0 means "unknown", as in listing, and the numbered segments are found by probing. | not executed | Deletion.ZeroCountSkipsSegments | Deletion.DeleteObjectPieces |
| satellite/satellitedb/overlaycache.go:510-514 | `appendAll` appends every node of the whole request list, not just the failed batch. | Two nodes in batches of 1, where the first batch's write fails and the second commits: the second node is reported failed. | Only the nodes of the failed batch are reported. | not executed | OverlayBatches.AppendAllReportsCommittedBatch | OverlayBatches.FailedMembers |
| satellite/admin/adminql/common_type.go:93-128 | The limit and offset are declared with the `BigInt` scalar, which parses to `int64`, but are read with a `.(uint64)` assertion that never holds for them. The offset is also read from the `limit` argument. | A page query with limit 5 and offset 20 gets limit 10 and offset 0. With `uint64` arguments, the offset would be 5. | The limit and offset are taken from their own arguments in the type the schema gives them. | not executed | AdminQl.SchemaArgsIgnoredAsWritten | AdminQl.CursorRoundTrip |
| satellite/admin/adminql/common_type.go:201-202 | A `uint` is converted with `int64(value)`, with no range check. | `uint(1<<63)` becomes -9223372036854775808. | Like `uint64`: nil beyond the int64 range. | not executed | AdminQl.UintWrapsAsWritten | AdminQl.CoerceBigIntMeaning |

=== FILE: access_grants.dfy ===
/** The selection state of the satellite console's access grants page
    (web/satellite/src/store/modules/accessGrants.ts): the mutations that load a page,
    toggle a grant or a bucket, clear the selection, and the getter of the selected grants. */
module AccessGrants {

  /** A grant as listed on a page; only the fields the selection touches are modelled. */
  datatype AccessGrant = AccessGrant(id: string, name: string, isSelected: bool)

  /** The part of `AccessGrantsState` the selection mutations read and write. */
  datatype SelectionState = SelectionState(
    pageGrants: seq<AccessGrant>,
    selectedIds: seq<string>,
    selectedBucketNames: seq<string>)

  /** `xs.filter(y => x !== y)`. */
  function Remove(xs: seq<string>, x: string): (r: seq<string>)
    ensures forall y :: y in r <==> y in xs && y != x
    ensures |r| <= |xs|
    decreases |xs|
  {
    if |xs| == 0 then []
    else
      var rest := Remove(xs[..|xs| - 1], x);
      assert xs == xs[..|xs| - 1] + [xs[|xs| - 1]];
      if xs[|xs| - 1] == x then rest else rest + [xs[|xs| - 1]]
  }

  /** Removing an element that is not there changes nothing. */
  lemma {:induction false} RemoveAbsent(xs: seq<string>, x: string)
    requires x !in xs
    ensures Remove(xs, x) == xs
    decreases |xs|
  {
    if |xs| > 0 {
      RemoveAbsent(xs[..|xs| - 1], x);
      assert xs == xs[..|xs| - 1] + [xs[|xs| - 1]];
    }
  }

  /** A list-as-set toggle: append when absent, remove every occurrence when present. */
  function Toggle(xs: seq<string>, x: string): (r: seq<string>)
    ensures x in r <==> x !in xs
    ensures forall y :: y != x ==> (y in r <==> y in xs)
  {
    if x !in xs then xs + [x] else Remove(xs, x)
  }

  /** Toggling an absent element twice gives the list back. */
  lemma ToggleTwiceRestores(xs: seq<string>, x: string)
    requires x !in xs
    ensures Toggle(Toggle(xs, x), x) == xs
  {
    assert (xs + [x])[..|xs|] == xs;
    RemoveAbsent(xs, x);
  }

  /** Page grants with the given ID get the given flag; the others keep theirs. */
  function MarkId(grants: seq<AccessGrant>, id: string, selected: bool): (r: seq<AccessGrant>)
    ensures |r| == |grants|
    ensures forall i :: 0 <= i < |grants| ==>
      && r[i].id == grants[i].id && r[i].name == grants[i].name
      && r[i].isSelected == (if grants[i].id == id then selected else grants[i].isSelected)
  {
    seq(|grants|, i requires 0 <= i < |grants| =>
      if grants[i].id == id then grants[i].(isSelected := selected) else grants[i])
  }

  /** `SET_PAGE`: a new page's grant is marked exactly when it came marked or its ID is
      selected; no flag is cleared and no other field changes. */
  function SetPage(st: SelectionState, grants: seq<AccessGrant>): (r: SelectionState)
    ensures r.selectedIds == st.selectedIds && r.selectedBucketNames == st.selectedBucketNames
    ensures |r.pageGrants| == |grants|
    ensures forall i :: 0 <= i < |grants| ==> r.pageGrants[i].id == grants[i].id && r.pageGrants[i].name == grants[i].name
    ensures forall i :: 0 <= i < |grants| ==>
      (r.pageGrants[i].isSelected <==> grants[i].isSelected || grants[i].id in st.selectedIds)
  {
    var marked := seq(|grants|, i requires 0 <= i < |grants| =>
      if grants[i].id in st.selectedIds then grants[i].(isSelected := true) else grants[i]);
    st.(pageGrants := marked)
  }

  /** `TOGGLE_SELECTION`: an unselected grant's ID is appended and its page entries marked;
      a selected one is removed everywhere and its page entries unmarked. */
  function ToggleSelection(st: SelectionState, grant: AccessGrant): (r: SelectionState)
    ensures grant.id !in st.selectedIds ==> r.selectedIds == st.selectedIds + [grant.id]
    ensures grant.id in st.selectedIds ==>
      && grant.id !in r.selectedIds
      && (forall y :: y != grant.id ==> (y in r.selectedIds <==> y in st.selectedIds))
    ensures r.selectedBucketNames == st.selectedBucketNames
    ensures |r.pageGrants| == |st.pageGrants|
    ensures forall i :: 0 <= i < |st.pageGrants| ==>
      && r.pageGrants[i].id == st.pageGrants[i].id
      && r.pageGrants[i].name == st.pageGrants[i].name
      && (st.pageGrants[i].id == grant.id ==> r.pageGrants[i].isSelected == (grant.id !in st.selectedIds))
      && (st.pageGrants[i].id != grant.id ==> r.pageGrants[i] == st.pageGrants[i])
  {
    var wasSelected := grant.id in st.selectedIds;
    st.(pageGrants := MarkId(st.pageGrants, grant.id, !wasSelected),
        selectedIds := Toggle(st.selectedIds, grant.id))
  }

  /** `TOGGLE_BUCKET_SELECTION`: the bucket name is toggled; grants are not touched. */
  function ToggleBucketSelection(st: SelectionState, bucketName: string): (r: SelectionState)
    ensures bucketName in r.selectedBucketNames <==> bucketName !in st.selectedBucketNames
    ensures forall y :: y != bucketName ==> (y in r.selectedBucketNames <==> y in st.selectedBucketNames)
    ensures r.selectedIds == st.selectedIds && r.pageGrants == st.pageGrants
  {
    st.(selectedBucketNames := Toggle(st.selectedBucketNames, bucketName))
  }

  /** `CLEAR_SELECTION`: both lists emptied, every grant on the page unmarked. */
  function ClearSelection(st: SelectionState): (r: SelectionState)
    ensures r.selectedIds == [] && r.selectedBucketNames == []
    ensures |r.pageGrants| == |st.pageGrants|
    ensures forall i :: 0 <= i < |st.pageGrants| ==>
      r.pageGrants[i].id == st.pageGrants[i].id && r.pageGrants[i].name == st.pageGrants[i].name && !r.pageGrants[i].isSelected
  {
    var cleared := seq(|st.pageGrants|, i requires 0 <= i < |st.pageGrants| => st.pageGrants[i].(isSelected := false));
    SelectionState(cleared, [], [])
  }

  /** The `selectedAccessGrants` getter: the marked grants of the page, in page order. */
  function SelectedAccessGrants(grants: seq<AccessGrant>): (r: seq<AccessGrant>)
    ensures forall g :: g in r <==> g in grants && g.isSelected
    ensures |r| <= |grants|
    decreases |grants|
  {
    if |grants| == 0 then []
    else
      var init := grants[..|grants| - 1];
      var last := grants[|grants| - 1];
      assert grants == init + [last];
      SelectedAccessGrants(init) + (if last.isSelected then [last] else [])
  }

  /** The getter keeps page order: it distributes over a split of the page. */
  lemma {:induction false} SelectedDistributes(a: seq<AccessGrant>, b: seq<AccessGrant>)
    ensures SelectedAccessGrants(a + b) == SelectedAccessGrants(a) + SelectedAccessGrants(b)
    decreases |b|
  {
    if |b| == 0 {
      assert a + b == a;
    } else {
      var init := b[..|b| - 1];
      assert (a + b)[..|a + b| - 1] == a + init;
      assert (a + b)[|a + b| - 1] == b[|b| - 1];
      SelectedDistributes(a, init);
    }
  }

  /** The page marks exactly the selected IDs. */
  predicate Consistent(st: SelectionState) {
    forall i :: 0 <= i < |st.pageGrants| ==> (st.pageGrants[i].isSelected <==> st.pageGrants[i].id in st.selectedIds)
  }

  /** Each ID is selected at most once. */
  predicate NoDuplicates(xs: seq<string>) {
    forall i, j :: 0 <= i < j < |xs| ==> xs[i] != xs[j]
  }

  /** A page fetched with nothing marked is consistent with the selection once loaded. */
  lemma SetPageConsistent(st: SelectionState, grants: seq<AccessGrant>)
    requires forall i :: 0 <= i < |grants| ==> !grants[i].isSelected
    ensures Consistent(SetPage(st, grants))
  {
  }

  /** Toggling a grant and clearing keep the page consistent with the selection, and the
      selected list free of duplicates. */
  lemma ToggleKeepsConsistent(st: SelectionState, grant: AccessGrant)
    requires Consistent(st) && NoDuplicates(st.selectedIds)
    ensures Consistent(ToggleSelection(st, grant))
    ensures NoDuplicates(ToggleSelection(st, grant).selectedIds)
  {
    var r := ToggleSelection(st, grant);
    if grant.id in st.selectedIds {
      RemoveKeepsNoDuplicates(st.selectedIds, grant.id);
    }
  }

  lemma {:induction false} RemoveKeepsNoDuplicates(xs: seq<string>, x: string)
    requires NoDuplicates(xs)
    ensures NoDuplicates(Remove(xs, x))
    decreases |xs|
  {
    if |xs| > 0 {
      var init := xs[..|xs| - 1];
      RemoveKeepsNoDuplicates(init, x);
      assert xs[|xs| - 1] !in init;
    }
  }

  lemma ClearConsistent(st: SelectionState)
    ensures Consistent(ClearSelection(st))
    ensures SelectedAccessGrants(ClearSelection(st).pageGrants) == []
  {
    NoneMarkedNoneSelected(ClearSelection(st).pageGrants);
  }

  lemma {:induction false} NoneMarkedNoneSelected(grants: seq<AccessGrant>)
    requires forall i :: 0 <= i < |grants| ==> !grants[i].isSelected
    ensures SelectedAccessGrants(grants) == []
    decreases |grants|
  {
    if |grants| > 0 {
      NoneMarkedNoneSelected(grants[..|grants| - 1]);
    }
  }

  /** On a consistent state the getter lists exactly the page grants whose ID is selected. */
  lemma SelectedAreSelectedIds(st: SelectionState)
    requires Consistent(st)
    ensures forall g :: g in SelectedAccessGrants(st.pageGrants) <==> g in st.pageGrants && g.id in st.selectedIds
  {
  }
}

=== FILE: admin_api_keys.dfy ===
/** The API key operations of the administration service
    (satellite/admin/service/apikey.go), over the key table of satellite/satellitedb/apikeys.go.
    The key table is a map from key ID to row; projects map to their partner ID. Randomness
    (the new secret, the new ID), macaroon serialization and transaction failures are inputs. */
module AdminApiKeys {
  import opened Wrappers
  import opened ApiKeysDb
  import AdminService

  const DefaultPageLimit: nat := 10
  const MaxPageLimit: nat := 100

  /** `service.APIKey`: the admin view of a key row. */
  datatype ApiKey = ApiKey(apiKeyId: string, projectId: string, partnerId: string, name: string, createdAt: int)

  /** `mapAPIKey`. */
  function MapApiKey(k: ApiKeyInfo): ApiKey {
    ApiKey(k.id, k.projectId, k.partnerId, k.name, k.createdAt)
  }

  /** `mapAPIKeys`: one admin key per row, in row order. */
  method MapApiKeys(ps: seq<ApiKeyInfo>) returns (keys: seq<ApiKey>)
    ensures |keys| == |ps|
    ensures forall i :: 0 <= i < |ps| ==>
      && keys[i].apiKeyId == ps[i].id && keys[i].projectId == ps[i].projectId
      && keys[i].partnerId == ps[i].partnerId && keys[i].name == ps[i].name
      && keys[i].createdAt == ps[i].createdAt
  {
    keys := [];
    var i := 0;
    while i < |ps|
      invariant 0 <= i <= |ps|
      invariant |keys| == i
      invariant forall j :: 0 <= j < i ==> keys[j] == MapApiKey(ps[j])
    {
      keys := keys + [MapApiKey(ps[i])];
      i := i + 1;
    }
  }

  /** The page size the admin asks for: capped at 100, and 10 when none is given. */
  function ClampLimit(limit: nat): (l: nat)
    ensures 1 <= l <= MaxPageLimit
    ensures 1 <= limit <= MaxPageLimit ==> l == limit
    ensures limit == 0 ==> l == DefaultPageLimit
    ensures limit > MaxPageLimit ==> l == MaxPageLimit
  {
    var capped := if limit > MaxPageLimit then MaxPageLimit else limit;
    if capped == 0 then DefaultPageLimit else capped
  }

  /** `unmapOrderDirection`: the admin's 0/1 directions are the console's 1/2. */
  function UnmapOrderDirection(order: int): (d: int)
    ensures AdminService.IsValid(order) <==> d == 1 || d == 2
    ensures d - 1 == order
  {
    order + 1
  }

  /** `GetAPIKeysPageByProjectID`, with the table's count and window as inputs:
      names ascending by key name, the direction mapped. */
  function GetApiKeysPage(limit: nat, offset: nat, order: int, search: string, count: nat, rows: seq<ApiKeyInfo>)
    : (r: Result<seq<ApiKey>, PageError>)
    ensures r.Ok? <==> count == 0 || offset <= count - 1
    ensures r.Err? ==> r.error == OutOfRange
    ensures r.Ok? && count == 0 ==> r.value == []
    ensures r.Ok? && count > 0 ==> |r.value| == |rows| && forall i :: 0 <= i < |rows| ==> r.value[i] == MapApiKey(rows[i])
  {
    var page := ApiKeyPage(search, ClampLimit(limit), offset, 1, UnmapOrderDirection(order), 0, 0, 0, []);
    var p :- GetPagedByProjectId(page, count, rows);
    Ok(seq(|p.apiKeys|, i requires 0 <= i < |p.apiKeys| => MapApiKey(p.apiKeys[i])))
  }

  /** The page the admin hands to the table is always between 1 and 50 keys long, so the
      table's page arithmetic never divides by zero on this path. */
  lemma AdminPageNeverDividesByZero(limit: nat, offset: nat, order: int, search: string, count: nat, rows: seq<ApiKeyInfo>)
    ensures var page := ApiKeyPage(search, ClampLimit(limit), offset, 1, UnmapOrderDirection(order), 0, 0, 0, []);
      && 1 <= CapLimit(page.limit) <= MaxLimit
      && GetPagedByProjectId(page, count, rows) != Err(DivideByZero)
      && OrderColumn(page.order) == "ak.name"
  {
  }

  datatype LookupError = KeyDoesNotExist

  /** `GetAPIKey`. */
  function GetApiKey(keys: map<string, ApiKeyInfo>, id: string): (r: Result<ApiKey, LookupError>)
    ensures r.Ok? <==> id in keys
    ensures r.Ok? ==>
      && r.value.apiKeyId == keys[id].id && r.value.name == keys[id].name
      && r.value.projectId == keys[id].projectId && r.value.partnerId == keys[id].partnerId
  {
    if id in keys then Ok(MapApiKey(keys[id])) else Err(KeyDoesNotExist)
  }

  // ---------------------------------------------------------------- creation

  /** A key with this name exists in the project. */
  predicate NameInProject(keys: map<string, ApiKeyInfo>, name: string, projectId: string) {
    exists id :: id in keys && keys[id].name == name && keys[id].projectId == projectId
  }

  /** No project holds two keys with the same name, and every row sits under its own ID. */
  predicate NamesUnique(keys: map<string, ApiKeyInfo>) {
    && (forall id :: id in keys ==> keys[id].id == id)
    && (forall a, b ::
          (a in keys && b in keys && keys[a].name == keys[b].name && keys[a].projectId == keys[b].projectId) ==> a == b)
  }

  /** What the random and external steps of creation yield: whether a secret and a key
      could be made, the ID the insert picks, its time, the serialized key, and whether
      the insert otherwise succeeds. */
  datatype CreateEnv = CreateEnv(
    secretOk: bool, keyOk: bool, newId: string, createdAt: int, serialized: string, insertOk: bool)

  datatype CreateError =
    | ProjectDoesNotExist
    | NameExists
    | CreateFailed    // the secret, the key or the insert could not be made

  datatype CreateReply = CreateReply(keys: map<string, ApiKeyInfo>, result: Result<(ApiKey, string), CreateError>)

  /** The row an insert makes. */
  function NewRow(projects: map<string, string>, projectId: string, name: string, env: CreateEnv): ApiKeyInfo
    requires projectId in projects
  {
    ApiKeyInfo(env.newId, projectId, name, projects[projectId], env.createdAt)
  }

  /** `CreateAPIKey`: the project must exist and must not yet hold a key of that name; the
      key inherits the project's partner ID. An insert under an ID already in use fails. */
  function CreateApiKey(
    projects: map<string, string>, keys: map<string, ApiKeyInfo>,
    projectId: string, name: string, env: CreateEnv): (r: CreateReply)
    ensures projectId !in projects ==> r.result == Err(ProjectDoesNotExist)
    ensures projectId in projects && NameInProject(keys, name, projectId) ==> r.result == Err(NameExists)
    ensures r.result.Ok? <==>
      && projectId in projects && !NameInProject(keys, name, projectId)
      && env.secretOk && env.keyOk && env.insertOk && env.newId !in keys
    ensures r.result.Err? ==> r.keys == keys
    ensures r.result.Ok? ==>
      && r.keys.Keys == keys.Keys + {env.newId}
      && r.keys[env.newId].projectId == projectId && r.keys[env.newId].name == name
      && r.keys[env.newId].partnerId == projects[projectId]
      && (forall id :: id in keys ==> r.keys[id] == keys[id])
      && r.result.value.0.apiKeyId == env.newId && r.result.value.0.name == name
      && r.result.value.1 == env.serialized
  {
    if projectId !in projects then CreateReply(keys, Err(ProjectDoesNotExist))
    else if NameInProject(keys, name, projectId) then CreateReply(keys, Err(NameExists))
    else if !env.secretOk || !env.keyOk then CreateReply(keys, Err(CreateFailed))
    else if !env.insertOk || env.newId in keys then CreateReply(keys, Err(CreateFailed))
    else
      var row := NewRow(projects, projectId, name, env);
      CreateReply(keys[env.newId := row], Ok((MapApiKey(row), env.serialized)))
  }

  /** Creation keeps key names unique within each project. */
  lemma CreateKeepsNamesUnique(
    projects: map<string, string>, keys: map<string, ApiKeyInfo>,
    projectId: string, name: string, env: CreateEnv)
    requires NamesUnique(keys)
    ensures NamesUnique(CreateApiKey(projects, keys, projectId, name, env).keys)
  {
    var r := CreateApiKey(projects, keys, projectId, name, env);
    if r.result.Ok? {
      assert !NameInProject(keys, name, projectId);
      forall id | id in keys ensures keys[id].name != name || keys[id].projectId != projectId {
      }
    }
  }

  /** Once a key is created, creating another of the same name in the project is refused. */
  lemma CreateTwiceRefused(
    projects: map<string, string>, keys: map<string, ApiKeyInfo>,
    projectId: string, name: string, env: CreateEnv, env': CreateEnv)
    requires CreateApiKey(projects, keys, projectId, name, env).result.Ok?
    ensures CreateApiKey(projects, CreateApiKey(projects, keys, projectId, name, env).keys, projectId, name, env').result
      == Err(NameExists)
  {
    var k := CreateApiKey(projects, keys, projectId, name, env).keys;
    assert k[env.newId].name == name && k[env.newId].projectId == projectId;
    assert NameInProject(k, name, projectId);
  }

  // ---------------------------------------------------------------- deletion

  /** The requested IDs without a key, in request order. */
  function MissingIds(ids: seq<string>, keys: map<string, ApiKeyInfo>): (m: seq<string>)
    ensures |m| <= |ids|
    decreases |ids|
  {
    if |ids| == 0 then []
    else
      var rest := MissingIds(ids[..|ids| - 1], keys);
      if ids[|ids| - 1] in keys then rest else rest + [ids[|ids| - 1]]
  }

  /** The missing list is exactly the requested IDs without a key. */
  lemma {:induction false} MissingIdsMembers(ids: seq<string>, keys: map<string, ApiKeyInfo>)
    ensures forall id :: id in MissingIds(ids, keys) <==> id in ids && id !in keys
    decreases |ids|
  {
    if |ids| > 0 {
      var init := ids[..|ids| - 1];
      MissingIdsMembers(init, keys);
      assert ids == init + [ids[|ids| - 1]];
    }
  }

  datatype DeleteError =
    | KeysMissing(ids: seq<string>)   // every requested ID without a key, reported together
    | TransactionFailed

  /** `DeleteAPIKeys`: every ID is looked up first and all misses are reported together;
      only when none is missing are the keys deleted, in one transaction. `failAt` is the
      position of a delete that fails inside the transaction, if any; the transaction is
      then rolled back. Deleting an ID twice is harmless. */
  method DeleteApiKeys(keys: map<string, ApiKeyInfo>, ids: seq<string>, failAt: Option<nat>)
    returns (keys': map<string, ApiKeyInfo>, r: Result<(), DeleteError>)
    ensures MissingIds(ids, keys) != [] ==> r == Err(KeysMissing(MissingIds(ids, keys)))
    ensures r.Ok? <==> MissingIds(ids, keys) == [] && (failAt.None? || failAt.value >= |ids|)
    ensures r.Err? ==> keys' == keys
    ensures r.Ok? ==> keys'.Keys == keys.Keys - set i | 0 <= i < |ids| :: ids[i]
    ensures r.Ok? ==> forall id :: id in keys' ==> keys'[id] == keys[id]
  {
    var missing: seq<string> := [];
    var i := 0;
    while i < |ids|
      invariant 0 <= i <= |ids|
      invariant missing == MissingIds(ids[..i], keys)
    {
      assert ids[..i + 1][..i] == ids[..i];
      if ids[i] !in keys {
        missing := missing + [ids[i]];
      }
      i := i + 1;
    }
    assert ids[..|ids|] == ids;
    if missing != [] {
      return keys, Err(KeysMissing(missing));
    }
    var tx := keys;
    i := 0;
    while i < |ids|
      invariant 0 <= i <= |ids|
      invariant failAt.Some? ==> i <= failAt.value
      invariant tx.Keys == keys.Keys - set j | 0 <= j < i :: ids[j]
      invariant forall id :: id in tx ==> tx[id] == keys[id]
    {
      if failAt == Some(i) {
        return keys, Err(TransactionFailed);
      }
      tx := map id | id in tx && id != ids[i] :: tx[id];
      i := i + 1;
    }
    return tx, Ok(());
  }

  /** Nothing is reported missing exactly when every requested ID has a key. */
  lemma {:induction false} NoneMissingIffAllPresent(ids: seq<string>, keys: map<string, ApiKeyInfo>)
    ensures MissingIds(ids, keys) == [] <==> forall i :: 0 <= i < |ids| ==> ids[i] in keys
    decreases |ids|
  {
    if |ids| > 0 {
      var init := ids[..|ids| - 1];
      NoneMissingIffAllPresent(init, keys);
      assert forall i :: 0 <= i < |init| ==> init[i] == ids[i];
    }
  }

  // ---------------------------------------------------------------- gateway access

  /** `uplink.Scope`: the satellite address, the API key and the encryption key source. */
  datatype Scope = Scope(satelliteAddr: string, apiKey: string, encryptionKey: string)

  /** The external steps: parsing the token as an API key, hashing it into the default
      encryption key, and serializing the scope. */
  datatype GatewayEnv = GatewayEnv(
    parseApiKey: string -> Option<string>,
    hashKey: string -> Option<string>,
    serialize: Scope -> Option<string>)

  datatype GatewayError = TokenIsEmpty | ParseFailed | KeyFailed | SerializeFailed

  /** `APIKeyToGatewayAccessKey`: an empty token is refused before anything else; the access
      is the scope of the satellite's full address, the parsed key and the token's hash. */
  function ApiKeyToGatewayAccessKey(
    env: GatewayEnv, satelliteNodeId: Option<string>, satelliteAddress: string, token: string)
    : (r: Result<string, GatewayError>)
    ensures token == "" <==> r == Err(TokenIsEmpty)
    ensures r.Ok? <==>
      && token != "" && env.parseApiKey(token).Some? && env.hashKey(token).Some?
      && env.serialize(Scope(AdminService.GetFullAddress(satelliteNodeId, satelliteAddress),
                             env.parseApiKey(token).value, env.hashKey(token).value)).Some?
    ensures r.Ok? ==>
      Some(r.value) == env.serialize(Scope(AdminService.GetFullAddress(satelliteNodeId, satelliteAddress),
                                           env.parseApiKey(token).value, env.hashKey(token).value))
  {
    if |token| <= 0 then Err(TokenIsEmpty)
    else
      match env.parseApiKey(token)
      case None => Err(ParseFailed)
      case Some(apiKey) =>
        match env.hashKey(token)
        case None => Err(KeyFailed)
        case Some(key) =>
          match env.serialize(Scope(AdminService.GetFullAddress(satelliteNodeId, satelliteAddress), apiKey, key))
          case None => Err(SerializeFailed)
          case Some(access) => Ok(access)
  }
}

=== FILE: admin_service.dfy ===
/** The administration service's small helpers: the order direction
    (satellite/admin/service/service.go), the satellite's public address and the usage
    summary of one storage node (satellite/admin/service/node.go). */
module AdminService {
  import opened Wrappers
  import opened Text
  import opened Decimal

  /** `OrderDirection`: ascending is 0, descending is 1. */
  const OrderAsc: int := 0
  const OrderDsc: int := 1

  /** `OrderDirection.IsValid`. */
  predicate IsValid(o: int)
    ensures IsValid(o) <==> o == OrderAsc || o == OrderDsc
  {
    OrderAsc <= o <= OrderDsc
  }

  /** `GetFullAddress`: `id@address` when the node ID is configured and the address is
      not empty, otherwise the address alone. */
  function GetFullAddress(satelliteNodeId: Option<string>, satelliteAddress: string): (r: string)
    ensures satelliteNodeId.Some? && satelliteAddress != "" ==> |r| == |satelliteNodeId.value| + 1 + |satelliteAddress|
    ensures satelliteNodeId.None? || satelliteAddress == "" ==> r == satelliteAddress
  {
    if satelliteNodeId.Some? && |satelliteAddress| > 0 then satelliteNodeId.value + "@" + satelliteAddress
    else satelliteAddress
  }

  /** A node ID free of `@` is recovered from the full address as the part before the first
      `@`, and the address as the rest. */
  lemma FullAddressSplits(nodeId: string, address: string)
    requires !Contains(nodeId, '@') && address != ""
    ensures var parts := Split(GetFullAddress(Some(nodeId), address), '@');
      && parts[0] == nodeId
      && Join(parts[1..], '@') == address
  {
    SplitFirstSeparator(nodeId, '@', address);
    JoinSplit(address, '@');
    assert ([nodeId] + Split(address, '@'))[1..] == Split(address, '@');
  }

  /** One row of the storage node rollup; the at-rest total (a float) is not modelled. */
  datatype Rollup = Rollup(putTotal: int, getTotal: int, getAuditTotal: int, getRepairTotal: int, putRepairTotal: int)

  /** The five integer counters of a rollup. */
  datatype Counter = Put | Get | GetAudit | GetRepair | PutRepair

  function Count(r: Rollup, c: Counter): int {
    match c
    case Put => r.putTotal
    case Get => r.getTotal
    case GetAudit => r.getAuditTotal
    case GetRepair => r.getRepairTotal
    case PutRepair => r.putRepairTotal
  }

  /** The mathematical sum of one counter over the rows. */
  function Total(rows: seq<Rollup>, c: Counter): int
    decreases |rows|
  {
    if |rows| == 0 then 0 else Total(rows[..|rows| - 1], c) + Count(rows[|rows| - 1], c)
  }

  /** The total over a concatenation is the sum of the totals. */
  lemma {:induction false} TotalAppend(a: seq<Rollup>, b: seq<Rollup>, c: Counter)
    ensures Total(a + b, c) == Total(a, c) + Total(b, c)
    decreases |b|
  {
    if |b| > 0 {
      assert (a + b)[..|a + b| - 1] == a + b[..|b| - 1];
      TotalAppend(a, b[..|b| - 1], c);
    } else {
      assert a + b == a;
    }
  }

  datatype NodeUsage = NodeUsage(
    nodeId: string,
    startTime: int,
    endTime: int,
    putTotal: int,
    getTotal: int,
    getAuditTotal: int,
    getRepairTotal: int,
    putRepairTotal: int)

  function UsageCount(u: NodeUsage, c: Counter): int {
    match c
    case Put => u.putTotal
    case Get => u.getTotal
    case GetAudit => u.getAuditTotal
    case GetRepair => u.getRepairTotal
    case PutRepair => u.putRepairTotal
  }

  datatype UsageError =
    | BadNodeId            // `storj.NodeIDFromString` rejected the text
    | StartNotBeforeEnd    // the period is empty or reversed

  const Int64Range: int := 0x1_0000_0000_0000_0000

  /** Adding to an int64 counter wraps: the wrapped sum depends only on the mathematical sum. */
  lemma WrapAdd(a: int, b: int)
    ensures Wrap64(Wrap64(a) + b) == Wrap64(a + b)
  {
    var w := Wrap64(a);
    var k := (a - w) / Int64Range;
    assert a - w == k * Int64Range;
    assert (w + b) == (a + b) - k * Int64Range;
    ModShift(a + b, k);
  }

  lemma ModShift(x: int, k: int)
    ensures (x - k * Int64Range) % Int64Range == x % Int64Range
  {
  }

  /** `GetNodeUsage`: the ID is parsed first, then the period is checked; a failing rollup
      query is not reported and leaves every total at zero (`rows` is then `Err`). The sums
      accumulate in int64 counters. Times are instants on one clock. */
  method GetNodeUsage(
    nodeIdString: string, parseNodeId: string -> Option<string>,
    start: int, end: int, rows: Result<seq<Rollup>, ()>)
    returns (r: Result<NodeUsage, UsageError>)
    ensures parseNodeId(nodeIdString).None? ==> r == Err(BadNodeId)
    ensures parseNodeId(nodeIdString).Some? && start >= end ==> r == Err(StartNotBeforeEnd)
    ensures r.Ok? <==> parseNodeId(nodeIdString).Some? && start < end
    ensures r.Ok? ==>
      && r.value.nodeId == parseNodeId(nodeIdString).value
      && r.value.startTime == start && r.value.endTime == end
      && forall c :: UsageCount(r.value, c) == Wrap64(Total(if rows.Ok? then rows.value else [], c))
  {
    var nodeId := parseNodeId(nodeIdString);
    if nodeId.None? {
      return Err(BadNodeId);
    }
    if !(start < end) {
      return Err(StartNotBeforeEnd);
    }
    var rs := if rows.Ok? then rows.value else [];
    var nu := NodeUsage(nodeId.value, start, end, 0, 0, 0, 0, 0);
    var i := 0;
    while i < |rs|
      invariant 0 <= i <= |rs|
      invariant nu.nodeId == nodeId.value && nu.startTime == start && nu.endTime == end
      invariant forall c :: UsageCount(nu, c) == Wrap64(Total(rs[..i], c))
    {
      var row := rs[i];
      assert rs[..i + 1][..i] == rs[..i];
      forall c ensures Wrap64(UsageCount(nu, c) + Count(row, c)) == Wrap64(Total(rs[..i + 1], c)) {
        WrapAdd(Total(rs[..i], c), Count(row, c));
      }
      nu := nu.(
        putTotal := Wrap64(nu.putTotal + row.putTotal),
        getTotal := Wrap64(nu.getTotal + row.getTotal),
        getAuditTotal := Wrap64(nu.getAuditTotal + row.getAuditTotal),
        getRepairTotal := Wrap64(nu.getRepairTotal + row.getRepairTotal),
        putRepairTotal := Wrap64(nu.putRepairTotal + row.putRepairTotal));
      i := i + 1;
    }
    assert rs[..|rs|] == rs;
    return Ok(nu);
  }
}

=== FILE: adminql_common.dfy ===
/** The shared pieces of the administration GraphQL schema
    (satellite/admin/adminql/common_type.go): the `BigInt` scalar's coercion of Go values
    and the paging cursor read from query arguments. */
module AdminQl {
  import opened Wrappers
  import opened Decimal
  import AdminService

  // ---------------------------------------------------------------- BigInt coercion

  /** A Go value behind an `interface{}`. `Ptr` is a non-nil pointer; floating-point values
      are not modelled and fall under `Other` with every type the coercion does not list. */
  datatype GoValue =
    | Nil
    | Bool(b: bool)
    | Int(i: int)       // `int` of a 64-bit platform
    | Int8(i: int)
    | Int16(i: int)
    | Int32(i: int)
    | Int64(i: int)
    | Uint(i: int)      // `uint` of a 64-bit platform
    | Uint8(i: int)
    | Uint16(i: int)
    | Uint32(i: int)
    | Uint64(i: int)
    | Str(s: string)
    | Ptr(target: GoValue)
    | Other

  /** Each integer lies in the range of its Go type. */
  predicate WellTyped(v: GoValue) {
    match v
    case Int(i) => InInt64(i)
    case Int8(i) => -0x80 <= i < 0x80
    case Int16(i) => -0x8000 <= i < 0x8000
    case Int32(i) => InInt32(i)
    case Int64(i) => InInt64(i)
    case Uint(i) => 0 <= i < 0x1_0000_0000_0000_0000
    case Uint8(i) => 0 <= i < 0x100
    case Uint16(i) => 0 <= i < 0x1_0000
    case Uint32(i) => 0 <= i < 0x1_0000_0000
    case Uint64(i) => 0 <= i < 0x1_0000_0000_0000_0000
    case Ptr(t) => WellTyped(t)
    case _ => true
  }

  /** The types the coercion lists; a pointer is followed only to one of these. */
  predicate Listed(v: GoValue) {
    !(v.Nil? || v.Ptr? || v.Other?)
  }

  /** `coerceBigInt` as written: `None` is Go's `nil`. A `uint` is converted with
      `int64(value)` without the range check that `uint64` has. */
  function CoerceBigIntAsWritten(v: GoValue): (r: Option<int>)
    requires WellTyped(v)
    ensures r.Some? ==> InInt64(r.value)
    ensures v.Uint? ==> r == Some(Wrap64(v.i))
  {
    match v
    case Nil => None
    case Bool(b) => Some(if b then 1 else 0)
    case Int(i) => Some(i)
    case Int8(i) => Some(i)
    case Int16(i) => Some(i)
    case Int32(i) => Some(i)
    case Int64(i) => Some(i)
    case Uint(i) => Some(Wrap64(i))
    case Uint8(i) => Some(i)
    case Uint16(i) => Some(i)
    case Uint32(i) => Some(i)
    case Uint64(i) => if i > MaxInt64 then None else Some(i)
    case Str(s) => ParseInt64(s)
    case Ptr(t) => if Listed(t) then CoerceBigIntAsWritten(t) else None
    case Other => None
  }

  /** `coerceBigInt` with `uint` treated like `uint64`: a value beyond int64 gives `nil`. */
  function CoerceBigInt(v: GoValue): (r: Option<int>)
    requires WellTyped(v)
    ensures r.Some? ==> InInt64(r.value)
  {
    match v
    case Uint(i) => if i > MaxInt64 then None else Some(i)
    case Ptr(t) => if Listed(t) then CoerceBigInt(t) else None
    case _ => CoerceBigIntAsWritten(v)
  }

  /** Base-10 text with an optional sign, read without a width limit. */
  function DecimalText(s: string): Option<int> {
    if |s| == 0 then None
    else
      var digits := if s[0] == '-' || s[0] == '+' then s[1..] else s;
      if |digits| == 0 || !AllDigits(digits) then None
      else if s[0] == '-' then Some(0 - DigitsValue(digits))
      else Some(DigitsValue(digits))
  }

  /** The whole number a value stands for, independently of any width: booleans are 0 and
      1, integers themselves, strings their decimal reading, a pointer its pointee. */
  function Denotes(v: GoValue): Option<int> {
    match v
    case Bool(b) => Some(if b then 1 else 0)
    case Int(i) => Some(i)
    case Int8(i) => Some(i)
    case Int16(i) => Some(i)
    case Int32(i) => Some(i)
    case Int64(i) => Some(i)
    case Uint(i) => Some(i)
    case Uint8(i) => Some(i)
    case Uint16(i) => Some(i)
    case Uint32(i) => Some(i)
    case Uint64(i) => Some(i)
    case Str(s) => DecimalText(s)
    case Ptr(t) => if Listed(t) then Denotes(t) else None
    case _ => None
  }

  /** The `BigInt` scalar's promise: a value becomes an integer exactly when it stands for
      a whole number in the int64 range, and then it becomes that number; anything else
      is `nil`, never 0. */
  lemma {:induction false} CoerceBigIntMeaning(v: GoValue)
    requires WellTyped(v)
    ensures CoerceBigInt(v) == (if Denotes(v).Some? && InInt64(Denotes(v).value) then Denotes(v) else None)
  {
    match v
    case Ptr(t) =>
      if Listed(t) {
        CoerceBigIntMeaning(t);
      }
    case Str(s) =>
    case _ =>
  }

  /** As written, the `uint` just past int64 turns into the most negative int64, where the
      same number as a `uint64` gives `nil`. */
  lemma UintWrapsAsWritten()
    ensures CoerceBigIntAsWritten(Uint(MaxInt64 + 1)) == Some(MinInt64)
    ensures CoerceBigIntAsWritten(Uint64(MaxInt64 + 1)) == None
    ensures Denotes(Uint(MaxInt64 + 1)) == Some(MaxInt64 + 1)
    ensures CoerceBigInt(Uint(MaxInt64 + 1)) == None
  {
  }

  /** The two coercions differ only on `uint` values beyond int64. */
  lemma {:induction false} CoercionsAgreeElsewhere(v: GoValue)
    requires WellTyped(v)
    ensures CoerceBigInt(v) != CoerceBigIntAsWritten(v) <==>
      (v.Uint? && v.i > MaxInt64) || (v.Ptr? && v.target.Uint? && v.target.i > MaxInt64)
  {
    match v
    case Ptr(t) =>
      if Listed(t) {
        CoercionsAgreeElsewhere(t);
      }
    case Uint(i) =>
    case _ =>
  }

  // ---------------------------------------------------------------- cursor

  const DefaultCursorLimit: nat := 10
  const LimitArg: string := "limit"
  const OffsetArg: string := "offset"
  const SearchArg: string := "search"
  const OrderArg: string := "order"

  /** An argument value as GraphQL hands it over. The `BigInt` scalar the cursor's limit and
      offset are declared with parses to an `int64`; a `uint64` reaches the code only from a
      caller that builds the argument map itself. */
  datatype Arg =
    | AUint64(n: nat)
    | AInt64(i: int)
    | AString(s: string)
    | AOrder(direction: int)   // a `service.OrderDirection`
    | AOther

  /** The `args` value: a `map[string]interface{}` or something else. */
  datatype Args = ArgMap(m: map<string, Arg>) | NotAMap

  /** `CustomCursor` (and `Cursor`, the same fields): search and order keep whatever the
      arguments held, `None` for a missing key. */
  datatype Cursor = Cursor(customSearch: Option<Arg>, limit: nat, offset: nat, customOrder: Option<Arg>)

  function Lookup(m: map<string, Arg>, key: string): Option<Arg> {
    if key in m then Some(m[key]) else None
  }

  /** The number supplied under `key`, when it is a `uint64`. */
  function UintArg(m: map<string, Arg>, key: string): Option<nat> {
    if key in m && m[key].AUint64? then Some(m[key].n) else None
  }

  /** `customCursorFromMap` as written: only a `uint64` is taken, and the offset is read
      from the `limit` argument. */
  function CustomCursorFromMapAsWritten(args: Args): (c: Option<Cursor>)
    ensures c.None? <==> args.NotAMap?
    ensures c.Some? ==> c.value.offset == (match UintArg(args.m, LimitArg) case Some(n) => n case None => 0)
    ensures c.Some? && !(LimitArg in args.m && args.m[LimitArg].AUint64?) ==>
      c.value.limit == DefaultCursorLimit && c.value.offset == 0
  {
    match args
    case NotAMap => None
    case ArgMap(m) =>
      var limit := match UintArg(m, LimitArg) case Some(n) => n case None => DefaultCursorLimit;
      var offset := match UintArg(m, LimitArg) case Some(n) => n case None => 0;
      Some(Cursor(Lookup(m, SearchArg), limit, offset, Lookup(m, OrderArg)))
  }

  /** An argument that can stand for a page size or position: a `uint64`, or a
      non-negative `int64` as the `BigInt` scalar delivers it. */
  predicate IsCount(a: Arg) {
    a.AUint64? || (a.AInt64? && a.i >= 0)
  }

  /** The count supplied under `key`, of either integer type. */
  function CountArg(m: map<string, Arg>, key: string): Option<nat> {
    if key !in m then None
    else match m[key]
      case AUint64(n) => Some(n)
      case AInt64(i) => if i >= 0 then Some(i) else None
      case _ => None
  }

  /** `customCursorFromMap` reading the limit and the offset from their own arguments,
      in the type the schema declares them with. */
  function CustomCursorFromMap(args: Args): (c: Option<Cursor>)
    ensures c.None? <==> args.NotAMap?
    ensures c.Some? ==>
      && (LimitArg in args.m && args.m[LimitArg].AUint64? ==> c.value.limit == args.m[LimitArg].n)
      && (LimitArg in args.m && args.m[LimitArg].AInt64? && args.m[LimitArg].i >= 0 ==> c.value.limit == args.m[LimitArg].i)
      && (!(LimitArg in args.m && IsCount(args.m[LimitArg])) ==> c.value.limit == DefaultCursorLimit)
      && (OffsetArg in args.m && args.m[OffsetArg].AUint64? ==> c.value.offset == args.m[OffsetArg].n)
      && (OffsetArg in args.m && args.m[OffsetArg].AInt64? && args.m[OffsetArg].i >= 0 ==> c.value.offset == args.m[OffsetArg].i)
      && (!(OffsetArg in args.m && IsCount(args.m[OffsetArg])) ==> c.value.offset == 0)
      && (c.value.customSearch.Some? <==> SearchArg in args.m)
      && (c.value.customOrder.Some? <==> OrderArg in args.m)
  {
    match args
    case NotAMap => None
    case ArgMap(m) =>
      var limit := match CountArg(m, LimitArg) case Some(n) => n case None => DefaultCursorLimit;
      var offset := match CountArg(m, OffsetArg) case Some(n) => n case None => 0;
      Some(Cursor(Lookup(m, SearchArg), limit, offset, Lookup(m, OrderArg)))
  }

  /** `Cursor.Search`: the search text, or empty when the argument is not a string. */
  function Search(c: Cursor): (s: string)
    ensures (c.customSearch.Some? && c.customSearch.value.AString?) ==> s == c.customSearch.value.s
    ensures !(c.customSearch.Some? && c.customSearch.value.AString?) ==> s == ""
  {
    match c.customSearch
    case Some(AString(s)) => s
    case _ => ""
  }

  /** `Cursor.Order`: the given direction when it is a valid one, ascending otherwise. */
  function Order(c: Cursor): (o: int)
    ensures AdminService.IsValid(o)
    ensures (c.customOrder.Some? && c.customOrder.value.AOrder? && AdminService.IsValid(c.customOrder.value.direction))
      <==> (c.customOrder.Some? && c.customOrder.value == AOrder(o))
  {
    match c.customOrder
    case Some(AOrder(o)) => if AdminService.IsValid(o) then o else AdminService.OrderAsc
    case _ => AdminService.OrderAsc
  }

  /** The arguments a page query carries once the schema has parsed them: the limit
      and the offset are `int64` values. */
  function PageArgs(search: string, limit: int, offset: int, order: int): Args {
    ArgMap(map[SearchArg := AString(search), LimitArg := AInt64(limit), OffsetArg := AInt64(offset),
               OrderArg := AOrder(order)])
  }

  /** The same arguments with `uint64` numbers, the type the code tests for. */
  function UintPageArgs(search: string, limit: nat, offset: nat, order: int): Args {
    ArgMap(map[SearchArg := AString(search), LimitArg := AUint64(limit), OffsetArg := AUint64(offset),
               OrderArg := AOrder(order)])
  }

  /** Round trip: a cursor read from a client's page arguments gives back the search,
      the limit, the offset and a valid order. */
  lemma CursorRoundTrip(search: string, limit: nat, offset: nat, order: int)
    requires AdminService.IsValid(order)
    requires InInt64(limit) && InInt64(offset)
    ensures var c := CustomCursorFromMap(PageArgs(search, limit, offset, order));
      && c.Some?
      && Search(c.value) == search && c.value.limit == limit && c.value.offset == offset
      && Order(c.value) == order
  {
  }

  /** As written, page arguments parsed by the schema are never taken: whatever limit and
      offset the client sends, the cursor holds the default limit and offset 0. */
  lemma SchemaArgsIgnoredAsWritten(search: string, limit: int, offset: int, order: int)
    ensures var c := CustomCursorFromMapAsWritten(PageArgs(search, limit, offset, order));
      c.Some? && c.value.limit == DefaultCursorLimit && c.value.offset == 0
  {
  }

  /** As written, even `uint64` arguments lose the offset: a limit of 5 with an offset
      of 20 reads back with an offset of 5. */
  lemma OffsetReadFromLimitAsWritten()
    ensures CustomCursorFromMapAsWritten(UintPageArgs("", 5, 20, AdminService.OrderAsc)).value.offset == 5
    ensures CustomCursorFromMap(UintPageArgs("", 5, 20, AdminService.OrderAsc)).value.offset == 20
  {
  }

  /** Through the schema, a limit of 5 with an offset of 20 gives limit 10 and offset 0
      as written, and limit 5 and offset 20 once both arguments are read in their type. */
  lemma SchemaPageAsWritten()
    ensures CustomCursorFromMapAsWritten(PageArgs("", 5, 20, AdminService.OrderAsc)).value.limit == 10
    ensures CustomCursorFromMapAsWritten(PageArgs("", 5, 20, AdminService.OrderAsc)).value.offset == 0
    ensures CustomCursorFromMap(PageArgs("", 5, 20, AdminService.OrderAsc)).value.limit == 5
    ensures CustomCursorFromMap(PageArgs("", 5, 20, AdminService.OrderAsc)).value.offset == 20
  {
  }
}

=== FILE: api_keys_db.dfy ===
/** The paging arithmetic of `GetPagedByProjectID` and the order column of
    satellite/satellitedb/apikeys.go. The two SQL queries are inputs: the number of keys
    matching the search, and the rows of the requested window. */
module ApiKeysDb {
  import opened Wrappers
  import opened Text

  /** The largest page the database hands out. */
  const MaxLimit: nat := 50

  datatype ApiKeyInfo = ApiKeyInfo(id: string, projectId: string, name: string, partnerId: string, createdAt: int)

  /** `console.APIKeyPage`: the request fields and the fields the listing fills in. */
  datatype ApiKeyPage = ApiKeyPage(
    search: string,
    limit: nat,
    offset: nat,
    order: int,
    orderDirection: int,
    totalCount: nat,
    pageCount: nat,
    currentPage: nat,
    apiKeys: seq<ApiKeyInfo>)

  datatype PageError =
    | OutOfRange        // the offset is past the last matching key
    | DivideByZero      // a zero limit reaches `TotalCount / Limit`: a run-time panic in Go

  /** The `LIKE` pattern: the search with every space widened to `%`, wrapped in `%`. */
  function SearchPattern(search: string): (pattern: string)
    ensures |pattern| == |search| + 2
    ensures pattern[0] == '%' && pattern[|pattern| - 1] == '%'
    ensures forall i :: 0 <= i < |search| ==> pattern[i + 1] == (if search[i] == ' ' then '%' else search[i])
    ensures !Contains(pattern, ' ')
  {
    "%" + ReplaceAll(search, ' ', '%') + "%"
  }

  /** `strings.ToLower` on ASCII letters. */
  function AsciiLower(s: string): (r: string)
    ensures |r| == |s|
    ensures forall i :: 0 <= i < |s| ==> !('A' <= r[i] <= 'Z')
    ensures forall i :: 0 <= i < |s| ==> ('A' <= s[i] <= 'Z' ==> r[i] as int == s[i] as int + 32)
    ensures forall i :: 0 <= i < |s| ==> (!('A' <= s[i] <= 'Z') ==> r[i] == s[i])
  {
    seq(|s|, i requires 0 <= i < |s| => if 'A' <= s[i] <= 'Z' then (s[i] as int + 32) as char else s[i])
  }

  /** The argument both queries compare `lower(ak.name)` with: the lowered search pattern.
      Spaces become `%` and every other character is lowered as the search itself would be. */
  function LikeArgument(search: string): (arg: string)
    ensures |arg| == |search| + 2
    ensures arg[0] == '%' && arg[|arg| - 1] == '%'
    ensures !Contains(arg, ' ')
    ensures forall i :: 0 <= i < |arg| ==> !('A' <= arg[i] <= 'Z')
    ensures forall i :: 0 <= i < |search| ==>
      arg[i + 1] == (if search[i] == ' ' then '%' else AsciiLower(search)[i])
  {
    var pattern := SearchPattern(search);
    var arg := AsciiLower(pattern);
    assert forall i :: 0 <= i < |arg| ==> arg[i] != ' ' by {
      forall i | 0 <= i < |arg| ensures arg[i] != ' ' {
        assert pattern[i] != ' ';
      }
    }
    arg
  }

  /** `sanitizedAPIKeyOrderColumnName`: only order 2 sorts by creation time. */
  function OrderColumn(order: int): (column: string)
    ensures column == "ak.created_at" <==> order == 2
    ensures column == "ak.name" <==> order != 2
  {
    if order == 2 then "ak.created_at" else "ak.name"
  }

  function CapLimit(limit: nat): (capped: nat)
    ensures capped <= MaxLimit
    ensures limit <= MaxLimit ==> capped == limit
    ensures limit > MaxLimit ==> capped == MaxLimit
  {
    if limit > MaxLimit then MaxLimit else limit
  }

  /** `GetPagedByProjectID` given the number of matching keys and the rows of the window. */
  function GetPagedByProjectId(page: ApiKeyPage, count: nat, rows: seq<ApiKeyInfo>): (r: Result<ApiKeyPage, PageError>)
    ensures count == 0 ==> r == Ok(page.(limit := CapLimit(page.limit), totalCount := 0))
    ensures count > 0 && page.offset > count - 1 ==> r == Err(OutOfRange)
    ensures count > 0 && page.offset <= count - 1 && CapLimit(page.limit) == 0 ==> r == Err(DivideByZero)
    ensures r.Ok? && count > 0 ==>
      var p := r.value;
      && p.limit == CapLimit(page.limit) > 0
      && p.totalCount == count && p.apiKeys == rows
      && (p.pageCount - 1) * p.limit < count <= p.pageCount * p.limit
      && p.currentPage == page.offset / p.limit + 1
      && p.search == page.search && p.offset == page.offset && p.order == page.order
      && p == page.(limit := p.limit, totalCount := count, apiKeys := rows,
                    pageCount := p.pageCount, currentPage := p.currentPage)
  {
    var limit := CapLimit(page.limit);
    if count == 0 then Ok(page.(limit := limit, totalCount := 0))
    else if page.offset > count - 1 then Err(OutOfRange)
    else if limit == 0 then Err(DivideByZero)
    else
      Ok(page.(limit := limit, totalCount := count, apiKeys := rows, pageCount := PageCount(count, limit),
               currentPage := page.offset / limit + 1))
  }

  /** The page count: the quotient rounded up, as an unsigned division and remainder. */
  function PageCount(count: nat, limit: nat): (pc: nat)
    requires count > 0 && limit > 0
    ensures (pc - 1) * limit < count <= pc * limit
  {
    PageCountBounds(count, limit);
    count / limit + (if count % limit != 0 then 1 else 0)
  }

  /** The rounded-up quotient is the least number of pages that hold all keys. */
  lemma PageCountBounds(count: nat, limit: nat)
    requires count > 0 && limit > 0
    ensures var pc := count / limit + (if count % limit != 0 then 1 else 0);
      (pc - 1) * limit < count <= pc * limit
  {
    var q, m := count / limit, count % limit;
    assert count == q * limit + m;
    if m != 0 {
      assert (q + 1) * limit == q * limit + limit;
    } else {
      assert q >= 1;
      assert (q - 1) * limit == q * limit - limit;
    }
  }

  /** The current page is one of the pages and holds the requested offset. */
  lemma {:induction false} CurrentPageHoldsOffset(page: ApiKeyPage, count: nat, rows: seq<ApiKeyInfo>)
    requires count > 0
    requires GetPagedByProjectId(page, count, rows).Ok?
    ensures var p := GetPagedByProjectId(page, count, rows).value;
      && 1 <= p.currentPage <= p.pageCount
      && (p.currentPage - 1) * p.limit <= page.offset < p.currentPage * p.limit
  {
    var p := GetPagedByProjectId(page, count, rows).value;
    var limit, cp, pc := p.limit, p.currentPage, p.pageCount;
    var q := page.offset / limit;
    assert page.offset == q * limit + page.offset % limit;
    assert cp * limit == q * limit + limit;
    assert (cp - 1) * limit == q * limit;
    assert q * limit <= page.offset < pc * limit;
    if q >= pc {
      MulMonotone(pc, q, limit);
      assert false;
    }
  }

  lemma MulMonotone(a: nat, b: nat, c: nat)
    requires a <= b
    ensures a * c <= b * c
  {
  }
}

=== FILE: decimal.dfy ===
/** Base-10 integer text as Go's `strconv.FormatInt(n, 10)` writes it and
    `strconv.ParseInt(s, 10, 64)` / `strconv.Atoi` read it (64-bit platform). */
module Decimal {
  import opened Wrappers

  const MinInt64: int := -0x8000_0000_0000_0000
  const MaxInt64: int := 0x7FFF_FFFF_FFFF_FFFF

  predicate InInt64(n: int) { MinInt64 <= n <= MaxInt64 }

  const MinInt32: int := -0x8000_0000
  const MaxInt32: int := 0x7FFF_FFFF

  predicate InInt32(n: int) { MinInt32 <= n <= MaxInt32 }

  /** Two's-complement truncation to 32 bits (Go's `int32(x)` and int32 arithmetic). */
  function Wrap32(x: int): (r: int)
    ensures InInt32(r)
    ensures InInt32(x) ==> r == x
    ensures (x - r) % 0x1_0000_0000 == 0
  {
    var m := x % 0x1_0000_0000;
    if m > MaxInt32 then m - 0x1_0000_0000 else m
  }

  /** Two's-complement truncation to 64 bits (Go's `int64(x)`). */
  function Wrap64(x: int): (r: int)
    ensures InInt64(r)
    ensures InInt64(x) ==> r == x
    ensures (x - r) % 0x1_0000_0000_0000_0000 == 0
  {
    var m := x % 0x1_0000_0000_0000_0000;
    if m > MaxInt64 then m - 0x1_0000_0000_0000_0000 else m
  }

  predicate IsDigit(c: char) { '0' <= c <= '9' }

  predicate AllDigits(s: string) { forall i :: 0 <= i < |s| ==> IsDigit(s[i]) }

  function DigitChar(d: int): (c: char)
    requires 0 <= d < 10
    ensures IsDigit(c)
  {
    "0123456789"[d]
  }

  function DigitValue(c: char): int
    requires IsDigit(c)
  {
    c as int - '0' as int
  }

  /** Decimal digits of a natural number, most significant first, no leading zero. */
  function FormatNat(n: nat): (s: string)
    ensures |s| >= 1 && AllDigits(s)
    ensures s[0] == '0' ==> n == 0
  {
    if n < 10 then [DigitChar(n)]
    else FormatNat(n / 10) + [DigitChar(n % 10)]
  }

  /** `strconv.FormatInt(n, 10)`. */
  function FormatInt(n: int): string {
    if n < 0 then "-" + FormatNat(-n) else FormatNat(n)
  }

  /** The value of a digit string, read most significant first. */
  function DigitsValue(s: string): nat
    requires AllDigits(s)
  {
    if |s| == 0 then 0
    else DigitsValue(s[..|s| - 1]) * 10 + DigitValue(s[|s| - 1])
  }

  /** `strconv.ParseInt(s, 10, 64)`: an optional sign, then at least one
      decimal digit and nothing else, with the value inside int64. */
  function ParseInt64(s: string): (r: Option<int>)
    ensures r.Some? ==> InInt64(r.value)
  {
    if |s| == 0 then None
    else
      var negative := s[0] == '-';
      var digits := if s[0] == '-' || s[0] == '+' then s[1..] else s;
      if |digits| == 0 || !AllDigits(digits) then None
      else
        var magnitude: int := DigitsValue(digits);
        var v := if negative then 0 - magnitude else magnitude;
        if InInt64(v) then Some(v) else None
  }

  lemma {:induction false} DigitCharValue(d: int)
    requires 0 <= d < 10
    ensures DigitValue(DigitChar(d)) == d
  {
  }

  /** Reading back what FormatNat wrote gives the number. */
  lemma {:induction false} DigitsValueFormatNat(n: nat)
    ensures DigitsValue(FormatNat(n)) == n
    decreases n
  {
    var s := FormatNat(n);
    if n < 10 {
      DigitCharValue(n);
    } else {
      DigitsValueFormatNat(n / 10);
      assert s[..|s| - 1] == FormatNat(n / 10);
      DigitCharValue(n % 10);
    }
  }

  /** Round trip: every int64 parses back from its decimal text. */
  lemma ParseFormatInt(n: int)
    requires InInt64(n)
    ensures ParseInt64(FormatInt(n)) == Some(n)
  {
    var s := FormatInt(n);
    if n < 0 {
      var digits := FormatNat(-n);
      assert s == "-" + digits && s[0] == '-';
      assert s[1..] == digits;
      DigitsValueFormatNat(-n);
      assert ParseInt64(s) == Some(0 - DigitsValue(digits));
    } else {
      assert s == FormatNat(n) && IsDigit(s[0]);
      DigitsValueFormatNat(n);
      assert ParseInt64(s) == Some(DigitsValue(s));
    }
  }

  /** Distinct naturals have distinct decimal text. */
  lemma FormatNatInjective(m: nat, n: nat)
    requires FormatNat(m) == FormatNat(n)
    ensures m == n
  {
    DigitsValueFormatNat(m);
    DigitsValueFormatNat(n);
  }
}

=== FILE: deletion.dfy ===
/** `DeleteObjectPieces` (satellite/metainfo/metainfo.go): remove an object's segment
    pointers, last segment first and then the numbered ones from the highest down,
    and ask the object's storage nodes to delete the pieces. */
module Deletion {
  import opened Wrappers
  import opened Pointers
  import opened SegmentPath
  import opened SegmentStore
  import opened PieceCollection

  /** One storage node and the pieces it is asked to delete. */
  datatype NodePieces = NodePieces(node: NodeId, pieces: seq<PieceId>)

  /** Collaborators: the overlay's `KnownReliable` (None on failure) and whether the
      piece-deletion service reports failure for a request list. */
  datatype DeleteEnv = DeleteEnv(
    knownReliable: seq<NodeId> -> Option<seq<NodeId>>,
    deletePiecesFails: seq<NodePieces> -> bool)

  datatype DeleteError = Status(code: StatusCode) | PieceDeletionFailed

  /** What a completed deletion sends out: the piece-deletion requests and the
      change reported to the project's storage usage (0 when nothing is reported). */
  datatype Effects = Effects(requests: seq<NodePieces>, usageDelta: int)

  /** The pieces a deleted pointer contributes: those of a remote pointer only. */
  function RemoteIds(p: Pointer): seq<PieceId> {
    if p.ptype == Remote then PointerPieceIds(p) else []
  }

  /** The segment size a deleted pointer contributes: that of a remote pointer only. */
  function RemoteSize(p: Pointer): int
    requires SpaceComputable(p)
  {
    if p.ptype == Remote then CalculateSpaceUsed(p).0 else 0
  }

  lemma StoredPointerComputable(s: Store, loc: Location, i: int)
    requires WellFormedStore(s) && Present(s, loc, i)
    ensures SpaceComputable(GetPointer(s, loc, i).value)
  {
    assert PathOf(loc, i) in s.entries;
  }

  function SegmentIds(s: Store, loc: Location, i: int): seq<PieceId> {
    if Present(s, loc, i) then RemoteIds(GetPointer(s, loc, i).value) else []
  }

  function SegmentSize(s: Store, loc: Location, i: int): int
    requires WellFormedStore(s)
  {
    if Present(s, loc, i) then
      StoredPointerComputable(s, loc, i);
      RemoteSize(GetPointer(s, loc, i).value)
    else 0
  }

  /** Reference: the pieces of segments hi, hi - 1, …, lo, in that order. */
  function WalkIds(s: Store, loc: Location, hi: int, lo: nat): seq<PieceId>
    decreases if hi >= lo then hi - lo + 1 else 0
  {
    if hi < lo then [] else WalkIds(s, loc, hi, lo + 1) + SegmentIds(s, loc, lo)
  }

  /** Reference: the summed segment sizes of segments hi .. lo. */
  function WalkSize(s: Store, loc: Location, hi: int, lo: nat): int
    requires WellFormedStore(s)
    decreases if hi >= lo then hi - lo + 1 else 0
  {
    if hi < lo then 0 else WalkSize(s, loc, hi, lo + 1) + SegmentSize(s, loc, lo)
  }

  /** Reference: the keys of the present segments among lo .. hi. */
  function Removed(s: Store, loc: Location, hi: int, lo: nat): set<string> {
    set j | lo <= j <= hi && Present(s, loc, j) :: PathOf(loc, j)
  }

  /** The key of the last segment when it is present. */
  function LastRemoved(s: Store, loc: Location): set<string> {
    if Present(s, loc, LastSegment) then {PathOf(loc, LastSegment)} else {}
  }

  lemma RemovedStep(s: Store, loc: Location, hi: int, lo: nat)
    requires lo <= hi
    ensures Removed(s, loc, hi, lo)
      == Removed(s, loc, hi, lo + 1) + (if Present(s, loc, lo) then {PathOf(loc, lo)} else {})
  {
  }

  lemma {:induction false} RemovedEmpty(s: Store, loc: Location, hi: int, lo: nat)
    requires hi < lo
    ensures Removed(s, loc, hi, lo) == {}
  {
  }

  /** The key of segment i is not among the keys removed above it. */
  lemma NotRemovedBelow(s: Store, loc: Location, hi: int, i: nat)
    ensures PathOf(loc, i) !in Removed(s, loc, hi, i + 1)
    ensures PathOf(loc, i) !in LastRemoved(s, loc)
  {
    forall j | i + 1 <= j <= hi && Present(s, loc, j) ensures PathOf(loc, j) != PathOf(loc, i) {
      PathOfInjective(loc, i, j);
    }
    PathOfInjective(loc, i, LastSegment);
  }

  /** One step of the walk: segment `idx` is deletable exactly when present, and deleting
      it removes its key and yields the pieces and size the references count for it. */
  lemma WalkStep(s: Store, loc: Location, prev: int, idx: nat, cur: Store)
    requires WellFormedStore(s) && idx <= prev
    requires cur.broken == s.broken
    requires cur.entries == s.entries - LastRemoved(s, loc) - Removed(s, loc, prev, idx + 1)
    ensures var d := DeletePointer(cur, loc, idx);
      && (d.Ok? ==>
            && d.value.1.broken == s.broken
            && d.value.1.entries == s.entries - LastRemoved(s, loc) - Removed(s, loc, prev, idx)
            && SpaceComputable(d.value.0)
            && SegmentIds(s, loc, idx) == RemoteIds(d.value.0)
            && SegmentSize(s, loc, idx) == RemoteSize(d.value.0))
      && (d.Err? ==>
            && SegmentIds(s, loc, idx) == [] && SegmentSize(s, loc, idx) == 0
            && Removed(s, loc, prev, idx) == Removed(s, loc, prev, idx + 1))
  {
    NotRemovedBelow(s, loc, prev, idx);
    assert GetPointer(cur, loc, idx) == GetPointer(s, loc, idx);
    RemovedStep(s, loc, prev, idx);
    if Present(s, loc, idx) {
      StoredPointerComputable(s, loc, idx);
    }
  }

  /** The walk has handled segments `prev` down to `lo`: their keys are gone and their
      pieces and sizes are added to what the walk started with. */
  predicate Walked(s: Store, loc: Location, prev: int, lo: nat, acc0: Collected, size0: int,
                   cur: Store, acc: Collected, size: int)
    requires WellFormedStore(s)
  {
    && cur.broken == s.broken
    && cur.entries == s.entries - LastRemoved(s, loc) - Removed(s, loc, prev, lo)
    && acc == AddAll(acc0, WalkIds(s, loc, prev, lo))
    && size == size0 + WalkSize(s, loc, prev, lo)
  }

  /** Before the first iteration nothing is removed or collected. */
  lemma WalkedNothing(s: Store, loc: Location, prev: int, acc0: Collected, size0: int, start: Store)
    requires WellFormedStore(s) && prev >= -1
    requires start.broken == s.broken && start.entries == s.entries - LastRemoved(s, loc)
    ensures Walked(s, loc, prev, prev + 1, acc0, size0, start, acc0, size0)
  {
    RemovedEmpty(s, loc, prev, prev + 1);
    assert s.entries - LastRemoved(s, loc) - {} == s.entries - LastRemoved(s, loc);
  }

  /** One iteration of the walk: delete segment `idx` if it can be read, and count the
      pieces and size of a remote one. */
  method DeleteSegment(s: Store, loc: Location, prev: int, idx: nat, acc0: Collected, size0: int,
                       cur: Store, acc: Collected, size: int)
    returns (cur': Store, acc': Collected, size': int)
    requires WellFormedStore(s) && idx <= prev
    requires Walked(s, loc, prev, idx + 1, acc0, size0, cur, acc, size)
    ensures Walked(s, loc, prev, idx, acc0, size0, cur', acc', size')
  {
    WalkStep(s, loc, prev, idx, cur);
    AddAllAppend(acc0, WalkIds(s, loc, prev, idx + 1), SegmentIds(s, loc, idx));
    cur', acc', size' := cur, acc, size;
    var deleted := DeletePointer(cur, loc, idx);
    if deleted.Ok? {
      var (p, next) := deleted.value;
      cur' := next;
      if p.ptype == Remote {
        acc' := AddAll(acc, PointerPieceIds(p));
        var (segmentSize, _) := CalculateSpaceUsed(p);
        size' := size + segmentSize;
      }
    }
  }

  /** The numbered walk: delete segments prev, prev - 1, …, 0, skipping any that cannot be
      read, and collect the pieces and sizes of the remote ones. */
  method WalkDown(s: Store, loc: Location, prev: int, start: Store, acc0: Collected, size0: int)
    returns (cur: Store, acc: Collected, size: int)
    requires WellFormedStore(s) && prev >= -1
    requires start.broken == s.broken && start.entries == s.entries - LastRemoved(s, loc)
    ensures Walked(s, loc, prev, 0, acc0, size0, cur, acc, size)
  {
    var idx := prev;
    cur, acc, size := start, acc0, size0;
    WalkedNothing(s, loc, prev, acc0, size0, start);
    while idx >= 0
      invariant -1 <= idx <= prev
      invariant Walked(s, loc, prev, idx + 1, acc0, size0, cur, acc, size)
      decreases idx
    {
      cur, acc, size := DeleteSegment(s, loc, prev, idx, acc0, size0, cur, acc, size);
      idx := idx - 1;
    }
  }

  /** The pieces and size the last segment contributes. */
  function LastIds(s: Store, loc: Location): seq<PieceId> {
    SegmentIds(s, loc, LastSegment)
  }

  function LastSize(s: Store, loc: Location): int
    requires WellFormedStore(s)
  {
    SegmentSize(s, loc, LastSegment)
  }

  /** The request for each node the overlay returned: the node's collected pieces,
      none for a node that holds none. */
  function Requests(acc: Collected, nodes: seq<NodeId>): (reqs: seq<NodePieces>)
    ensures |reqs| == |nodes|
    ensures forall i :: 0 <= i < |nodes| ==> reqs[i].node == nodes[i]
  {
    seq(|nodes|, i requires 0 <= i < |nodes| =>
      NodePieces(nodes[i], if nodes[i] in acc.pieces then acc.pieces[nodes[i]] else []))
  }

  /** The tail of DeleteObjectPieces: nothing is sent when no node holds a piece or the
      overlay lookup fails; otherwise each reliable node gets its pieces, and once the
      deletion succeeded the deleted size is reported as negative usage. */
  function Send(env: DeleteEnv, acc: Collected, size: int): (r: Result<Effects, DeleteError>)
    ensures |acc.order| == 0 || env.knownReliable(acc.order).None? ==> r == Ok(Effects([], 0))
    ensures |acc.order| > 0 && env.knownReliable(acc.order).Some? ==>
      var reqs := Requests(acc, env.knownReliable(acc.order).value);
      && (r.Err? <==> env.deletePiecesFails(reqs))
      && (r.Err? ==> r.error == PieceDeletionFailed)
      && (r.Ok? ==> r.value.requests == reqs && r.value.usageDelta == -size)
  {
    if |acc.order| == 0 then Ok(Effects([], 0))
    else match env.knownReliable(acc.order)
      case None => Ok(Effects([], 0))
      case Some(nodes) =>
        var reqs := Requests(acc, nodes);
        if env.deletePiecesFails(reqs) then Err(PieceDeletionFailed)
        else Ok(Effects(reqs, if size != 0 then -size else 0))
  }

  /** What is sent, in terms of the deleted pieces: the overlay is asked about each node
      once, in first-seen order, and each request carries exactly that node's pieces. */
  lemma SendMeaning(env: DeleteEnv, ids: seq<PieceId>, size: int)
    ensures var r := Send(env, Collect(ids), size);
      && (|ids| == 0 ==> r == Ok(Effects([], 0)))
      && (Collect(ids).order == DistinctNodes(ids))
      && (r.Ok? ==> forall i :: 0 <= i < |r.value.requests| ==>
            r.value.requests[i].pieces == PiecesOn(ids, r.value.requests[i].node))
  {
    CollectMeaning(ids);
    var acc := Collect(ids);
    var r := Send(env, acc, size);
    if r.Ok? {
      forall i | 0 <= i < |r.value.requests|
        ensures r.value.requests[i].pieces == PiecesOn(ids, r.value.requests[i].node)
      {
        var n := r.value.requests[i].node;
        if n !in acc.pieces {
          NoPiecesOffList(ids, n);
        }
      }
    }
  }

  /** Whether the numbered segments are found by probing: when the last segment is
      missing, and (corrected) when its metadata records no positive segment count. */
  predicate ProbeNeeded(count: Result<int, StatusCode>) {
    count == Err(NotFound) || (count.Ok? && count.value <= 0)
  }

  /** The highest numbered segment to delete and whether the last segment is missing. */
  function StartIndex(count: Result<int, StatusCode>, probed: Result<int, StatusCode>): (r: Result<(int, bool), StatusCode>)
    ensures count.Ok? && count.value > 0 ==> r == Ok((count.value - 2, false))
    ensures ProbeNeeded(count) && probed.Ok? && probed.value >= 0 ==> r == Ok((probed.value, count.Err?))
    ensures count.Ok? && count.value <= 0 && probed == Ok(-1) ==> r == Ok((-1, false))
    ensures count == Err(NotFound) && probed == Ok(-1) ==> r == Err(NotFound)
    ensures ProbeNeeded(count) && probed.Err? ==> r == probed.PropagateFailure()
    ensures r.Ok? ==> (r.value.1 <==> count.Err?)
    ensures count.Err? && count.error != NotFound ==> r == count.PropagateFailure()
  {
    match count
    case Err(NotFound) =>
      (match probed
       case Err(e) => Err(e)
       case Ok(p) => if p == -1 then Err(NotFound) else Ok((p, true)))
    case Err(e) => Err(e)
    case Ok(n) =>
      if n > 0 then Ok((n - 2, false))
      else
        match probed
        case Err(e) => Err(e)
        case Ok(p) => Ok((p, false))
  }

  /** The start index as the source computes it: a recorded count is trusted even when it is 0. */
  function StartIndexAsWritten(count: Result<int, StatusCode>, probed: Result<int, StatusCode>): (r: Result<(int, bool), StatusCode>)
    ensures count.Ok? ==> r == Ok((count.value - 2, false))
    ensures count == Err(NotFound) && probed.Ok? && probed.value >= 0 ==> r == Ok((probed.value, true))
  {
    match count
    case Err(NotFound) =>
      (match probed
       case Err(e) => Err(e)
       case Ok(p) => if p == -1 then Err(NotFound) else Ok((p, true)))
    case Err(e) => Err(e)
    case Ok(n) => Ok((n - 2, false))
  }

  /** Where the walk may start: the recorded count when positive, otherwise the end of
      the run of segments from 0 (at least one of them when the last segment is missing). */
  predicate StartsAt(s: Store, loc: Location, prev: int) {
    match GetObjectNumberOfSegments(s, loc)
    case Ok(n) =>
      if n > 0 then prev == n - 2
      else prev >= -1 && AllPresent(s, loc, 0, prev + 1) && GetPointer(s, loc, prev + 1) == Err(NotFound)
    case Err(e) =>
      e == NotFound && prev >= 0 && AllPresent(s, loc, 0, prev + 1) && GetPointer(s, loc, prev + 1) == Err(NotFound)
  }

  /** The start index computed from the recorded count and, when needed, the probe is
      where the walk may start. */
  lemma StartIndexStartsAt(s: Store, loc: Location, probed: Result<int, StatusCode>)
    requires var count := GetObjectNumberOfSegments(s, loc);
      && (!ProbeNeeded(count) ==> probed == Ok(-1))
      && (ProbeNeeded(count) && probed.Ok? ==>
            && probed.value >= -1
            && AllPresent(s, loc, 0, probed.value + 1)
            && GetPointer(s, loc, probed.value + 1) == Err(NotFound))
      && StartIndex(count, probed).Ok?
    ensures StartsAt(s, loc, StartIndex(GetObjectNumberOfSegments(s, loc), probed).value.0)
  {
  }

  /** Only one index satisfies StartsAt. */
  lemma StartsAtUnique(s: Store, loc: Location, a: int, b: int)
    requires StartsAt(s, loc, a) && StartsAt(s, loc, b)
    ensures a == b
  {
    if !(GetObjectNumberOfSegments(s, loc).Ok? && GetObjectNumberOfSegments(s, loc).value > 0) {
      RunEndUnique(s, loc, a + 1, b + 1);
    }
  }

  /** The effect of a deletion that started at `prev`. */
  predicate Outcome(env: DeleteEnv, s: Store, loc: Location, prev: int, final: Store, r: Result<Effects, DeleteError>)
    requires WellFormedStore(s)
  {
    && final.broken == s.broken
    && final.entries == s.entries - LastRemoved(s, loc) - Removed(s, loc, prev, 0)
    && r == Send(env, Collect(LastIds(s, loc) + WalkIds(s, loc, prev, 0)), LastSize(s, loc) + WalkSize(s, loc, prev, 0))
  }

  /** No segment of an object with n segments remains readable or stored. */
  predicate ObjectGone(s: Store, loc: Location, n: int) {
    forall i :: -1 <= i < n - 1 ==> GetPointer(s, loc, i) == Err(NotFound)
  }

  lemma GoneAfterRemoval(s: Store, final: Store, loc: Location, n: int)
    requires ConsistentObject(s, loc, n) && Present(s, loc, LastSegment)
    requires final.broken == s.broken
    requires final.entries == s.entries - LastRemoved(s, loc) - Removed(s, loc, n - 2, 0)
    ensures ObjectGone(final, loc, n)
  {
    forall i | -1 <= i < n - 1 ensures GetPointer(final, loc, i) == Err(NotFound) {
      if i >= 0 {
        assert Present(s, loc, i);
        assert PathOf(loc, i) in Removed(s, loc, n - 2, 0);
      }
    }
  }

  /** Deletion of the last segment: a read failure other than NotFound aborts; otherwise
      its key is gone and its pieces and size, when remote, are collected. */
  method DeleteLastSegment(s: Store, loc: Location) returns (failed: bool, cur: Store, acc: Collected, size: int)
    requires WellFormedStore(s)
    ensures failed <==> GetPointer(s, loc, LastSegment) == Err(Internal)
    ensures !failed ==>
      && cur.broken == s.broken
      && cur.entries == s.entries - LastRemoved(s, loc)
      && acc == AddAll(Empty, LastIds(s, loc))
      && size == LastSize(s, loc)
  {
    failed, cur, acc, size := false, s, Empty, 0;
    var deleted := DeletePointer(s, loc, LastSegment);
    if deleted.Err? && deleted != Err(NotFound) {
      failed := true;
      return;
    }
    if deleted.Ok? {
      var (p, next) := deleted.value;
      cur := next;
      StoredPointerComputable(s, loc, LastSegment);
      if p.ptype == Remote {
        acc := AddAll(acc, PointerPieceIds(p));
        var (segmentSize, _) := CalculateSpaceUsed(p);
        size := size + segmentSize;
      }
    } else {
      assert s.entries - LastRemoved(s, loc) == s.entries;
    }
  }

  /** The numbered walk from `prev`, after the last segment was handled, followed by
      the piece-deletion requests. */
  method WalkAndSend(env: DeleteEnv, s: Store, loc: Location, prev: int, start: Store, acc0: Collected, size0: int)
    returns (final: Store, r: Result<Effects, DeleteError>)
    requires WellFormedStore(s) && prev >= -1
    requires start.broken == s.broken && start.entries == s.entries - LastRemoved(s, loc)
    requires acc0 == AddAll(Empty, LastIds(s, loc)) && size0 == LastSize(s, loc)
    ensures Outcome(env, s, loc, prev, final, r)
  {
    var acc, size;
    final, acc, size := WalkDown(s, loc, prev, start, acc0, size0);
    AddAllAppend(Empty, LastIds(s, loc), WalkIds(s, loc, prev, 0));
    r := Send(env, acc, size);
  }

  /** `DeleteObjectPieces`, with a recorded segment count of 0 treated as unknown. */
  method DeleteObjectPieces(env: DeleteEnv, s: Store, loc: Location) returns (final: Store, r: Result<Effects, DeleteError>)
    requires WellFormedStore(s)
    ensures r.Err? && r.error.Status? ==> final == s
    ensures GetObjectNumberOfSegments(s, loc) == Err(Internal) ==> r == Err(Status(Internal))
    ensures GetObjectNumberOfSegments(s, loc) == Err(NotFound) && GetPointer(s, loc, 0) == Err(NotFound)
      ==> r == Err(Status(NotFound))
    ensures forall prev :: StartsAt(s, loc, prev) ==> Outcome(env, s, loc, prev, final, r)
    ensures forall n ::
      ConsistentObject(s, loc, n) && Present(s, loc, LastSegment)
      && (GetObjectNumberOfSegments(s, loc) == Ok(n) || GetObjectNumberOfSegments(s, loc) == Ok(0))
      ==> ObjectGone(final, loc, n)
  {
    var count := GetObjectNumberOfSegments(s, loc);
    var probed: Result<int, StatusCode> := Ok(-1);
    if ProbeNeeded(count) {
      probed := FindIndexPreviousLastSegment(s, loc);
    }
    var start := StartIndex(count, probed);
    if start.Err? {
      return s, Err(Status(start.error));
    }
    var (prev, lastSegmentNotFound) := start.value;
    var cur, acc, size := s, Empty, 0;
    if !lastSegmentNotFound {
      var failed;
      failed, cur, acc, size := DeleteLastSegment(s, loc);
      if failed {
        return s, Err(Status(Internal));
      }
    } else {
      assert !Present(s, loc, LastSegment);
      assert s.entries - LastRemoved(s, loc) == s.entries;
    }
    StartIndexStartsAt(s, loc, probed);
    final, r := WalkAndSend(env, s, loc, prev, cur, acc, size);
    forall prev' | StartsAt(s, loc, prev') ensures Outcome(env, s, loc, prev', final, r) {
      StartsAtUnique(s, loc, prev', prev);
    }
    forall n | ConsistentObject(s, loc, n) && Present(s, loc, LastSegment) && (count == Ok(n) || count == Ok(0))
      ensures ObjectGone(final, loc, n)
    {
      GoneAfterRemoval(s, final, loc, n);
    }
  }

  /** With the source's start index, an object whose last segment records a count of 0
      keeps its numbered segments: the walk would start below segment 0. */
  lemma ZeroCountSkipsSegments(loc: Location, last: Pointer, first: Pointer)
    requires last.metadata == NoMetadata && SpaceComputable(last) && SpaceComputable(first)
    ensures var s := Store(map[PathOf(loc, LastSegment) := last, PathOf(loc, 0) := first], {});
      && GetObjectNumberOfSegments(s, loc) == Ok(0)
      && StartIndexAsWritten(GetObjectNumberOfSegments(s, loc), Ok(-1)) == Ok((-2, false))
      && Present(s, loc, 0)
      && PathOf(loc, 0) in s.entries.Keys - LastRemoved(s, loc) - Removed(s, loc, -2, 0)
  {
    PathOfInjective(loc, LastSegment, 0);
    var s := Store(map[PathOf(loc, LastSegment) := last, PathOf(loc, 0) := first], {});
    RemovedEmpty(s, loc, -2, 0);
  }

  /** The corrected start probes instead and covers segment 0 of that object. */
  lemma ZeroCountProbed(loc: Location, last: Pointer, first: Pointer)
    requires last.metadata == NoMetadata && SpaceComputable(last) && SpaceComputable(first)
    ensures var s := Store(map[PathOf(loc, LastSegment) := last, PathOf(loc, 0) := first], {});
      && ConsistentObject(s, loc, 2)
      && ProbeNeeded(GetObjectNumberOfSegments(s, loc))
      && StartsAt(s, loc, 0)
  {
    PathOfInjective(loc, LastSegment, 0);
    PathOfInjective(loc, LastSegment, 1);
    PathOfInjective(loc, 0, 1);
  }
}

=== FILE: endpoint.dfy ===
/** The commit paths of the metainfo endpoint (satellite/metainfo/metainfo.go):
    `CommitSegment`, `MakeInlineSegment` and `CommitObject`. */
module Endpoint {
  import opened Wrappers
  import opened Pointers
  import opened SegmentPath
  import opened SegmentStore
  import opened PieceValidation
  import opened Tokens

  /** The request-independent collaborators: the satellite signer and clock, request
      authorisation (the project of an authorised write to bucket/path), pointer
      validation, the piece validator, the project usage limits and the order service. */
  datatype Env = Env(
    signer: Signer,
    now: int,
    authorize: (string, string) -> Option<string>,
    pointerValid: (Pointer, seq<Option<OrderLimit>>) -> bool,
    validator: Validator,
    usageLookupFails: bool,
    usageExceeded: bool,
    inlineOrderFails: bool)

  /** A valid redundancy strategy has a positive minimum (`infectious.NewFEC` refuses k <= 0). */
  ghost predicate StrategyNeedsMinimum(env: Env) {
    forall red :: env.validator.strategyValid(red) ==> red.minReq > 0
  }

  /** Every stream ID the satellite signed carries a redundancy scheme with a positive
      minimum (BeginObject validates the scheme before it signs the ID). */
  ghost predicate SignedStreamsNeedMinimum(env: Env) {
    forall stream | StreamIdVerifies(env.signer, stream) :: stream.redundancy.minReq > 0
  }

  /** The store after the call, the storage usage it reported, and its answer. */
  datatype Reply<T> = Reply(store: Store, usageAdded: int, result: Result<T, StatusCode>)

  datatype UploadResult = UploadResult(pieceNum: int, nodeId: NodeId, hash: Option<PieceHash>)

  datatype CommitSegmentRequest = CommitSegmentRequest(
    segmentId: Option<SegmentId>,
    uploadResults: seq<UploadResult>,
    encryptedKey: seq<Byte>,
    keyNonce: seq<Byte>,
    sizeEncryptedData: int)

  function PiecesFromUploads(uploads: seq<UploadResult>): (ps: seq<RemotePiece>)
    ensures |ps| == |uploads|
    ensures forall i :: 0 <= i < |uploads| ==>
      ps[i] == RemotePiece(uploads[i].pieceNum, uploads[i].nodeId, uploads[i].hash)
  {
    seq(|uploads|, i requires 0 <= i < |uploads| =>
      RemotePiece(uploads[i].pieceNum, uploads[i].nodeId, uploads[i].hash))
  }

  /** The pointer CommitSegment builds from a verified segment ID and the request. */
  function UploadedPointer(seg: SegmentId, req: CommitSegmentRequest): (p: Pointer)
    requires seg.streamId.Some?
  {
    var stream := seg.streamId.value;
    Pointer(
      Remote,
      req.sizeEncryptedData,
      None,
      Some(RemoteSegment(stream.redundancy, seg.rootPieceId, PiecesFromUploads(req.uploadResults))),
      SegmentMeta(req.encryptedKey, req.keyNonce),
      stream.creationDate,
      stream.expirationDate,
      true)
  }

  /** Pointer validation refuses a remote pointer that names a piece number outside the
      original limits for a known node (filterValidPieces indexes the limit list with it). */
  ghost predicate ValidationBoundsPieceNumbers(env: Env) {
    forall p, limits | env.pointerValid(p, limits) && p.remote.Some? ::
      Indexable(env.validator, limits, p.remote.value.pieces)
  }

  /** `piece.Hash = nil` for every piece: hashes are not stored. */
  function ClearHashes(p: Pointer): (q: Pointer)
    ensures q.remote.Some? <==> p.remote.Some?
    ensures p.remote.Some? ==>
      && q.remote.value.redundancy == p.remote.value.redundancy
      && |q.remote.value.pieces| == |p.remote.value.pieces|
      && forall i :: 0 <= i < |p.remote.value.pieces| ==>
           q.remote.value.pieces[i] == p.remote.value.pieces[i].(hash := None)
    ensures q.(remote := p.remote) == p
  {
    if p.remote.None? then p
    else
      var ps := p.remote.value.pieces;
      p.(remote := Some(p.remote.value.(pieces := seq(|ps|, i requires 0 <= i < |ps| => ps[i].(hash := None)))))
  }

  /** The size-consistency check: more stored bytes than segmentSize / minReq · total is
      refused (compared exactly, where the source compares float64 values). */
  predicate StoresTooMuch(p: Pointer)
    requires p.remote.Some? && p.remote.value.redundancy.minReq > 0 && SpaceComputable(p)
  {
    var red := p.remote.value.redundancy;
    CalculateSpaceUsed(p).1 * red.minReq > p.segmentSize * red.total
  }

  /** The request passes the segment-ID, authorisation and upload-count checks. */
  predicate Admitted(env: Env, req: CommitSegmentRequest) {
    && UnmarshalSegmentId(env.signer, req.segmentId, env.now).Ok?
    && var stream := req.segmentId.value.streamId.value;
    && env.authorize(stream.bucket, stream.encryptedPath).Some?
    && |req.uploadResults| >= stream.redundancy.successThreshold
  }

  /** An admitted request whose pointer also passes validation. */
  predicate Validated(env: Env, req: CommitSegmentRequest) {
    && Admitted(env, req)
    && env.pointerValid(UploadedPointer(req.segmentId.value, req), req.segmentId.value.originalLimits)
  }

  /** The piece filter's verdict on a validated request's pointer. */
  function FilteredUpload(env: Env, req: CommitSegmentRequest): Result<Pointer, FilterError>
    requires ValidationBoundsPieceNumbers(env) && Validated(env, req)
  {
    FilterValidPieces(env.validator, UploadedPointer(req.segmentId.value, req), req.segmentId.value.originalLimits)
  }

  /** The key a commit writes and the pointer it stores there, when every check before the
      write passes: a valid ID, authorisation, enough uploads, pointer validation, the
      piece filter, a usable index, the usage limits and the stored-size check. */
  function SegmentTarget(env: Env, req: CommitSegmentRequest): (t: Option<(string, Pointer)>)
    requires ValidationBoundsPieceNumbers(env) && StrategyNeedsMinimum(env)
    ensures t.Some? <==>
      && Validated(env, req) && FilteredUpload(env, req).Ok?
      && req.segmentId.value.index >= -1
      && !env.usageLookupFails && !env.usageExceeded
      && !StoresTooMuch(ClearHashes(FilteredUpload(env, req).value))
    ensures t.Some? ==>
      var seg := req.segmentId.value;
      var stream := seg.streamId.value;
      && t.value.0 == SegmentKey(env.authorize(stream.bucket, stream.encryptedPath).value, seg.index, stream.bucket, stream.encryptedPath)
      && t.value.1 == ClearHashes(FilteredUpload(env, req).value)
      && t.value.1.ptype == Remote && t.value.1.segmentSize == req.sizeEncryptedData
      && |t.value.1.remote.value.pieces| >= stream.redundancy.successThreshold
  {
    if !Validated(env, req) then None
    else match FilteredUpload(env, req)
      case Err(_) => None
      case Ok(filtered) =>
        var seg := req.segmentId.value;
        var stream := seg.streamId.value;
        var stored := ClearHashes(filtered);
        if seg.index < -1 || env.usageLookupFails || env.usageExceeded || StoresTooMuch(stored) then None
        else Some((SegmentKey(env.authorize(stream.bucket, stream.encryptedPath).value, seg.index, stream.bucket, stream.encryptedPath), stored))
  }

  /** `CommitSegment`: every refusal before the write leaves the store unchanged and reports
      no usage; once the checks pass the uploaded size is reported, and the write succeeds
      unless the store fails at the key. */
  function CommitSegment(env: Env, s: Store, req: CommitSegmentRequest): (r: Reply<int>)
    requires ValidationBoundsPieceNumbers(env) && StrategyNeedsMinimum(env)
    ensures r.result.Ok? <==> SegmentTarget(env, req).Some? && SegmentTarget(env, req).value.0 !in s.broken
    ensures Admitted(env, req) && !Validated(env, req) ==> r == Reply(s, 0, Err(InvalidArgument))
    ensures Validated(env, req) && FilteredUpload(env, req).Err? ==>
      r == Reply(s, 0, Err(StatusOf(FilteredUpload(env, req).error)))
    ensures Validated(env, req) && FilteredUpload(env, req).Ok? ==>
      var seg := req.segmentId.value;
      && (seg.index < -1 ==> r == Reply(s, 0, Err(InvalidArgument)))
      && (seg.index >= -1 && env.usageLookupFails ==> r == Reply(s, 0, Err(Internal)))
      && (seg.index >= -1 && !env.usageLookupFails && env.usageExceeded ==> r == Reply(s, 0, Err(ResourceExhausted)))
      && ((seg.index >= -1 && !env.usageLookupFails && !env.usageExceeded &&
           StoresTooMuch(ClearHashes(FilteredUpload(env, req).value))) ==> r == Reply(s, 0, Err(InvalidArgument)))
    ensures SegmentTarget(env, req).Some? ==>
      var (path, stored) := SegmentTarget(env, req).value;
      && (path in s.broken ==> r == Reply(s, req.sizeEncryptedData, Err(Internal)))
      && (path !in s.broken ==>
            r == Reply(s.(entries := s.entries[path := stored]), req.sizeEncryptedData, Ok(|stored.remote.value.pieces|)))
    ensures UnmarshalSegmentId(env.signer, req.segmentId, env.now).Err? ==> r.result == Err(InvalidArgument)
    ensures r.result.Err? ==> r.store == s
    ensures UnmarshalSegmentId(env.signer, req.segmentId, env.now).Ok? ==>
      var stream := req.segmentId.value.streamId.value;
      (env.authorize(stream.bucket, stream.encryptedPath).None? ==> r == Reply(s, 0, Err(Unauthenticated)))
      && ((env.authorize(stream.bucket, stream.encryptedPath).Some? && |req.uploadResults| < stream.redundancy.successThreshold)
          ==> r == Reply(s, 0, Err(InvalidArgument)))
    ensures r.result.Ok? ==>
      var seg := req.segmentId.value;
      var stream := seg.streamId.value;
      && UnmarshalSegmentId(env.signer, req.segmentId, env.now).Ok?
      && env.authorize(stream.bucket, stream.encryptedPath).Some?
      && |req.uploadResults| >= stream.redundancy.successThreshold
      && env.pointerValid(UploadedPointer(seg, req), seg.originalLimits)
      && var filtered := FilterValidPieces(env.validator, UploadedPointer(seg, req), seg.originalLimits);
      && filtered.Ok?
      && seg.index >= -1
      && !env.usageLookupFails && !env.usageExceeded
      && var path := SegmentKey(env.authorize(stream.bucket, stream.encryptedPath).value, seg.index, stream.bucket, stream.encryptedPath);
      && r.store == s.(entries := s.entries[path := ClearHashes(filtered.value)])
      && r.result.value == |filtered.value.remote.value.pieces|
      && r.result.value >= stream.redundancy.successThreshold
      && r.usageAdded == req.sizeEncryptedData
  {
    var noChange := (code: StatusCode) => Reply(s, 0, Err(code));
    match UnmarshalSegmentId(env.signer, req.segmentId, env.now)
    case Err(_) => noChange(InvalidArgument)
    case Ok(seg) =>
      var stream := seg.streamId.value;
      match env.authorize(stream.bucket, stream.encryptedPath)
      case None => noChange(Unauthenticated)
      case Some(projectId) =>
        if |req.uploadResults| < stream.redundancy.successThreshold then noChange(InvalidArgument)
        else
          var pointer := UploadedPointer(seg, req);
          var limits := seg.originalLimits;
          if !env.pointerValid(pointer, limits) then noChange(InvalidArgument)
          else match FilterValidPieces(env.validator, pointer, limits)
            case Err(e) => noChange(StatusOf(e))
            case Ok(filtered) =>
              match CreatePath(projectId, seg.index, stream.bucket, stream.encryptedPath)
              case Err(_) => noChange(InvalidArgument)
              case Ok(path) =>
                if env.usageLookupFails then noChange(Internal)
                else if env.usageExceeded then noChange(ResourceExhausted)
                else
                  var stored := ClearHashes(filtered);
                  if StoresTooMuch(stored) then noChange(InvalidArgument)
                  else
                    var (segmentSize, _) := CalculateSpaceUsed(stored);
                    match Put(s, path, stored)
                    case Err(_) => Reply(s, segmentSize, Err(Internal))
                    case Ok(s') => Reply(s', segmentSize, Ok(|stored.remote.value.pieces|))
  }

  /** The size check never refuses a pointer whose pieces do not outnumber the
      redundancy total: each piece holds at most segmentSize / minReq bytes. */
  lemma StoredWithinRedundancy(p: Pointer)
    requires p.inlineSegment.None? && p.remote.Some?
    requires p.remote.value.redundancy.minReq > 0 && p.segmentSize >= 0
    requires |p.remote.value.pieces| <= p.remote.value.redundancy.total
    ensures !StoresTooMuch(p)
  {
    var red := p.remote.value.redundancy;
    var n := |p.remote.value.pieces|;
    SpaceUsedBound(p);
    MulMono(n, red.total, p.segmentSize);
    assert p.segmentSize * n <= p.segmentSize * red.total;
  }

  /** A committed segment reads back from its key as the filtered pointer without hashes. */
  lemma CommittedSegmentReadsBack(env: Env, s: Store, req: CommitSegmentRequest)
    requires ValidationBoundsPieceNumbers(env) && StrategyNeedsMinimum(env)
    requires CommitSegment(env, s, req).result.Ok?
    ensures var seg := req.segmentId.value;
      var stream := seg.streamId.value;
      var loc := Location(env.authorize(stream.bucket, stream.encryptedPath).value, stream.bucket, stream.encryptedPath);
      GetPointer(CommitSegment(env, s, req).store, loc, seg.index)
        == Ok(ClearHashes(FilterValidPieces(env.validator, UploadedPointer(seg, req), seg.originalLimits).value))
  {
  }

  datatype MakeInlineRequest = MakeInlineRequest(
    streamId: Option<StreamId>,
    index: int,
    encryptedInlineData: seq<Byte>,
    encryptedKey: seq<Byte>,
    keyNonce: seq<Byte>)

  /** The stream and key an inline write goes to, when the stream ID, the authorisation,
      the index and the usage limits all allow it. */
  function InlineTarget(env: Env, req: MakeInlineRequest): (t: Option<(StreamId, string)>)
    ensures t.Some? ==>
      && UnmarshalStreamId(env.signer, req.streamId, env.now) == Ok(t.value.0)
      && env.authorize(t.value.0.bucket, t.value.0.encryptedPath).Some?
      && req.index >= 0
      && t.value.1 == SegmentKey(env.authorize(t.value.0.bucket, t.value.0.encryptedPath).value,
                                 req.index, t.value.0.bucket, t.value.0.encryptedPath)
      && !env.usageLookupFails && !env.usageExceeded
    ensures t.None? ==>
      || UnmarshalStreamId(env.signer, req.streamId, env.now).Err?
      || env.authorize(req.streamId.value.bucket, req.streamId.value.encryptedPath).None?
      || req.index < 0 || env.usageLookupFails || env.usageExceeded
  {
    match UnmarshalStreamId(env.signer, req.streamId, env.now)
    case Err(_) => None
    case Ok(stream) =>
      match env.authorize(stream.bucket, stream.encryptedPath)
      case None => None
      case Some(projectId) =>
        if req.index < 0 || env.usageLookupFails || env.usageExceeded then None
        else Some((stream, CreatePath(projectId, req.index, stream.bucket, stream.encryptedPath).value))
  }

  /** `MakeInlineSegment`: the pointer is written before the inline order is recorded, so a
      failure to record the order is reported after the store has changed. */
  function MakeInlineSegment(env: Env, s: Store, req: MakeInlineRequest): (r: Reply<()>)
    ensures UnmarshalStreamId(env.signer, req.streamId, env.now).Err? ==> r.result == Err(InvalidArgument)
    ensures InlineTarget(env, req).None? ==> r.store == s && r.result.Err?
    ensures InlineTarget(env, req).Some? ==>
      var (stream, path) := InlineTarget(env, req).value;
      && r.usageAdded == |req.encryptedInlineData|
      && (path in s.broken ==> r.store == s && r.result == Err(Internal))
      && (path !in s.broken ==>
            && r.store.entries == s.entries[path := InlinePointer(stream, req)]
            && r.store.broken == s.broken
            && (r.result.Ok? <==> !env.inlineOrderFails))
  {
    var noChange := (code: StatusCode) => Reply(s, 0, Err(code));
    match UnmarshalStreamId(env.signer, req.streamId, env.now)
    case Err(_) => noChange(InvalidArgument)
    case Ok(stream) =>
      match env.authorize(stream.bucket, stream.encryptedPath)
      case None => noChange(Unauthenticated)
      case Some(projectId) =>
        if req.index < 0 then noChange(InvalidArgument)
        else match CreatePath(projectId, req.index, stream.bucket, stream.encryptedPath)
          case Err(_) => noChange(InvalidArgument)
          case Ok(path) =>
            if env.usageLookupFails then noChange(Internal)
            else if env.usageExceeded then noChange(ResourceExhausted)
            else
              var inlineUsed := |req.encryptedInlineData|;
              match Put(s, path, InlinePointer(stream, req))
              case Err(_) => Reply(s, inlineUsed, Err(Internal))
              case Ok(s') =>
                if env.inlineOrderFails then Reply(s', inlineUsed, Err(Internal))
                else Reply(s', inlineUsed, Ok(()))
  }

  /** The inline pointer MakeInlineSegment stores. */
  function InlinePointer(stream: StreamId, req: MakeInlineRequest): (p: Pointer)
    ensures SpaceComputable(p) && CalculateSpaceUsed(p) == (|req.encryptedInlineData|, |req.encryptedInlineData|)
  {
    Pointer(
      Inline,
      |req.encryptedInlineData|,
      Some(req.encryptedInlineData),
      None,
      SegmentMeta(req.encryptedKey, req.keyNonce),
      stream.creationDate,
      stream.expirationDate,
      false)
  }

  datatype CommitObjectRequest = CommitObjectRequest(streamId: Option<StreamId>, encryptedMetadata: Metadata)

  /** The last segment as CommitObject rewrites it: the stream's redundancy scheme on a
      (possibly newly created, empty) remote part, and the object's metadata. */
  function Finalized(p: Pointer, stream: StreamId, metadata: Metadata): (q: Pointer)
    ensures q.remote.Some? && q.remote.value.redundancy == stream.redundancy
    ensures q.metadata == metadata
    ensures p.remote.Some? ==> q.remote.value.pieces == p.remote.value.pieces
    ensures q.(remote := p.remote, metadata := p.metadata) == p
  {
    var remote := if p.remote.Some? then p.remote.value else RemoteSegment(Redundancy(0, 0, 0, 0, 0), 0, []);
    p.(remote := Some(remote.(redundancy := stream.redundancy)), metadata := metadata)
  }

  /** The object a commit finalises and its segment count, when the stream ID, the
      authorisation and the metadata all allow it. */
  function CommitTarget(env: Env, req: CommitObjectRequest): (t: Option<(StreamId, Location, int)>)
    ensures t.Some? ==>
      && UnmarshalStreamId(env.signer, req.streamId, env.now) == Ok(t.value.0)
      && env.authorize(t.value.0.bucket, t.value.0.encryptedPath).Some?
      && t.value.1 == Location(env.authorize(t.value.0.bucket, t.value.0.encryptedPath).value,
                               t.value.0.bucket, t.value.0.encryptedPath)
      && NumberOfSegments(req.encryptedMetadata) == Some(t.value.2)
      && t.value.2 >= 0
    ensures t.None? ==>
      || UnmarshalStreamId(env.signer, req.streamId, env.now).Err?
      || env.authorize(req.streamId.value.bucket, req.streamId.value.encryptedPath).None?
      || NumberOfSegments(req.encryptedMetadata).None?
      || NumberOfSegments(req.encryptedMetadata).value < 0
  {
    match UnmarshalStreamId(env.signer, req.streamId, env.now)
    case Err(_) => None
    case Ok(stream) =>
      match env.authorize(stream.bucket, stream.encryptedPath)
      case None => None
      case Some(projectId) =>
        match NumberOfSegments(req.encryptedMetadata)
        case None => None
        case Some(n) =>
          if n < 0 then None
          else Some((stream, Location(projectId, stream.bucket, stream.encryptedPath), n))
  }

  /** `CommitObject`: move the segment with index NumberOfSegments - 1 to the last-segment
      key, stamped with the stream's redundancy and the object metadata. The old key is
      deleted before the new one is written, so a failed write loses the segment. */
  function CommitObject(env: Env, s: Store, req: CommitObjectRequest): (r: Reply<()>)
    ensures req.streamId.None? ==> r.result == Err(Internal)
    ensures req.streamId.Some? && !StreamIdVerifies(env.signer, req.streamId.value) ==> r.result == Err(Unauthenticated)
    ensures UnmarshalStreamId(env.signer, req.streamId, env.now) == Err(IdExpired) ==> r.result == Err(InvalidArgument)
    ensures r.usageAdded == 0
    ensures CommitTarget(env, req).None? ==> r.store == s && r.result.Err?
    ensures CommitTarget(env, req).Some? ==>
      var (stream, loc, n) := CommitTarget(env, req).value;
      && (!Present(s, loc, n - 1) ==> r.store == s && r.result == Err(Internal))
      && (Present(s, loc, n - 1) ==>
            var removed := s.entries - {PathOf(loc, n - 1)};
            && r.store.broken == s.broken
            && (PathOf(loc, LastSegment) in s.broken ==>
                  r.store.entries == removed && r.result == Err(Internal))
            && (PathOf(loc, LastSegment) !in s.broken ==>
                  && r.store.entries == removed[PathOf(loc, LastSegment) :=
                       Finalized(GetPointer(s, loc, n - 1).value, stream, req.encryptedMetadata)]
                  && r.result.Ok?))
  {
    var noChange := (code: StatusCode) => Reply(s, 0, Err(code));
    match req.streamId
    case None => noChange(Internal)
    case Some(stream) =>
      if !StreamIdVerifies(env.signer, stream) then noChange(Unauthenticated)
      else if Expired(stream.creationDate, env.now) then noChange(InvalidArgument)
      else match env.authorize(stream.bucket, stream.encryptedPath)
        case None => noChange(Unauthenticated)
        case Some(projectId) =>
          match NumberOfSegments(req.encryptedMetadata)
          case None => noChange(InvalidArgument)
          case Some(n) =>
            match CreatePath(projectId, n - 1, stream.bucket, stream.encryptedPath)
            case Err(_) => noChange(InvalidArgument)
            case Ok(path) =>
              match Get(s, path)
              case Err(_) => noChange(Internal)
              case Ok(p) =>
                var finalized := Finalized(p, stream, req.encryptedMetadata);
                match Delete(s, path)
                case Err(_) => noChange(Internal)
                case Ok(s') =>
                  var lastPath := CreatePath(projectId, LastSegment, stream.bucket, stream.encryptedPath).value;
                  match Put(s', lastPath, finalized)
                  case Err(_) => Reply(s', 0, Err(Internal))
                  case Ok(s'') => Reply(s'', 0, Ok(()))
  }

  /** After a commit the object records its segment count: the last segment reads back
      with the committed total. */
  lemma CommittedObjectRecordsCount(env: Env, s: Store, req: CommitObjectRequest)
    requires CommitObject(env, s, req).result.Ok?
    ensures CommitTarget(env, req).Some?
    ensures var (_, loc, n) := CommitTarget(env, req).value;
      GetObjectNumberOfSegments(CommitObject(env, s, req).store, loc) == Ok(n)
  {
    var (stream, loc, n) := CommitTarget(env, req).value;
    var s' := CommitObject(env, s, req).store;
    assert GetPointer(s', loc, LastSegment).Ok?;
    assert GetPointer(s', loc, LastSegment).value.metadata == req.encryptedMetadata;
  }

  /** CommitSegment only stores pointers whose space can be accounted: the filter
      accepted their redundancy strategy, which has a positive minimum. */
  lemma CommitSegmentKeepsWellFormed(env: Env, s: Store, req: CommitSegmentRequest)
    requires ValidationBoundsPieceNumbers(env) && StrategyNeedsMinimum(env)
    requires WellFormedStore(s)
    ensures WellFormedStore(CommitSegment(env, s, req).store)
  {
  }

  /** MakeInlineSegment only stores inline pointers, whose space needs no division. */
  lemma MakeInlineSegmentKeepsWellFormed(env: Env, s: Store, req: MakeInlineRequest)
    requires WellFormedStore(s)
    ensures WellFormedStore(MakeInlineSegment(env, s, req).store)
  {
  }

  /** CommitSegment never stores a REMOTE pointer without its remote part: the one it
      writes always carries the uploaded pieces. */
  lemma CommitSegmentKeepsRemoteParts(env: Env, s: Store, req: CommitSegmentRequest)
    requires ValidationBoundsPieceNumbers(env) && StrategyNeedsMinimum(env)
    requires RemotePartsPresent(s)
    ensures RemotePartsPresent(CommitSegment(env, s, req).store)
  {
  }

  /** MakeInlineSegment only stores inline pointers. */
  lemma MakeInlineSegmentKeepsRemoteParts(env: Env, s: Store, req: MakeInlineRequest)
    requires RemotePartsPresent(s)
    ensures RemotePartsPresent(MakeInlineSegment(env, s, req).store)
  {
  }

  /** CommitObject's last segment always carries a remote part. */
  lemma CommitObjectKeepsRemoteParts(env: Env, s: Store, req: CommitObjectRequest)
    requires RemotePartsPresent(s)
    ensures RemotePartsPresent(CommitObject(env, s, req).store)
  {
  }

  /** CommitObject stamps the stream's redundancy on the last segment, so it keeps the store
      accountable whenever the signed stream IDs carry a positive minimum. */
  lemma CommitObjectKeepsWellFormed(env: Env, s: Store, req: CommitObjectRequest)
    requires SignedStreamsNeedMinimum(env)
    requires WellFormedStore(s)
    ensures WellFormedStore(CommitObject(env, s, req).store)
  {
  }
}

=== FILE: listing.dfy ===
/** `ListSegments` and its two strategies (satellite/metainfo/metainfo.go):
    counting from the segment total recorded in the stream metadata, or probing
    the store segment by segment when no total is recorded. */
module Listing {
  import opened Wrappers
  import opened Decimal
  import opened Pointers
  import opened SegmentPath
  import opened SegmentStore

  /** `listLimit`. */
  const ListLimit: int := 1000

  /** A listing page: segment indices (`LastSegment` for the final one) and whether more follow. */
  datatype ListResponse = ListResponse(items: seq<int>, more: bool)

  /** Indices lo, lo + 1, …, hi - 1. */
  function Range(lo: int, hi: int): (r: seq<int>)
    requires lo <= hi
    ensures |r| == hi - lo
    ensures forall j :: 0 <= j < |r| ==> r[j] == lo + j
    decreases hi - lo
  {
    if lo == hi then [] else [lo] + Range(lo + 1, hi)
  }

  /** Indices c, c + 1, … as int32 values, `count` of them. */
  function Int32Indices(c: int, count: nat): (r: seq<int>)
    ensures |r| == count
    ensures forall j :: 0 <= j < count ==> r[j] == Wrap32(c + j)
  {
    seq(count, j => Wrap32(c + j))
  }

  /** Without overflow the int32 indices are the plain ones. */
  lemma Int32IndicesPlain(c: int, count: nat)
    ensures InInt32(c) && InInt32(c + count) ==> Int32Indices(c, count) == Range(c, c + count)
  {
    if InInt32(c) && InInt32(c + count) {
      var a, b := Int32Indices(c, count), Range(c, c + count);
      assert forall j :: 0 <= j < count ==> a[j] == b[j];
    }
  }

  /** `listSegmentsFromNumberOfSegments`, with the source's int32 arithmetic. */
  function ListFromNumberOfSegments(n: int, c: int, limit: int): (r: Result<ListResponse, StatusCode>)
    requires InInt32(n) && InInt32(c) && InInt32(limit)
    ensures r.Err? <==> n <= 0 || c > n
    ensures r.Err? ==> r.error == Internal
    ensures r.Ok? && InInt32(n - c) ==>
      && (r.value.more <==> c < n && n - c > limit)
      && (r.value.more ==> r.value.items == Range(c, c + if limit > 0 then limit else 0))
      && (!r.value.more && c < n ==> r.value.items == Range(c, n - 1) + [LastSegment])
      && (c == n ==> r.value.items == [])
    ensures r.Ok? && !InInt32(n - c) ==> r.value == ListResponse([], false)
  {
    if n <= 0 || c > n then Err(Internal)
    else
      var remaining := Wrap32(n - c);
      if remaining <= 0 then Ok(ListResponse([], false))
      else if remaining > limit then
        var count := if limit > 0 then limit else 0;
        Int32IndicesPlain(c, count);
        Ok(ListResponse(Int32Indices(c, count), true))
      else
        Int32IndicesPlain(c, remaining - 1);
        Ok(ListResponse(Int32Indices(c, remaining - 1) + [LastSegment], false))
  }

  /** The cursor's sign is not checked: a cursor of -1 starts the page at index -1, which
      is also the last segment's index, so the last segment is listed twice. */
  lemma NegativeCursorListsLastTwice()
    ensures ListFromNumberOfSegments(2, -1, 1000) == Ok(ListResponse([-1, 0, LastSegment], false))
  {
    assert Wrap32(2 - -1) == 3;
    var items := Int32Indices(-1, 2);
    assert items[0] == -1 && items[1] == 0;
    assert items + [LastSegment] == [-1, 0, LastSegment];
  }

  /** The probe loop of `listSegmentsManually` with `k` segments listed so far:
      the number listed when it stops and whether it stopped at the limit with
      segment `c + limit` present. */
  function ProbeFrom(s: Store, loc: Location, c: int, k: nat, limit: nat): (r: Result<(nat, bool), StatusCode>)
    requires k <= limit
    ensures r.Ok? ==> k <= r.value.0 <= limit
    decreases limit - k
  {
    var probe := GetPointer(s, loc, c + k);
    if probe.Err? then
      if probe.error != NotFound then Err(probe.error) else Ok((k, false))
    else if k == limit then Ok((k, true))
    else ProbeFrom(s, loc, c, k + 1, limit)
  }

  /** What the probe establishes: every index it passed exists; it stops at the limit
      only with segment `c + limit` present, otherwise at a missing index; and an error
      other than NotFound is reported from the index where the read failed. */
  lemma ProbeFromSound(s: Store, loc: Location, c: int, k: nat, limit: nat)
    requires k <= limit
    ensures var r := ProbeFrom(s, loc, c, k, limit);
      && (r.Ok? ==>
            && AllPresent(s, loc, c + k, c + r.value.0)
            && (r.value.1 ==> r.value.0 == limit && Present(s, loc, c + limit))
            && (!r.value.1 ==> GetPointer(s, loc, c + r.value.0) == Err(NotFound)))
      && (r.Err? ==>
            && r.error != NotFound
            && exists i :: c + k <= i <= c + limit && AllPresent(s, loc, c + k, i) && GetPointer(s, loc, i) == Err(r.error))
  {
    var r := ProbeFrom(s, loc, c, k, limit);
    if r.Ok? {
      ProbeFromStops(s, loc, c, k, limit);
    } else {
      var i := ProbeFromFails(s, loc, c, k, limit);
    }
  }

  lemma {:induction false} ProbeFromStops(s: Store, loc: Location, c: int, k: nat, limit: nat)
    requires k <= limit
    requires ProbeFrom(s, loc, c, k, limit).Ok?
    ensures var v := ProbeFrom(s, loc, c, k, limit).value;
      && AllPresent(s, loc, c + k, c + v.0)
      && (v.1 ==> v.0 == limit && Present(s, loc, c + limit))
      && (!v.1 ==> GetPointer(s, loc, c + v.0) == Err(NotFound))
    decreases limit - k
  {
    var probe := GetPointer(s, loc, c + k);
    if probe.Ok? && k < limit {
      assert ProbeFrom(s, loc, c, k, limit) == ProbeFrom(s, loc, c, k + 1, limit);
      ProbeFromStops(s, loc, c, k + 1, limit);
      var v := ProbeFrom(s, loc, c, k + 1, limit).value;
      AllPresentExtend(s, loc, c + k, c + v.0);
    } else {
      assert ProbeFrom(s, loc, c, k, limit) == Ok((k, probe.Ok?));
      assert AllPresent(s, loc, c + k, c + k);
    }
  }

  /** The index whose read failed when the probe reports an error. */
  lemma {:induction false} ProbeFromFails(s: Store, loc: Location, c: int, k: nat, limit: nat) returns (i: int)
    requires k <= limit
    requires ProbeFrom(s, loc, c, k, limit).Err?
    ensures var e := ProbeFrom(s, loc, c, k, limit).error;
      && e != NotFound
      && c + k <= i <= c + limit && AllPresent(s, loc, c + k, i) && GetPointer(s, loc, i) == Err(e)
    decreases limit - k
  {
    var probe := GetPointer(s, loc, c + k);
    if probe.Ok? {
      assert ProbeFrom(s, loc, c, k, limit) == ProbeFrom(s, loc, c, k + 1, limit);
      i := ProbeFromFails(s, loc, c, k + 1, limit);
      AllPresentExtend(s, loc, c + k, i);
    } else {
      i := c + k;
    }
  }

  /** `listSegmentsManually`. */
  function ListManually(s: Store, loc: Location, c: int, limit: int): (r: Result<ListResponse, StatusCode>)
    requires InInt32(c) && InInt32(limit)
    ensures limit <= 0 ==> r == Err(InvalidArgument)
    ensures r.Ok? ==>
      var k := |r.value.items| - (if r.value.more then 0 else 1);
      && 0 <= k <= limit
      && (r.value.more <==> k == limit)
      && r.value.items[..k] == Int32Indices(c, k)
      && AllPresent(s, loc, c, c + k)
      && (!r.value.more ==> r.value.items[k..] == [LastSegment] && GetPointer(s, loc, c + k) == Err(NotFound))
    ensures r.Err? && limit > 0 ==>
      && r.error != NotFound
      && exists i :: c <= i <= c + limit && AllPresent(s, loc, c, i) && GetPointer(s, loc, i) == Err(r.error)
  {
    if limit <= 0 then Err(InvalidArgument)
    else
      ProbeFromSound(s, loc, c, 0, limit);
      var probe :- ProbeFrom(s, loc, c, 0, limit);
      var items := Int32Indices(c, probe.0);
      if limit > probe.0 then
        assert (items + [LastSegment])[..probe.0] == items;
        Ok(ListResponse(items + [LastSegment], probe.1))
      else
        Ok(ListResponse(items, true))
  }

  /** On a run of exactly `m` present segments from `c + k`, the probe stops at the
      first missing one or at the limit. */
  lemma {:induction false} ProbeFromOnRun(s: Store, loc: Location, c: int, k: nat, limit: nat, m: nat)
    requires k <= limit && k <= m
    requires AllPresent(s, loc, c + k, c + m)
    requires GetPointer(s, loc, c + m) == Err(NotFound)
    ensures ProbeFrom(s, loc, c, k, limit) == Ok(if m <= limit then (m, false) else (limit, true))
    decreases limit - k
  {
    if k < m {
      assert Present(s, loc, c + k);
      if k < limit {
        ProbeFromOnRun(s, loc, c, k + 1, limit, m);
      }
    }
  }

  /** Both strategies list the same page for a consistent object and a cursor inside it. */
  lemma ManualAgreesWithCount(s: Store, loc: Location, n: int, c: int, limit: int)
    requires InInt32(n) && 0 < limit <= MaxInt32
    requires ConsistentObject(s, loc, n)
    requires 0 <= c < n
    ensures ListManually(s, loc, c, limit) == ListFromNumberOfSegments(n, c, limit)
  {
    var m := n - 1 - c;
    assert AllPresent(s, loc, c, c + m);
    ProbeFromOnRun(s, loc, c, 0, limit, m);
    if m < limit {
      Int32IndicesPlain(c, m);
    } else {
      Int32IndicesPlain(c, limit);
    }
  }

  /** Just past the end the two strategies differ: counting lists nothing, probing
      still reports the last segment. */
  lemma CursorPastEndDiffers(s: Store, loc: Location, n: int, limit: int)
    requires InInt32(n) && 0 < limit <= MaxInt32
    requires ConsistentObject(s, loc, n)
    requires GetPointer(s, loc, n) == Err(NotFound)
    ensures ListFromNumberOfSegments(n, n, limit) == Ok(ListResponse([], false))
    ensures ListManually(s, loc, n, limit) == Ok(ListResponse([LastSegment], false))
  {
    ProbeFromOnRun(s, loc, n, 0, limit, 0);
  }

  /** `ListSegments` after the stream ID and the request are authorised: a request limit
      of 0 or above `listLimit` becomes `listLimit`; an object without a last segment
      lists nothing; a recorded segment total selects the counting strategy. */
  function ListSegments(s: Store, loc: Location, cursor: int, requestLimit: int): (r: Result<ListResponse, StatusCode>)
    requires InInt32(cursor) && InInt32(requestLimit)
    ensures GetPointer(s, loc, LastSegment) == Err(NotFound) ==> r == Ok(ListResponse([], false))
    ensures GetPointer(s, loc, LastSegment) == Err(Internal) ==> r == Err(Internal)
    ensures Present(s, loc, LastSegment) ==>
      var limit := if requestLimit == 0 || requestLimit > ListLimit then ListLimit else requestLimit;
      match NumberOfSegments(GetPointer(s, loc, LastSegment).value.metadata)
      case None => r == Err(Internal)
      case Some(n) =>
        if n > 0 then r == ListFromNumberOfSegments(Wrap32(n), cursor, limit)
        else r == ListManually(s, loc, cursor, limit)
  {
    var limit := if requestLimit == 0 || requestLimit > ListLimit then ListLimit else requestLimit;
    match GetPointer(s, loc, LastSegment)
    case Err(NotFound) => Ok(ListResponse([], false))
    case Err(e) => Err(e)
    case Ok(p) =>
      match NumberOfSegments(p.metadata)
      case None => Err(Internal)
      case Some(n) =>
        if n > 0 then ListFromNumberOfSegments(Wrap32(n), cursor, limit)
        else ListManually(s, loc, cursor, limit)
  }

  /** Whether or not the last segment records the total, a consistent object lists the same page. */
  lemma ListingIgnoresRecordedTotal(s: Store, loc: Location, n: int, cursor: int, requestLimit: int)
    requires InInt32(n) && InInt32(requestLimit) && requestLimit >= 0
    requires ConsistentObject(s, loc, n) && 0 <= cursor < n
    requires Present(s, loc, LastSegment)
    requires GetPointer(s, loc, LastSegment).value.metadata == StreamMeta(n)
      || GetPointer(s, loc, LastSegment).value.metadata == NoMetadata
    ensures ListSegments(s, loc, cursor, requestLimit)
      == ListFromNumberOfSegments(n, cursor, if requestLimit == 0 || requestLimit > ListLimit then ListLimit else requestLimit)
  {
    var limit := if requestLimit == 0 || requestLimit > ListLimit then ListLimit else requestLimit;
    ManualAgreesWithCount(s, loc, n, cursor, limit);
  }
}

=== FILE: order_limits.dfy ===
/** `sortLimits` and `getLimitByStorageNodeID` (satellite/metainfo/metainfo.go):
    arrange the addressed order limits by piece number for a download. */
module OrderLimits {
  import opened Wrappers
  import opened Pointers
  import opened PieceValidation

  /** An order limit with the node address it is sent to. */
  datatype AddressedOrderLimit = AddressedOrderLimit(limit: Option<OrderLimit>, address: string)

  /** An entry that holds a limit for node `id`. */
  predicate IsLimitFor(entry: Option<AddressedOrderLimit>, id: NodeId) {
    entry.Some? && entry.value.limit.Some? && entry.value.limit.value.storageNodeId == id
  }

  /** `getLimitByStorageNodeID`: the first limit for the node, skipping empty entries. */
  function GetLimitByStorageNodeId(limits: seq<Option<AddressedOrderLimit>>, id: NodeId): (r: Option<AddressedOrderLimit>)
    ensures r.None? <==> forall i :: 0 <= i < |limits| ==> !IsLimitFor(limits[i], id)
    ensures r.Some? ==>
      exists i :: 0 <= i < |limits| && limits[i] == r && IsLimitFor(limits[i], id) &&
        forall j :: 0 <= j < i ==> !IsLimitFor(limits[j], id)
  {
    if |limits| == 0 then None
    else if IsLimitFor(limits[0], id) then limits[0]
    else
      var rest := GetLimitByStorageNodeId(limits[1..], id);
      assert forall i :: 1 <= i < |limits| ==> limits[i] == limits[1..][i - 1];
      if rest.Some? then
        var i :| 0 <= i < |limits[1..]| && limits[1..][i] == rest && IsLimitFor(limits[1..][i], id) &&
          forall j :: 0 <= j < i ==> !IsLimitFor(limits[1..][j], id);
        assert limits[i + 1] == rest;
        rest
      else rest
  }

  /** The piece numbers fit the redundancy total (the source panics otherwise). */
  predicate PieceNumsInRange(pieces: seq<RemotePiece>, total: int) {
    forall i :: 0 <= i < |pieces| ==> 0 <= pieces[i].pieceNum < total
  }

  /** Reference: the last piece with number k, which is the one whose assignment survives. */
  function LastPieceNumbered(pieces: seq<RemotePiece>, k: int): (r: Option<RemotePiece>)
    ensures r.Some? ==> r.value in pieces && r.value.pieceNum == k
    ensures r.None? ==> forall i :: 0 <= i < |pieces| ==> pieces[i].pieceNum != k
    decreases |pieces|
  {
    if |pieces| == 0 then None
    else if pieces[|pieces| - 1].pieceNum == k then Some(pieces[|pieces| - 1])
    else
      var r := LastPieceNumbered(pieces[..|pieces| - 1], k);
      assert forall i :: 0 <= i < |pieces| - 1 ==> pieces[i] == pieces[..|pieces| - 1][i];
      r
  }

  /** The assignment loop over the pieces, in order. */
  function Assign(sorted: seq<Option<AddressedOrderLimit>>, limits: seq<Option<AddressedOrderLimit>>, pieces: seq<RemotePiece>): (r: seq<Option<AddressedOrderLimit>>)
    requires PieceNumsInRange(pieces, |sorted|)
    ensures |r| == |sorted|
    decreases |pieces|
  {
    if |pieces| == 0 then sorted
    else
      var front := pieces[..|pieces| - 1];
      var last := pieces[|pieces| - 1];
      assert PieceNumsInRange(front, |sorted|) by {
        forall i | 0 <= i < |front| ensures 0 <= front[i].pieceNum < |sorted| {
          assert front[i] == pieces[i];
        }
      }
      Assign(sorted, limits, front)[last.pieceNum := GetLimitByStorageNodeId(limits, last.nodeId)]
  }

  /** Slot k holds the limit for the node of the last piece numbered k, or nothing. */
  lemma {:induction false} AssignMeaning(sorted: seq<Option<AddressedOrderLimit>>, limits: seq<Option<AddressedOrderLimit>>, pieces: seq<RemotePiece>, k: int)
    requires PieceNumsInRange(pieces, |sorted|) && 0 <= k < |sorted|
    ensures Assign(sorted, limits, pieces)[k] ==
      match LastPieceNumbered(pieces, k)
      case None => sorted[k]
      case Some(p) => GetLimitByStorageNodeId(limits, p.nodeId)
    decreases |pieces|
  {
    if |pieces| > 0 {
      var front := pieces[..|pieces| - 1];
      assert PieceNumsInRange(front, |sorted|) by {
        forall i | 0 <= i < |front| ensures 0 <= front[i].pieceNum < |sorted| {
          assert front[i] == pieces[i];
        }
      }
      if pieces[|pieces| - 1].pieceNum != k {
        AssignMeaning(sorted, limits, front, k);
      }
    }
  }

  /** `sortLimits`: a slot per piece number up to the redundancy total. */
  function SortLimits(limits: seq<Option<AddressedOrderLimit>>, p: Pointer): (r: seq<Option<AddressedOrderLimit>>)
    requires var total := if p.remote.Some? then p.remote.value.redundancy.total else 0;
      total >= 0 && PieceNumsInRange(PiecesOf(p), total)
    ensures |r| == if p.remote.Some? then p.remote.value.redundancy.total else 0
    ensures forall k :: 0 <= k < |r| ==>
      r[k] == match LastPieceNumbered(PiecesOf(p), k)
              case None => None
              case Some(piece) => GetLimitByStorageNodeId(limits, piece.nodeId)
  {
    var total := if p.remote.Some? then p.remote.value.redundancy.total else 0;
    var empty := seq(total, _ => None);
    var r := Assign(empty, limits, PiecesOf(p));
    forall k | 0 <= k < |r|
      ensures r[k] == match LastPieceNumbered(PiecesOf(p), k)
                      case None => None
                      case Some(piece) => GetLimitByStorageNodeId(limits, piece.nodeId)
    {
      AssignMeaning(empty, limits, PiecesOf(p), k);
    }
    r
  }
}

=== FILE: overlay_batches.dfy ===
/** `BatchUpdateStats` of satellite/satellitedb/overlaycache.go: the requests are ordered by
    node ID, cut into consecutive batches of at most `batchSize`, and each batch is written
    in one transaction whose outcome is an input here. */
module OverlayBatches {
  import opened OverlayCache

  // ---------------------------------------------------------------- node ID order

  /** `NodeID.Less`: lexicographic order of the ID bytes. */
  predicate NodeLess(a: NodeId, b: NodeId)
    decreases |a|
  {
    if |a| == 0 then |b| > 0
    else if |b| == 0 then false
    else if a[0] != b[0] then a[0] < b[0]
    else NodeLess(a[1..], b[1..])
  }

  lemma {:induction false} NodeLessIrreflexive(a: NodeId)
    ensures !NodeLess(a, a)
    decreases |a|
  {
    if |a| > 0 {
      NodeLessIrreflexive(a[1..]);
    }
  }

  lemma {:induction false} NodeLessTotal(a: NodeId, b: NodeId)
    ensures a == b || NodeLess(a, b) || NodeLess(b, a)
    decreases |a|
  {
    if |a| > 0 && |b| > 0 && a[0] == b[0] {
      NodeLessTotal(a[1..], b[1..]);
      if a[1..] == b[1..] {
        assert a == [a[0]] + a[1..] && b == [b[0]] + b[1..];
      }
    }
  }

  lemma {:induction false} NodeLessTransitive(a: NodeId, b: NodeId, c: NodeId)
    requires NodeLess(a, b) && NodeLess(b, c)
    ensures NodeLess(a, c)
    decreases |a|
  {
    if |a| > 0 && a[0] == b[0] && b[0] == c[0] {
      NodeLessTransitive(a[1..], b[1..], c[1..]);
    }
  }

  /** One update of a node's statistics; only its node ID matters for ordering and batching. */
  datatype UpdateRequest = UpdateRequest(nodeId: NodeId, outcome: AuditOutcome)

  /** No request is followed by one with a smaller node ID. */
  predicate SortedByNode(reqs: seq<UpdateRequest>) {
    forall i, j :: 0 <= i < j < |reqs| ==> !NodeLess(reqs[j].nodeId, reqs[i].nodeId)
  }

  function Insert(x: UpdateRequest, s: seq<UpdateRequest>): (r: seq<UpdateRequest>)
    requires SortedByNode(s)
    ensures SortedByNode(r)
    ensures multiset(r) == multiset(s) + multiset{x}
    ensures |r| == |s| + 1
    decreases |s|
  {
    if |s| == 0 then [x]
    else if !NodeLess(s[0].nodeId, x.nodeId) then
      NotBelowFirst(s, x);
      [x] + s
    else
      var rest := Insert(x, s[1..]);
      assert s == [s[0]] + s[1..];
      HeadBelowInserted(x, s, rest);
      ConsSorted(s[0], rest);
      [s[0]] + rest
  }

  /** The head of a sorted list below `x` is below everything after inserting `x` into its tail. */
  lemma HeadBelowInserted(x: UpdateRequest, s: seq<UpdateRequest>, rest: seq<UpdateRequest>)
    requires SortedByNode(s) && |s| > 0 && NodeLess(s[0].nodeId, x.nodeId)
    requires multiset(rest) == multiset(s[1..]) + multiset{x}
    ensures forall k :: 0 <= k < |rest| ==> !NodeLess(rest[k].nodeId, s[0].nodeId)
  {
    NodeLessAsymmetric(s[0].nodeId, x.nodeId);
    forall k | 0 <= k < |rest| ensures !NodeLess(rest[k].nodeId, s[0].nodeId) {
      assert rest[k] in multiset(rest);
      if rest[k] != x {
        assert rest[k] in multiset(s[1..]);
        var j :| 0 <= j < |s[1..]| && s[1..][j] == rest[k];
        assert s[j + 1] == rest[k];
      }
    }
  }

  /** A sorted list stays sorted with an element below all of it in front. */
  lemma ConsSorted(h: UpdateRequest, rest: seq<UpdateRequest>)
    requires SortedByNode(rest)
    requires forall k :: 0 <= k < |rest| ==> !NodeLess(rest[k].nodeId, h.nodeId)
    ensures SortedByNode([h] + rest)
  {
    var r := [h] + rest;
    forall i, j | 0 <= i < j < |r| ensures !NodeLess(r[j].nodeId, r[i].nodeId) {
      assert r[j] == rest[j - 1];
      if i > 0 {
        assert r[i] == rest[i - 1];
      }
    }
  }

  lemma NodeLessAsymmetric(a: NodeId, b: NodeId)
    requires NodeLess(a, b)
    ensures !NodeLess(b, a)
  {
    if NodeLess(b, a) {
      NodeLessTransitive(a, b, a);
      NodeLessIrreflexive(a);
    }
  }

  /** Nothing in a sorted list is below `x` when its first element is not. */
  lemma NotBelowFirst(s: seq<UpdateRequest>, x: UpdateRequest)
    requires SortedByNode(s) && |s| > 0
    requires !NodeLess(s[0].nodeId, x.nodeId)
    ensures forall j :: 0 <= j < |s| ==> !NodeLess(s[j].nodeId, x.nodeId)
  {
    forall j | 0 <= j < |s| ensures !NodeLess(s[j].nodeId, x.nodeId) {
      NodeLessTotal(s[0].nodeId, s[j].nodeId);
      if NodeLess(s[0].nodeId, s[j].nodeId) && NodeLess(s[j].nodeId, x.nodeId) {
        NodeLessTransitive(s[0].nodeId, s[j].nodeId, x.nodeId);
      }
    }
  }

  /** The order `sort.Slice` produces; requests with the same node ID may come in any
      order there, this definition fixes one. */
  function SortByNode(reqs: seq<UpdateRequest>): (r: seq<UpdateRequest>)
    ensures SortedByNode(r)
    ensures multiset(r) == multiset(reqs)
    ensures |r| == |reqs|
    decreases |reqs|
  {
    if |reqs| == 0 then []
    else
      assert reqs == reqs[..|reqs| - 1] + [reqs[|reqs| - 1]];
      Insert(reqs[|reqs| - 1], SortByNode(reqs[..|reqs| - 1]))
  }

  // ---------------------------------------------------------------- batches

  /** The slice `[lo, hi)` of the ordered requests written in one transaction. */
  datatype Batch = Batch(lo: nat, hi: nat)

  /** The slices `[i, min(i + batchSize, n))` of the loop, for i = start, start + batchSize, … */
  function Batches(n: nat, batchSize: nat, start: nat): (bs: seq<Batch>)
    requires batchSize > 0
    ensures forall k :: 0 <= k < |bs| ==> start <= bs[k].lo < bs[k].hi <= n
    decreases n - start
  {
    if start >= n then []
    else
      var end := if start + batchSize > n then n else start + batchSize;
      [Batch(start, end)] + Batches(n, batchSize, start + batchSize)
  }

  /** The batches run from `start` to `n` without gap or overlap, each full but the last. */
  lemma {:induction false} BatchesShape(n: nat, batchSize: nat, start: nat)
    requires batchSize > 0
    ensures var bs := Batches(n, batchSize, start);
      && (|bs| == 0 <==> start >= n)
      && (|bs| > 0 ==> bs[0].lo == start && bs[|bs| - 1].hi == n)
      && (forall k :: 0 <= k < |bs| ==> bs[k].hi - bs[k].lo <= batchSize)
      && (forall k :: 0 <= k < |bs| - 1 ==> bs[k].hi == bs[k + 1].lo && bs[k].hi - bs[k].lo == batchSize)
  {
    BatchesEnd(n, batchSize, start);
    BatchesBounded(n, batchSize, start);
    BatchesContiguous(n, batchSize, start);
  }

  /** One unfolding of `Batches`: the first batch, then the batches from the next start. */
  lemma BatchesHead(n: nat, batchSize: nat, start: nat)
    requires batchSize > 0
    ensures var bs := Batches(n, batchSize, start);
      && (|bs| > 0 <==> start < n)
      && (start < n ==> && bs[0] == Batch(start, if start + batchSize > n then n else start + batchSize)
                        && bs[1..] == Batches(n, batchSize, start + batchSize))
  {
  }

  /** The last batch ends at `n`. */
  lemma {:induction false} BatchesEnd(n: nat, batchSize: nat, start: nat)
    requires batchSize > 0
    ensures var bs := Batches(n, batchSize, start);
      |bs| > 0 ==> bs[|bs| - 1].hi == n
    decreases n - start
  {
    if start < n {
      var rest := Batches(n, batchSize, start + batchSize);
      BatchesEnd(n, batchSize, start + batchSize);
      var bs := Batches(n, batchSize, start);
      BatchesHead(n, batchSize, start);
      assert bs[1..] == rest;
      if |rest| > 0 {
        assert bs[|bs| - 1] == rest[|rest| - 1];
      }
    }
  }

  /** No batch holds more than `batchSize` requests. */
  lemma {:induction false} BatchesBounded(n: nat, batchSize: nat, start: nat)
    requires batchSize > 0
    ensures var bs := Batches(n, batchSize, start);
      forall k :: 0 <= k < |bs| ==> bs[k].hi - bs[k].lo <= batchSize
    decreases n - start
  {
    if start < n {
      var rest := Batches(n, batchSize, start + batchSize);
      BatchesBounded(n, batchSize, start + batchSize);
      var bs := Batches(n, batchSize, start);
      BatchesHead(n, batchSize, start);
      forall k | 0 <= k < |bs| ensures bs[k].hi - bs[k].lo <= batchSize {
        if k > 0 {
          assert bs[k] == rest[k - 1];
        }
      }
    }
  }

  /** Each batch but the last is full and ends where the next begins. */
  lemma {:induction false} BatchesContiguous(n: nat, batchSize: nat, start: nat)
    requires batchSize > 0
    ensures var bs := Batches(n, batchSize, start);
      forall k :: 0 <= k < |bs| - 1 ==> bs[k].hi == bs[k + 1].lo && bs[k].hi - bs[k].lo == batchSize
    decreases n - start
  {
    if start < n {
      var rest := Batches(n, batchSize, start + batchSize);
      BatchesContiguous(n, batchSize, start + batchSize);
      var bs := Batches(n, batchSize, start);
      BatchesHead(n, batchSize, start);
      forall k | 0 <= k < |bs| - 1 ensures bs[k].hi == bs[k + 1].lo && bs[k].hi - bs[k].lo == batchSize {
        if k > 0 {
          assert bs[k] == rest[k - 1] && bs[k + 1] == rest[k];
        } else {
          BatchesHead(n, batchSize, start + batchSize);
          assert bs[1] == rest[0];
        }
      }
    }
  }

  /** Every request lies in exactly one batch. */
  lemma BatchesPartition(n: nat, batchSize: nat, start: nat, j: nat)
    requires batchSize > 0
    requires start <= j < n
    ensures var bs := Batches(n, batchSize, start);
      && (exists k :: 0 <= k < |bs| && bs[k].lo <= j < bs[k].hi)
      && (forall k, k' :: 0 <= k < |bs| && 0 <= k' < |bs| && bs[k].lo <= j < bs[k].hi && bs[k'].lo <= j < bs[k'].hi ==> k == k')
  {
    var bs := Batches(n, batchSize, start);
    var k0 := BatchesCover(n, batchSize, start, j);
    forall k, k' | 0 <= k < |bs| && 0 <= k' < |bs| && bs[k].lo <= j < bs[k].hi && bs[k'].lo <= j < bs[k'].hi
      ensures k == k'
    {
      if k < k' {
        BatchesIncrease(n, batchSize, start, k, k');
      } else if k' < k {
        BatchesIncrease(n, batchSize, start, k', k);
      }
    }
  }

  /** The index of a batch holding request `j`. */
  lemma {:induction false} BatchesCover(n: nat, batchSize: nat, start: nat, j: nat) returns (k: nat)
    requires batchSize > 0
    requires start <= j < n
    ensures var bs := Batches(n, batchSize, start);
      k < |bs| && bs[k].lo <= j < bs[k].hi
    decreases n - start
  {
    var bs := Batches(n, batchSize, start);
    BatchesHead(n, batchSize, start);
    if j >= start + batchSize {
      var k' := BatchesCover(n, batchSize, start + batchSize, j);
      k := k' + 1;
      assert bs[k] == bs[1..][k'];
    } else {
      k := 0;
    }
  }

  /** Later batches start no earlier than earlier batches end. */
  lemma {:induction false} BatchesIncrease(n: nat, batchSize: nat, start: nat, k: nat, k': nat)
    requires batchSize > 0
    requires k < k' < |Batches(n, batchSize, start)|
    ensures Batches(n, batchSize, start)[k].hi <= Batches(n, batchSize, start)[k'].lo
    decreases k' - k
  {
    BatchesContiguous(n, batchSize, start);
    if k + 1 < k' {
      BatchesIncrease(n, batchSize, start, k + 1, k');
    }
  }

  /** How a batch's transaction ended: committed; failed while reading a node or its audit
      history (`doAppendAll` cleared); or failed while writing. */
  datatype BatchOutcome = Committed | LookupFailed | WriteFailed

  function NodeIds(reqs: seq<UpdateRequest>): (ids: seq<NodeId>)
    ensures |ids| == |reqs| && forall k :: 0 <= k < |reqs| ==> ids[k] == reqs[k].nodeId
  {
    seq(|reqs|, k requires 0 <= k < |reqs| => reqs[k].nodeId)
  }

  /** The IDs reported as failed as the source writes it: the closure's `appendAll` ranges
      over all requests, not over the batch whose write failed. */
  function FailedAsWritten(sorted: seq<UpdateRequest>, bs: seq<Batch>, outcome: (nat, nat) -> BatchOutcome): seq<NodeId>
    decreases |bs|
  {
    if |bs| == 0 then []
    else
      var own := if outcome(bs[0].lo, bs[0].hi) == WriteFailed then NodeIds(sorted) else [];
      own + FailedAsWritten(sorted, bs[1..], outcome)
  }

  /** Batch `b`'s write failed and `id` is one of its requests. */
  predicate Reports(sorted: seq<UpdateRequest>, b: Batch, outcome: (nat, nat) -> BatchOutcome, id: NodeId) {
    && outcome(b.lo, b.hi) == WriteFailed
    && exists j :: b.lo <= j < b.hi && j < |sorted| && sorted[j].nodeId == id
  }

  /** The IDs reported as failed when each failing batch reports its own requests. */
  function Failed(sorted: seq<UpdateRequest>, bs: seq<Batch>, outcome: (nat, nat) -> BatchOutcome): seq<NodeId>
    requires forall k :: 0 <= k < |bs| ==> bs[k].lo <= bs[k].hi <= |sorted|
    decreases |bs|
  {
    if |bs| == 0 then []
    else
      var own := if outcome(bs[0].lo, bs[0].hi) == WriteFailed then NodeIds(sorted[bs[0].lo..bs[0].hi]) else [];
      own + Failed(sorted, bs[1..], outcome)
  }

  /** An ID is reported exactly when it belongs to a batch whose write failed. */
  lemma {:induction false} FailedMembers(sorted: seq<UpdateRequest>, bs: seq<Batch>, outcome: (nat, nat) -> BatchOutcome)
    requires forall k :: 0 <= k < |bs| ==> bs[k].lo <= bs[k].hi <= |sorted|
    ensures forall id :: id in Failed(sorted, bs, outcome) <==> exists k :: 0 <= k < |bs| && Reports(sorted, bs[k], outcome, id)
    decreases |bs|
  {
    if |bs| > 0 {
      var own := if outcome(bs[0].lo, bs[0].hi) == WriteFailed then NodeIds(sorted[bs[0].lo..bs[0].hi]) else [];
      FailedMembers(sorted, bs[1..], outcome);
      OwnReports(sorted, bs[0], outcome, own);
      assert forall k :: 1 <= k < |bs| ==> bs[k] == bs[1..][k - 1];
    }
  }

  /** A batch's own contribution names exactly the requests it reports. */
  lemma OwnReports(sorted: seq<UpdateRequest>, b: Batch, outcome: (nat, nat) -> BatchOutcome, own: seq<NodeId>)
    requires b.lo <= b.hi <= |sorted|
    requires own == if outcome(b.lo, b.hi) == WriteFailed then NodeIds(sorted[b.lo..b.hi]) else []
    ensures forall id :: id in own <==> Reports(sorted, b, outcome, id)
  {
    forall id | Reports(sorted, b, outcome, id) ensures id in own {
      var j :| b.lo <= j < b.hi && j < |sorted| && sorted[j].nodeId == id;
      assert own[j - b.lo] == id;
    }
    forall id | id in own ensures Reports(sorted, b, outcome, id) {
      var m :| 0 <= m < |own| && own[m] == id;
      assert sorted[b.lo + m].nodeId == id;
    }
  }

  /** Two requests in batches of one: the first batch's write fails, the second commits. */
  function FirstWriteFails(lo: nat, hi: nat): BatchOutcome {
    if lo == 0 then WriteFailed else Committed
  }

  lemma TwoSingleBatches()
    ensures Batches(2, 1, 0) == [Batch(0, 1), Batch(1, 2)]
  {
    BatchesHead(2, 1, 0);
    BatchesHead(2, 1, 1);
    BatchesHead(2, 1, 2);
  }

  /** The as-written report names a request whose batch committed: with two requests in
      batches of one, a failed write of the first batch also reports the second. */
  lemma AppendAllReportsCommittedBatch()
    ensures var sorted := [UpdateRequest("a", AuditSuccess), UpdateRequest("b", AuditSuccess)];
      var bs := Batches(2, 1, 0);
      && bs == [Batch(0, 1), Batch(1, 2)]
      && FirstWriteFails(1, 2) == Committed
      && "b" in FailedAsWritten(sorted, bs, FirstWriteFails)
      && "b" !in Failed(sorted, bs, FirstWriteFails)
  {
    var sorted := [UpdateRequest("a", AuditSuccess), UpdateRequest("b", AuditSuccess)];
    TwoSingleBatches();
    var bs := Batches(2, 1, 0);
    var tail := [Batch(1, 2)];
    assert bs[1..] == tail;
    assert tail[1..] == [];
    assert FailedAsWritten(sorted, tail, FirstWriteFails) == [] + FailedAsWritten(sorted, [], FirstWriteFails);
    assert FailedAsWritten(sorted, bs, FirstWriteFails) == NodeIds(sorted) + [];
    assert NodeIds(sorted)[1] == "b";
    assert Failed(sorted, tail, FirstWriteFails) == [] + Failed(sorted, [], FirstWriteFails);
    assert NodeIds(sorted[0..1]) == ["a"];
    assert Failed(sorted, bs, FirstWriteFails) == ["a"] + [];
  }

  /** The batch loop of `BatchUpdateStats` over the ordered requests. */
  method WriteBatches(sorted: seq<UpdateRequest>, batchSize: nat, outcome: (nat, nat) -> BatchOutcome)
    returns (failed: seq<NodeId>)
    requires batchSize > 0
    ensures failed == Failed(sorted, Batches(|sorted|, batchSize, 0), outcome)
  {
    var n := |sorted|;
    failed := [];
    var i := 0;
    while i < n
      invariant failed + FailedFrom(sorted, batchSize, outcome, i) == FailedFrom(sorted, batchSize, outcome, 0)
      decreases n - i
    {
      var end := if i + batchSize > n then n else i + batchSize;
      var own := if outcome(i, end) == WriteFailed then NodeIds(sorted[i..end]) else [];
      FailedStep(sorted, batchSize, outcome, i);
      AppendAssociative(failed, own, FailedFrom(sorted, batchSize, outcome, i + batchSize));
      failed := failed + own;
      i := i + batchSize;
    }
    FailedPastEnd(sorted, batchSize, outcome, i);
    assert failed + [] == failed;
  }

  /** The IDs the batches from index `i` on report. */
  function FailedFrom(sorted: seq<UpdateRequest>, batchSize: nat, outcome: (nat, nat) -> BatchOutcome, i: nat): seq<NodeId>
    requires batchSize > 0
  {
    Failed(sorted, Batches(|sorted|, batchSize, i), outcome)
  }

  lemma FailedPastEnd(sorted: seq<UpdateRequest>, batchSize: nat, outcome: (nat, nat) -> BatchOutcome, i: nat)
    requires batchSize > 0 && i >= |sorted|
    ensures FailedFrom(sorted, batchSize, outcome, i) == []
  {
  }

  /** `BatchUpdateStats`, with each failing batch reporting its own requests. The call
      fails exactly when some ID is reported, and every reported ID is a request's. */
  method BatchUpdateStats(requests: seq<UpdateRequest>, batchSize: nat, outcome: (nat, nat) -> BatchOutcome)
    returns (failed: seq<NodeId>, hasError: bool)
    requires |requests| > 0 ==> batchSize > 0
    ensures |requests| == 0 ==> failed == [] && !hasError
    ensures |requests| > 0 ==> failed == Failed(SortByNode(requests), Batches(|requests|, batchSize, 0), outcome)
    ensures hasError <==> |failed| > 0
    ensures forall id :: id in failed ==> exists r :: r in requests && r.nodeId == id
  {
    if |requests| == 0 {
      return [], false;
    }
    var sorted := SortByNode(requests);
    failed := WriteBatches(sorted, batchSize, outcome);
    hasError := |failed| > 0;
    ReportedAreRequests(requests, sorted, Batches(|sorted|, batchSize, 0), outcome);
  }

  lemma AppendAssociative<T>(a: seq<T>, b: seq<T>, c: seq<T>)
    ensures (a + b) + c == a + (b + c)
  {
  }

  /** One turn of the batch loop: the first batch's report, then the rest. */
  lemma FailedStep(sorted: seq<UpdateRequest>, batchSize: nat, outcome: (nat, nat) -> BatchOutcome, i: nat)
    requires batchSize > 0 && i < |sorted|
    ensures var end := if i + batchSize > |sorted| then |sorted| else i + batchSize;
      FailedFrom(sorted, batchSize, outcome, i)
        == (if outcome(i, end) == WriteFailed then NodeIds(sorted[i..end]) else [])
           + FailedFrom(sorted, batchSize, outcome, i + batchSize)
  {
    assert Batches(|sorted|, batchSize, i)[1..] == Batches(|sorted|, batchSize, i + batchSize);
  }

  /** Only requests are ever reported. */
  lemma ReportedAreRequests(requests: seq<UpdateRequest>, sorted: seq<UpdateRequest>, bs: seq<Batch>,
                            outcome: (nat, nat) -> BatchOutcome)
    requires multiset(sorted) == multiset(requests)
    requires forall k :: 0 <= k < |bs| ==> bs[k].lo <= bs[k].hi <= |sorted|
    ensures forall id :: id in Failed(sorted, bs, outcome) ==> exists r :: r in requests && r.nodeId == id
  {
    FailedMembers(sorted, bs, outcome);
    forall id | id in Failed(sorted, bs, outcome) ensures exists r :: r in requests && r.nodeId == id {
      var k :| 0 <= k < |bs| && Reports(sorted, bs[k], outcome, id);
      var j :| bs[k].lo <= j < bs[k].hi && j < |sorted| && sorted[j].nodeId == id;
      assert sorted[j] in multiset(requests);
    }
  }
}

=== FILE: overlay_cache.dfy ===
/** The bookkeeping helpers of satellite/satellitedb/overlaycache.go: the wallet-features
    codec, exit-status fields, the unreliable-node complement and the audit counters of
    `populateUpdateNodeStats`. The SQL around them is not part of this model. */
module OverlayCache {
  import opened Wrappers
  import opened Text

  type NodeId = string

  // ---------------------------------------------------------------- wallet features

  /** `encodeWalletFeatures`: refused when any feature holds the separator `,`. */
  function EncodeWalletFeatures(features: seq<string>): (r: Result<string, ()>)
    ensures r.Err? <==> exists i :: 0 <= i < |features| && Contains(features[i], ',')
    ensures r.Ok? ==> Split(r.value, ',') == (if features == [] then [""] else features)
  {
    if exists i :: 0 <= i < |features| && Contains(features[i], ',') then Err(())
    else
      JoinedFeaturesSplit(features);
      Ok(Join(features, ','))
  }

  lemma JoinedFeaturesSplit(features: seq<string>)
    requires forall i :: 0 <= i < |features| ==> !Contains(features[i], ',')
    ensures Split(Join(features, ','), ',') == (if features == [] then [""] else features)
  {
    if features != [] {
      SplitJoin(features, ',');
    }
  }

  /** `decodeWalletFeatures`: the empty string is no features, anything else is split on `,`. */
  function DecodeWalletFeatures(encoded: string): (features: seq<string>)
    ensures encoded == "" ==> features == []
    ensures encoded != "" ==> |features| >= 1 && Join(features, ',') == encoded
    ensures forall i :: 0 <= i < |features| ==> !Contains(features[i], ',')
  {
    if encoded == "" then []
    else
      JoinSplit(encoded, ',');
      SplitPartsFree(encoded, ',');
      Split(encoded, ',')
  }

  /** Joining gives the empty string only for no parts or one empty part. */
  lemma JoinEmpty(parts: seq<string>, sep: char)
    requires Join(parts, sep) == ""
    ensures parts == [] || parts == [""]
  {
  }

  /** Round trip: decoding an encoding gives the features back, except that a single empty
      feature encodes to the empty string and so comes back as no features. */
  lemma WalletFeaturesRoundTrip(features: seq<string>)
    requires EncodeWalletFeatures(features).Ok?
    ensures DecodeWalletFeatures(EncodeWalletFeatures(features).value) == (if features == [""] then [] else features)
  {
    var encoded := EncodeWalletFeatures(features).value;
    if encoded == "" {
      JoinEmpty(features, ',');
    }
  }

  // ---------------------------------------------------------------- exit status

  /** A graceful-exit report; a time of 0 is Go's zero `time.Time`. */
  datatype ExitStatusRequest = ExitStatusRequest(
    exitInitiatedAt: int, exitLoopCompletedAt: int, exitFinishedAt: int, exitSuccess: bool)

  /** The columns an update writes; None leaves the column as it is. */
  datatype ExitFields = ExitFields(
    exitInitiatedAt: Option<int>, exitLoopCompletedAt: Option<int>, exitFinishedAt: Option<int>,
    exitSuccess: Option<bool>)

  /** The exit columns of a node row. */
  datatype ExitColumns = ExitColumns(
    exitInitiatedAt: int, exitLoopCompletedAt: int, exitFinishedAt: int, exitSuccess: bool)

  /** The row after an update with `f`. */
  function ApplyExitFields(row: ExitColumns, f: ExitFields): ExitColumns {
    ExitColumns(
      if f.exitInitiatedAt.Some? then f.exitInitiatedAt.value else row.exitInitiatedAt,
      if f.exitLoopCompletedAt.Some? then f.exitLoopCompletedAt.value else row.exitLoopCompletedAt,
      if f.exitFinishedAt.Some? then f.exitFinishedAt.value else row.exitFinishedAt,
      if f.exitSuccess.Some? then f.exitSuccess.value else row.exitSuccess)
  }

  /** `populateExitStatusFields`: a timestamp is written only when it is set; the
      success flag always is. */
  function PopulateExitStatusFields(req: ExitStatusRequest): (f: ExitFields)
    ensures f.exitInitiatedAt.Some? <==> req.exitInitiatedAt != 0
    ensures f.exitLoopCompletedAt.Some? <==> req.exitLoopCompletedAt != 0
    ensures f.exitFinishedAt.Some? <==> req.exitFinishedAt != 0
    ensures f.exitSuccess == Some(req.exitSuccess)
  {
    ExitFields(
      if req.exitInitiatedAt != 0 then Some(req.exitInitiatedAt) else None,
      if req.exitLoopCompletedAt != 0 then Some(req.exitLoopCompletedAt) else None,
      if req.exitFinishedAt != 0 then Some(req.exitFinishedAt) else None,
      Some(req.exitSuccess))
  }

  /** An exit report never erases a recorded time: zero times keep the row's value, set
      times replace it, and the success flag is always the report's. */
  lemma ExitUpdateKeepsRecordedTimes(row: ExitColumns, req: ExitStatusRequest)
    ensures var updated := ApplyExitFields(row, PopulateExitStatusFields(req));
      && updated.exitInitiatedAt == (if req.exitInitiatedAt == 0 then row.exitInitiatedAt else req.exitInitiatedAt)
      && updated.exitLoopCompletedAt == (if req.exitLoopCompletedAt == 0 then row.exitLoopCompletedAt else req.exitLoopCompletedAt)
      && updated.exitFinishedAt == (if req.exitFinishedAt == 0 then row.exitFinishedAt else req.exitFinishedAt)
      && updated.exitSuccess == req.exitSuccess
  {
  }

  // ---------------------------------------------------------------- unreliable nodes

  /** The listed nodes outside `good`, in list order. */
  function Complement(ids: seq<NodeId>, good: set<NodeId>): (bad: seq<NodeId>)
    ensures |bad| <= |ids|
    ensures forall id :: id in bad <==> id in ids && id !in good
    decreases |ids|
  {
    if |ids| == 0 then []
    else
      var rest := Complement(ids[..|ids| - 1], good);
      assert forall id :: id in ids <==> id in ids[..|ids| - 1] || id == ids[|ids| - 1];
      if ids[|ids| - 1] in good then rest else rest + [ids[|ids| - 1]]
  }

  /** The step of `knownUnreliableOrOffline` after the query: every listed node that the
      query did not return as reliable and online, in input order; no nodes is an error. */
  method KnownUnreliableOrOffline(ids: seq<NodeId>, good: set<NodeId>) returns (r: Result<seq<NodeId>, ()>)
    ensures r.Err? <==> |ids| == 0
    ensures r.Ok? ==> r.value == Complement(ids, good)
    ensures r.Ok? ==> forall id :: id in r.value <==> id in ids && id !in good
  {
    if |ids| == 0 {
      return Err(());
    }
    var bad: seq<NodeId> := [];
    var i := 0;
    while i < |ids|
      invariant 0 <= i <= |ids|
      invariant bad == Complement(ids[..i], good)
    {
      assert ids[..i + 1][..i] == ids[..i];
      if ids[i] !in good {
        bad := bad + [ids[i]];
      }
      i := i + 1;
    }
    assert ids[..|ids|] == ids;
    return Ok(bad);
  }

  /** The reliable and the unreliable nodes together account for the whole list. */
  lemma {:induction false} ComplementSplitsList(ids: seq<NodeId>, good: set<NodeId>)
    ensures |Complement(ids, good)| + |Kept(ids, good)| == |ids|
    decreases |ids|
  {
    if |ids| > 0 {
      ComplementSplitsList(ids[..|ids| - 1], good);
    }
  }

  /** The listed nodes inside `good`, in list order. */
  function Kept(ids: seq<NodeId>, good: set<NodeId>): seq<NodeId>
    decreases |ids|
  {
    if |ids| == 0 then []
    else
      var rest := Kept(ids[..|ids| - 1], good);
      if ids[|ids| - 1] in good then rest + [ids[|ids| - 1]] else rest
  }

  // ---------------------------------------------------------------- audit bookkeeping

  datatype AuditOutcome = AuditSuccess | AuditFailure | AuditUnknown | AuditOffline

  /** Go's `timeField`: not written, written as NULL, or written with a time. */
  datatype TimeField = Unset | SetNil | SetTime(at: int)

  /** The columns of a node row the bookkeeping reads. */
  datatype NodeRow = NodeRow(
    totalAuditCount: int,
    auditSuccessCount: int,
    vettedAt: Option<int>,
    disqualified: Option<int>,
    unknownAuditSuspended: Option<int>,
    underReview: Option<int>,
    offlineSuspended: Option<int>,
    contained: bool)

  datatype StatsRequest = StatsRequest(
    outcome: AuditOutcome,
    auditsRequiredForVetting: int,
    suspensionDQEnabled: bool,
    offlineDQEnabled: bool)

  /** The outcomes of the floating-point reputation and clock tests, taken as inputs:
      the audit and unknown-audit reputations after the update at or below the
      disqualification threshold, the suspension grace period elapsed, the online score
      below its threshold over a full tracking period, and the review's tracking period
      over. */
  datatype ReputationTests = ReputationTests(
    auditRepAtOrBelowDQ: bool,
    unknownRepAtOrBelowDQ: bool,
    suspensionGraceElapsed: bool,
    penalizeOffline: bool,
    trackingPeriodPassed: bool)

  /** `updateNodeStats`, without the floating-point columns. */
  datatype StatsUpdate = StatsUpdate(
    totalAuditCount: int,
    vettedAt: TimeField,
    disqualified: TimeField,
    unknownAuditSuspended: TimeField,
    lastContactSuccess: TimeField,
    lastContactFailure: TimeField,
    auditSuccessCount: Option<int>,
    contained: Option<bool>,
    offlineUnderReview: TimeField,
    offlineSuspended: TimeField)

  /** The unknown-audit suspension step: suspend a node newly below the threshold,
      disqualify one whose grace period ran out (clearing its suspension), lift the
      suspension of a node back above it. Returns (unknownAuditSuspended, disqualified). */
  function UnknownAuditStep(row: NodeRow, req: StatsRequest, tests: ReputationTests, now: int,
                            disqualified: TimeField): (r: (TimeField, TimeField))
    ensures r.0.SetTime? <==> tests.unknownRepAtOrBelowDQ && row.unknownAuditSuspended.None?
    ensures r.0.SetTime? ==> r.0 == SetTime(now)
    ensures !tests.unknownRepAtOrBelowDQ ==> (r.0 == SetNil <==> row.unknownAuditSuspended.Some?)
    ensures tests.unknownRepAtOrBelowDQ && row.unknownAuditSuspended.Some? ==>
      && (r.0 == SetNil <==> req.outcome != AuditSuccess && tests.suspensionGraceElapsed && req.suspensionDQEnabled)
      && (r.0.Unset? || r.0 == SetNil)
    ensures r.1 == (if r.0 == SetNil && tests.unknownRepAtOrBelowDQ then SetTime(now) else disqualified)
  {
    if tests.unknownRepAtOrBelowDQ then
      var suspended := if row.unknownAuditSuspended.None? then SetTime(now) else Unset;
      if req.outcome != AuditSuccess && row.unknownAuditSuspended.Some? && suspended.Unset?
         && tests.suspensionGraceElapsed && req.suspensionDQEnabled
      then (SetNil, SetTime(now))
      else (suspended, disqualified)
    else if row.unknownAuditSuspended.Some? then (SetNil, disqualified)
    else (Unset, disqualified)
  }

  /** The offline review step. Returns (offlineUnderReview, offlineSuspended, disqualified). */
  function OfflineStep(row: NodeRow, req: StatsRequest, tests: ReputationTests, now: int,
                       disqualified: TimeField): (r: (TimeField, TimeField, TimeField))
    ensures row.underReview.None? ==>
      r == (if tests.penalizeOffline then (SetTime(now), SetTime(now), disqualified) else (Unset, Unset, disqualified))
    ensures row.underReview.Some? ==>
      && (r.0 == SetNil <==> tests.trackingPeriodPassed && !tests.penalizeOffline)
      && (r.0.Unset? || r.0 == SetNil)
      && (r.1 == SetTime(now) <==> tests.penalizeOffline && row.offlineSuspended.None?)
      && (r.1 == SetNil <==> !tests.penalizeOffline && (row.offlineSuspended.Some? || tests.trackingPeriodPassed))
      && (r.1.Unset? || r.1 == SetNil || r.1 == SetTime(now))
      && r.2 == (if tests.trackingPeriodPassed && tests.penalizeOffline && req.offlineDQEnabled then SetTime(now) else disqualified)
  {
    if row.underReview.Some? then
      var suspended :=
        if !tests.penalizeOffline && row.offlineSuspended.Some? then SetNil
        else if tests.penalizeOffline && row.offlineSuspended.None? then SetTime(now)
        else Unset;
      if tests.trackingPeriodPassed then
        if tests.penalizeOffline then
          (Unset, suspended, if req.offlineDQEnabled then SetTime(now) else disqualified)
        else (SetNil, SetNil, disqualified)
      else (Unset, suspended, disqualified)
    else if tests.penalizeOffline then (SetTime(now), SetTime(now), disqualified)
    else (Unset, Unset, disqualified)
  }

  /** `populateUpdateNodeStats` over integer and flag columns. */
  function PopulateUpdateNodeStats(row: NodeRow, req: StatsRequest, tests: ReputationTests, now: int): (u: StatsUpdate)
    ensures u.totalAuditCount == row.totalAuditCount + 1
    ensures u.auditSuccessCount == (if req.outcome == AuditSuccess then Some(row.auditSuccessCount + 1) else None)
    ensures u.contained == Some(false)
    ensures (req.outcome == AuditOffline) <==> u.lastContactFailure == SetTime(now)
    ensures (req.outcome == AuditOffline) <==> u.lastContactSuccess.Unset?
    ensures u.lastContactSuccess.Unset? || u.lastContactSuccess == SetTime(now)
    ensures u.lastContactFailure.Unset? || u.lastContactFailure == SetTime(now)
    ensures u.vettedAt != Unset <==> row.vettedAt.None? && row.totalAuditCount + 1 >= req.auditsRequiredForVetting
    ensures u.vettedAt.Unset? || u.vettedAt == SetTime(now)
    ensures u.disqualified.Unset? || u.disqualified == SetTime(now)
    ensures u.disqualified == SetTime(now) <==>
      || tests.auditRepAtOrBelowDQ
      || (&& tests.unknownRepAtOrBelowDQ && req.outcome != AuditSuccess && row.unknownAuditSuspended.Some?
          && tests.suspensionGraceElapsed && req.suspensionDQEnabled)
      || (row.underReview.Some? && tests.trackingPeriodPassed && tests.penalizeOffline && req.offlineDQEnabled)
    ensures row.unknownAuditSuspended.None? && tests.unknownRepAtOrBelowDQ ==> u.unknownAuditSuspended == SetTime(now)
    ensures !tests.unknownRepAtOrBelowDQ ==> (u.unknownAuditSuspended == SetNil <==> row.unknownAuditSuspended.Some?)
    ensures u.unknownAuditSuspended.SetTime? <==> tests.unknownRepAtOrBelowDQ && row.unknownAuditSuspended.None?
    ensures tests.unknownRepAtOrBelowDQ && row.unknownAuditSuspended.Some? ==>
      && (u.unknownAuditSuspended == SetNil <==>
            req.outcome != AuditSuccess && tests.suspensionGraceElapsed && req.suspensionDQEnabled)
      && (u.unknownAuditSuspended.Unset? || u.unknownAuditSuspended == SetNil)
    ensures row.underReview.None? ==>
      (tests.penalizeOffline <==> u.offlineUnderReview == SetTime(now) && u.offlineSuspended == SetTime(now))
    ensures row.underReview.None? && !tests.penalizeOffline ==>
      u.offlineUnderReview.Unset? && u.offlineSuspended.Unset?
    ensures row.underReview.Some? ==>
      && (u.offlineUnderReview == SetNil <==> tests.trackingPeriodPassed && !tests.penalizeOffline)
      && (u.offlineUnderReview.Unset? || u.offlineUnderReview == SetNil)
    ensures row.underReview.Some? ==>
      && (u.offlineSuspended == SetTime(now) <==> tests.penalizeOffline && row.offlineSuspended.None?)
      && (u.offlineSuspended == SetNil <==>
            !tests.penalizeOffline && (row.offlineSuspended.Some? || tests.trackingPeriodPassed))
      && (u.offlineSuspended.Unset? || u.offlineSuspended == SetNil || u.offlineSuspended == SetTime(now))
  {
    var total := row.totalAuditCount + 1;
    var vetted := if row.vettedAt.None? && total >= req.auditsRequiredForVetting then SetTime(now) else Unset;
    var dq0 := if tests.auditRepAtOrBelowDQ then SetTime(now) else Unset;
    var (suspended, dq1) := UnknownAuditStep(row, req, tests, now, dq0);
    var isUp := req.outcome != AuditOffline;
    var (underReview, offlineSuspended, dq2) := OfflineStep(row, req, tests, now, dq1);
    StatsUpdate(
      total,
      vetted,
      dq2,
      suspended,
      if isUp then SetTime(now) else Unset,
      if isUp then Unset else SetTime(now),
      if req.outcome == AuditSuccess then Some(row.auditSuccessCount + 1) else None,
      Some(false),
      underReview,
      offlineSuspended)
  }

  /** A time column after an update. */
  function ApplyTime(previous: Option<int>, f: TimeField): Option<int> {
    match f
    case Unset => previous
    case SetNil => None
    case SetTime(t) => Some(t)
  }

  /** The row after `buildUpdateStatement` writes `u`. */
  function ApplyStats(row: NodeRow, u: StatsUpdate): NodeRow {
    NodeRow(
      u.totalAuditCount,
      if u.auditSuccessCount.Some? then u.auditSuccessCount.value else row.auditSuccessCount,
      ApplyTime(row.vettedAt, u.vettedAt),
      ApplyTime(row.disqualified, u.disqualified),
      ApplyTime(row.unknownAuditSuspended, u.unknownAuditSuspended),
      ApplyTime(row.underReview, u.offlineUnderReview),
      ApplyTime(row.offlineSuspended, u.offlineSuspended),
      if u.contained.Some? then u.contained.value else row.contained)
  }

  /** Successful audits never outnumber audits. */
  predicate CountsConsistent(row: NodeRow) {
    0 <= row.auditSuccessCount <= row.totalAuditCount
  }

  /** Every stats update keeps the audit counters consistent, never un-vets a node, never
      lifts a disqualification, and takes the node out of containment. */
  lemma StatsUpdateKeepsInvariants(row: NodeRow, req: StatsRequest, tests: ReputationTests, now: int)
    requires CountsConsistent(row)
    ensures var after := ApplyStats(row, PopulateUpdateNodeStats(row, req, tests, now));
      && CountsConsistent(after)
      && after.totalAuditCount == row.totalAuditCount + 1
      && (row.vettedAt.Some? ==> after.vettedAt == row.vettedAt)
      && (row.disqualified.Some? ==> after.disqualified.Some?)
      && !after.contained
  {
  }
}

=== FILE: piece_collection.dfy ===
/** How `DeleteObjectPieces` (satellite/metainfo/metainfo.go) groups the pieces of the
    deleted segments by storage node: nodes in first-seen order, each with its
    piece identifiers in the order they were met. */
module PieceCollection {
  import opened Pointers

  /** The node list and node → pieces map built while deleting. */
  datatype Collected = Collected(order: seq<NodeId>, pieces: map<NodeId, seq<PieceId>>)

  const Empty: Collected := Collected([], map[])

  /** One step of the source loop: a new node is appended to the order with a
      one-piece list; a known node gets the piece appended to its list. */
  function AddPiece(c: Collected, id: PieceId): (r: Collected) {
    if id.node !in c.pieces then Collected(c.order + [id.node], c.pieces[id.node := [id]])
    else Collected(c.order, c.pieces[id.node := c.pieces[id.node] + [id]])
  }

  /** The identifiers of a pointer's pieces (`RootPieceId.Derive(node, pieceNum)`). */
  function PointerPieceIds(p: Pointer): (ids: seq<PieceId>)
    ensures |ids| == |PiecesOf(p)|
  {
    var root := if p.remote.Some? then p.remote.value.rootPieceId else 0;
    seq(|PiecesOf(p)|, i requires 0 <= i < |PiecesOf(p)| => Derived(root, PiecesOf(p)[i].nodeId, PiecesOf(p)[i].pieceNum))
  }

  /** The source loop over a sequence of pieces, from a given start. */
  function AddAll(c: Collected, ids: seq<PieceId>): (r: Collected)
    decreases |ids|
  {
    if |ids| == 0 then c else AddAll(AddPiece(c, ids[0]), ids[1..])
  }

  /** The collection built from nothing. */
  function Collect(ids: seq<PieceId>): Collected {
    AddAll(Empty, ids)
  }

  /** Reference definition: the nodes of `ids`, each once, in first-seen order. */
  function DistinctNodes(ids: seq<PieceId>): (r: seq<NodeId>)
    decreases |ids|
  {
    if |ids| == 0 then []
    else
      var prefix := DistinctNodes(ids[..|ids| - 1]);
      var n := ids[|ids| - 1].node;
      if n in prefix then prefix else prefix + [n]
  }

  /** Reference definition: the pieces of `ids` held by node `n`, in order. */
  function PiecesOn(ids: seq<PieceId>, n: NodeId): (r: seq<PieceId>)
    ensures forall x :: x in r ==> x in ids && x.node == n
    decreases |ids|
  {
    if |ids| == 0 then []
    else
      var prefix := PiecesOn(ids[..|ids| - 1], n);
      if ids[|ids| - 1].node == n then prefix + [ids[|ids| - 1]] else prefix
  }

  /** Each node appears once in a sequence. */
  predicate NoDuplicates(s: seq<NodeId>) {
    forall i, j :: 0 <= i < j < |s| ==> s[i] != s[j]
  }

  lemma {:induction false} AddAllAppend(c: Collected, a: seq<PieceId>, b: seq<PieceId>)
    ensures AddAll(c, a + b) == AddAll(AddAll(c, a), b)
    decreases |a|
  {
    if |a| > 0 {
      assert (a + b)[0] == a[0];
      assert (a + b)[1..] == a[1..] + b;
      AddAllAppend(AddPiece(c, a[0]), a[1..], b);
    } else {
      assert a + b == b;
    }
  }

  /** Collecting one more piece is one more step of the loop. */
  lemma CollectSnoc(ids: seq<PieceId>, id: PieceId)
    ensures Collect(ids + [id]) == AddPiece(Collect(ids), id)
  {
    AddAllAppend(Empty, ids, [id]);
  }

  /** Meaning of the collection: the node list is the distinct nodes in first-seen
      order, the map has exactly those nodes, and each node's list is all its pieces in order. */
  lemma {:induction false} CollectMeaning(ids: seq<PieceId>)
    ensures Collect(ids).order == DistinctNodes(ids)
    ensures NoDuplicates(Collect(ids).order)
    ensures forall n :: n in Collect(ids).pieces <==> n in Collect(ids).order
    ensures forall n :: n in Collect(ids).pieces ==> Collect(ids).pieces[n] == PiecesOn(ids, n)
    decreases |ids|
  {
    if |ids| > 0 {
      var front, id := ids[..|ids| - 1], ids[|ids| - 1];
      assert ids == front + [id];
      CollectMeaning(front);
      CollectSnoc(front, id);
      var c := Collect(front);
      var r := Collect(ids);
      assert r == AddPiece(c, id);
      if id.node !in c.pieces {
        NoPiecesOffList(front, id.node);
        assert r.order == DistinctNodes(ids);
        assert NoDuplicates(r.order) by {
          forall i, j | 0 <= i < j < |r.order| ensures r.order[i] != r.order[j] {
            if j == |r.order| - 1 {
              assert r.order[i] == c.order[i];
            } else {
              assert r.order[i] == c.order[i] && r.order[j] == c.order[j];
            }
          }
        }
        assert r.pieces[id.node] == PiecesOn(ids, id.node);
      } else {
        assert r.order == DistinctNodes(ids);
        assert r.pieces[id.node] == PiecesOn(ids, id.node);
      }
    }
  }

  /** A node outside the distinct-node list holds no piece. */
  lemma {:induction false} NoPiecesOffList(ids: seq<PieceId>, n: NodeId)
    requires n !in DistinctNodes(ids)
    ensures PiecesOn(ids, n) == []
    decreases |ids|
  {
    if |ids| > 0 {
      var front := ids[..|ids| - 1];
      assert n !in DistinctNodes(front);
      NoPiecesOffList(front, n);
    }
  }

  /** Every node of the distinct-node list holds at least one piece. */
  lemma {:induction false} NodeHasPiece(ids: seq<PieceId>, n: NodeId)
    requires n in DistinctNodes(ids)
    ensures |PiecesOn(ids, n)| > 0
    decreases |ids|
  {
    var front := ids[..|ids| - 1];
    if ids[|ids| - 1].node != n {
      NodeHasPiece(front, n);
    }
  }

  /** No piece is lost or invented: the pieces per node, over all nodes, account for every piece. */
  lemma {:induction false} EveryPieceCollected(ids: seq<PieceId>, id: PieceId)
    requires id in ids
    ensures id.node in Collect(ids).pieces && id in Collect(ids).pieces[id.node]
  {
    CollectMeaning(ids);
    PieceOnItsNode(ids, id);
    DistinctNodesCover(ids, id);
  }

  lemma {:induction false} PieceOnItsNode(ids: seq<PieceId>, id: PieceId)
    requires id in ids
    ensures id in PiecesOn(ids, id.node)
    decreases |ids|
  {
    var front := ids[..|ids| - 1];
    if ids[|ids| - 1] != id {
      assert id in front by {
        var k :| 0 <= k < |ids| && ids[k] == id;
        assert front[k] == id;
      }
      PieceOnItsNode(front, id);
    }
  }

  lemma {:induction false} DistinctNodesCover(ids: seq<PieceId>, id: PieceId)
    requires id in ids
    ensures id.node in DistinctNodes(ids)
    decreases |ids|
  {
    var front := ids[..|ids| - 1];
    if ids[|ids| - 1] != id {
      assert id in front by {
        var k :| 0 <= k < |ids| && ids[k] == id;
        assert front[k] == id;
      }
      DistinctNodesCover(front, id);
    }
  }
}

=== FILE: piece_validation.dfy ===
/** `filterValidPieces` (satellite/metainfo/metainfo.go): which uploaded
    pieces a committed remote segment keeps, and when the commit is refused. */
module PieceValidation {
  import opened Wrappers
  import opened Pointers

  /** The order limit the satellite signed for one piece upload. */
  datatype OrderLimit = OrderLimit(storageNodeId: NodeId, pieceId: PieceId, limit: int)

  /** Collaborators filterValidPieces consults, as pure parameters:
      the peer-identity batch lookup, the piece hash signature check,
      the redundancy-strategy constructor and `eestream.CalcPieceSize`. */
  datatype Validator = Validator(
    identitiesAvailable: bool,
    knownIdentity: NodeId -> bool,
    hashValid: (RemotePiece, OrderLimit) -> bool,
    strategyValid: Redundancy -> bool,
    calcPieceSize: (int, Redundancy) -> int)

  /** Why a commit was refused. */
  datatype FilterError =
    | IdentityLookupFailed
    | SizesDiffer
    | InvalidStrategy
    | PieceSizeMismatch(expected: int, actual: int)
    | BelowRepairThreshold(valid: nat)
    | BelowSuccessThreshold(valid: nat)

  /** The RPC status each refusal is reported with. */
  function StatusOf(e: FilterError): (c: StatusCode)
    ensures c == Internal <==> e.IdentityLookupFailed?
    ensures c != Internal ==> c == InvalidArgument
  {
    if e.IdentityLookupFailed? then Internal else InvalidArgument
  }

  /** The size a node claims for its piece; absent hashes never reach this point. */
  function Size(piece: RemotePiece): int {
    if piece.hash.Some? then piece.hash.value.pieceSize else 0
  }

  /** The original limits are indexed by piece number for every piece whose node is known
      (an index outside them is a run-time panic in the source). */
  predicate Indexable(v: Validator, limits: seq<Option<OrderLimit>>, ps: seq<RemotePiece>) {
    forall i :: 0 <= i < |ps| && v.knownIdentity(ps[i].nodeId) ==> 0 <= ps[i].pieceNum < |limits|
  }

  /** A piece survives the identity, limit and signature checks. */
  predicate Usable(v: Validator, limits: seq<Option<OrderLimit>>, piece: RemotePiece)
    requires v.knownIdentity(piece.nodeId) ==> 0 <= piece.pieceNum < |limits|
  {
    && v.knownIdentity(piece.nodeId)
    && limits[piece.pieceNum].Some?
    && piece.hash.Some?
    && v.hashValid(piece, limits[piece.pieceNum].value)
  }

  /** Reference definition: the usable pieces, in upload order. */
  function UsablePieces(v: Validator, limits: seq<Option<OrderLimit>>, ps: seq<RemotePiece>): (r: seq<RemotePiece>)
    requires Indexable(v, limits, ps)
    ensures |r| <= |ps|
    ensures forall q :: q in r ==> q in ps && q.hash.Some?
  {
    if |ps| == 0 then []
    else
      var rest := UsablePieces(v, limits, ps[1..]);
      if Usable(v, limits, ps[0]) then [ps[0]] + rest else rest
  }

  /** Every piece claims the same positive size, equal to `last` when one is already fixed. */
  predicate ConsistentSizes(ps: seq<RemotePiece>, last: int) {
    forall i :: 0 <= i < |ps| ==>
      Size(ps[i]) > 0 && Size(ps[i]) == Size(ps[0]) && (last > 0 ==> Size(ps[i]) == last)
  }

  lemma ConsistentSizesCons(x: RemotePiece, rest: seq<RemotePiece>, last: int)
    requires last >= 0
    ensures ConsistentSizes([x] + rest, last)
      <==> Size(x) > 0 && (last > 0 ==> Size(x) == last) && ConsistentSizes(rest, Size(x))
  {
    var s := [x] + rest;
    assert s[0] == x;
    assert forall i :: 0 <= i < |rest| ==> rest[i] == s[i + 1];
    if ConsistentSizes(s, last) {
      assert ConsistentSizes(rest, Size(x)) by {
        forall i | 0 <= i < |rest|
          ensures Size(rest[i]) > 0 && Size(rest[i]) == Size(rest[0]) && (Size(x) > 0 ==> Size(rest[i]) == Size(x))
        {
          assert rest[i] == s[i + 1] && rest[0] == s[1];
        }
      }
    }
  }

  /** The loop's outcome: the pieces kept, the last size seen, and whether no size broke it. */
  datatype ScanResult = ScanResult(kept: seq<RemotePiece>, lastSize: int, sizesValid: bool)

  /** The piece loop of filterValidPieces: skip unusable pieces, stop at the first
      usable piece whose size is not positive or differs from the one before. */
  function Scan(v: Validator, limits: seq<Option<OrderLimit>>, ps: seq<RemotePiece>, last: int): (r: ScanResult)
    requires Indexable(v, limits, ps) && last >= 0
    ensures r.sizesValid <==> ConsistentSizes(UsablePieces(v, limits, ps), last)
    ensures r.sizesValid ==> r.kept == UsablePieces(v, limits, ps)
    ensures r.sizesValid ==> forall q :: q in r.kept ==> Size(q) == r.lastSize
    ensures r.sizesValid && |r.kept| == 0 ==> r.lastSize == last
    ensures r.sizesValid && last > 0 ==> r.lastSize == last
    decreases |ps|
  {
    if |ps| == 0 then ScanResult([], last, true)
    else
      var piece := ps[0];
      assert Indexable(v, limits, ps[1..]) by {
        forall i | 0 <= i < |ps[1..]| && v.knownIdentity(ps[1..][i].nodeId)
          ensures 0 <= ps[1..][i].pieceNum < |limits|
        {
          assert ps[1..][i] == ps[i + 1];
        }
      }
      if !Usable(v, limits, piece) then
        Scan(v, limits, ps[1..], last)
      else
        var size := Size(piece);
        ConsistentSizesCons(piece, UsablePieces(v, limits, ps[1..]), last);
        if size <= 0 || (last > 0 && last != size) then ScanResult([], last, false)
        else
          var rest := Scan(v, limits, ps[1..], size);
          ScanResult([piece] + rest.kept, rest.lastSize, rest.sizesValid)
  }

  /** A remote pointer passes every check before the piece count: identities, one
      shared size, a valid strategy, and the size the erasure scheme expects. */
  predicate SizeChecksPass(v: Validator, p: Pointer, limits: seq<Option<OrderLimit>>)
    requires p.remote.Some? && Indexable(v, limits, p.remote.value.pieces)
  {
    var kept := UsablePieces(v, limits, p.remote.value.pieces);
    var red := p.remote.value.redundancy;
    var expected := v.calcPieceSize(p.segmentSize, red);
    && v.identitiesAvailable
    && ConsistentSizes(kept, 0)
    && v.strategyValid(red)
    && (forall q :: q in kept ==> Size(q) == expected)
    && (|kept| == 0 ==> expected == 0)
  }

  /** The conditions under which a commit keeps its pointer. */
  predicate Acceptable(v: Validator, p: Pointer, limits: seq<Option<OrderLimit>>)
    requires p.ptype == Remote ==> p.remote.Some? && Indexable(v, limits, p.remote.value.pieces)
  {
    p.ptype == Remote ==>
      && SizeChecksPass(v, p, limits)
      && |UsablePieces(v, limits, p.remote.value.pieces)| >= p.remote.value.redundancy.successThreshold
  }

  /** `filterValidPieces`: a remote pointer keeps only its usable pieces, provided they
      share one size that matches the erasure scheme and there are enough of them. */
  function FilterValidPieces(v: Validator, p: Pointer, limits: seq<Option<OrderLimit>>): (r: Result<Pointer, FilterError>)
    requires p.ptype == Remote ==> p.remote.Some? && Indexable(v, limits, p.remote.value.pieces)
    ensures p.ptype != Remote ==> r == Ok(p)
    ensures r.Ok? <==> Acceptable(v, p, limits)
    ensures p.ptype == Remote ==> (r == Err(IdentityLookupFailed) <==> !v.identitiesAvailable)
    ensures p.ptype == Remote && v.identitiesAvailable ==>
      (r == Err(SizesDiffer) <==> !ConsistentSizes(UsablePieces(v, limits, p.remote.value.pieces), 0))
    ensures r.Ok? && p.ptype == Remote ==>
      var kept := UsablePieces(v, limits, p.remote.value.pieces);
      var red := p.remote.value.redundancy;
      && r.value == p.(remote := Some(p.remote.value.(pieces := kept)))
      && |kept| >= red.successThreshold
      && v.strategyValid(red)
      && forall q :: q in kept ==> Size(q) == v.calcPieceSize(p.segmentSize, red)
    ensures r.Err? && (r.error.BelowRepairThreshold? || r.error.BelowSuccessThreshold?) ==>
      r.error.valid == |UsablePieces(v, limits, p.remote.value.pieces)|
    ensures p.ptype == Remote ==>
      var n := |UsablePieces(v, limits, p.remote.value.pieces)|;
      var red := p.remote.value.redundancy;
      (r == Err(BelowRepairThreshold(n)) <==>
        SizeChecksPass(v, p, limits) && n <= red.repairThreshold && n < red.successThreshold)
    ensures p.ptype == Remote ==>
      var n := |UsablePieces(v, limits, p.remote.value.pieces)|;
      var red := p.remote.value.redundancy;
      (r == Err(BelowSuccessThreshold(n)) <==>
        SizeChecksPass(v, p, limits) && red.repairThreshold < n < red.successThreshold)
  {
    if p.ptype != Remote then Ok(p)
    else if !v.identitiesAvailable then Err(IdentityLookupFailed)
    else
      var remote := p.remote.value;
      var red := remote.redundancy;
      var scan := Scan(v, limits, remote.pieces, 0);
      if !scan.sizesValid then Err(SizesDiffer)
      else if !v.strategyValid(red) then Err(InvalidStrategy)
      else if v.calcPieceSize(p.segmentSize, red) != scan.lastSize then
        assert |scan.kept| > 0 ==> scan.kept[0] in scan.kept;
        Err(PieceSizeMismatch(v.calcPieceSize(p.segmentSize, red), scan.lastSize))
      else
        var n := |scan.kept|;
        if n <= red.repairThreshold && n < red.successThreshold then Err(BelowRepairThreshold(n))
        else if n < red.successThreshold then Err(BelowSuccessThreshold(n))
        else Ok(p.(remote := Some(remote.(pieces := scan.kept))))
  }

  lemma {:induction false} UsablePiecesIdempotent(v: Validator, limits: seq<Option<OrderLimit>>, ps: seq<RemotePiece>)
    requires Indexable(v, limits, ps)
    ensures Indexable(v, limits, UsablePieces(v, limits, ps))
    ensures UsablePieces(v, limits, UsablePieces(v, limits, ps)) == UsablePieces(v, limits, ps)
    decreases |ps|
  {
    if |ps| > 0 {
      assert Indexable(v, limits, ps[1..]) by {
        forall i | 0 <= i < |ps[1..]| && v.knownIdentity(ps[1..][i].nodeId)
          ensures 0 <= ps[1..][i].pieceNum < |limits|
        {
          assert ps[1..][i] == ps[i + 1];
        }
      }
      UsablePiecesIdempotent(v, limits, ps[1..]);
      var rest := UsablePieces(v, limits, ps[1..]);
      if Usable(v, limits, ps[0]) {
        var r := [ps[0]] + rest;
        assert r[1..] == rest;
        assert Indexable(v, limits, r) by {
          forall i | 0 <= i < |r| && v.knownIdentity(r[i].nodeId)
            ensures 0 <= r[i].pieceNum < |limits|
          {
            if i > 0 { assert r[i] == rest[i - 1]; }
          }
        }
      }
    }
  }

  /** Filtering is idempotent: an accepted pointer passes the filter again unchanged. */
  lemma FilterIdempotent(v: Validator, p: Pointer, limits: seq<Option<OrderLimit>>)
    requires p.ptype == Remote ==> p.remote.Some? && Indexable(v, limits, p.remote.value.pieces)
    requires FilterValidPieces(v, p, limits).Ok?
    ensures var q := FilterValidPieces(v, p, limits).value;
      && (q.ptype == Remote ==> q.remote.Some? && Indexable(v, limits, q.remote.value.pieces))
      && FilterValidPieces(v, q, limits) == Ok(q)
  {
    if p.ptype == Remote {
      UsablePiecesIdempotent(v, limits, p.remote.value.pieces);
    }
  }
}

=== FILE: pointers.dfy ===
/** Segment metadata records (`pb.Pointer`), the pointer store they live in,
    and the space accounting of satellite/metainfo/metainfo.go. */
module Pointers {
  import opened Wrappers

  type NodeId = string
  type Byte = bv8

  /** `RootPieceId.Derive(node, pieceNum)`: the piece identifier a node stores. */
  datatype PieceId = Derived(root: nat, node: NodeId, pieceNum: int)

  /** The storage node's signed statement about an uploaded piece. */
  datatype PieceHash = PieceHash(pieceSize: int, signature: seq<Byte>)

  datatype RemotePiece = RemotePiece(pieceNum: int, nodeId: NodeId, hash: Option<PieceHash>)

  /** Erasure scheme: k = minReq, m = repairThreshold, o = successThreshold, n = total. */
  datatype Redundancy = Redundancy(
    minReq: int,
    repairThreshold: int,
    successThreshold: int,
    total: int,
    erasureShareSize: int)

  datatype RemoteSegment = RemoteSegment(redundancy: Redundancy, rootPieceId: nat, pieces: seq<RemotePiece>)

  datatype PointerType = Inline | Remote

  /** The client-encrypted metadata blob, by the protobuf message it holds. */
  datatype Metadata =
    | NoMetadata
    | StreamMeta(numberOfSegments: int)
    | SegmentMeta(encryptedKey: seq<Byte>, keyNonce: seq<Byte>)
    | Malformed

  /** `proto.Unmarshal(metadata, &pb.StreamMeta{})` and its NumberOfSegments:
      an empty blob decodes to the zero message; a segment-level blob does not decode. */
  function NumberOfSegments(m: Metadata): (r: Option<int>)
    ensures m.StreamMeta? ==> r == Some(m.numberOfSegments)
    ensures m.NoMetadata? ==> r == Some(0)
    ensures m.SegmentMeta? || m.Malformed? ==> r.None?
  {
    match m
    case NoMetadata => Some(0)
    case StreamMeta(n) => Some(n)
    case _ => None
  }

  datatype Pointer = Pointer(
    ptype: PointerType,
    segmentSize: int,
    inlineSegment: Option<seq<Byte>>,
    remote: Option<RemoteSegment>,
    metadata: Metadata,
    creationDate: int,
    expirationDate: int,
    pieceHashesVerified: bool)

  /** Pieces of a pointer, empty when it has no remote part (`GetRemote().GetRemotePieces()`). */
  function PiecesOf(p: Pointer): seq<RemotePiece> {
    if p.remote.Some? then p.remote.value.pieces else []
  }

  /** Go's `/` on integers truncates toward zero. */
  function GoDiv(a: int, b: int): (q: int)
    requires b != 0
    ensures a >= 0 && b > 0 ==> q == a / b
  {
    if (a >= 0) == (b > 0) then (if a >= 0 then a / b else (-a) / (-b))
    else -((if a >= 0 then a else -a) / (if b > 0 then b else -b))
  }

  /** Division by a remote pointer's minReq is only defined when minReq is non-zero. */
  predicate SpaceComputable(p: Pointer) {
    p.inlineSegment.None? && p.remote.Some? ==> p.remote.value.redundancy.minReq != 0
  }

  /** `calculateSpaceUsed`: (segment size, bytes stored on nodes). */
  function CalculateSpaceUsed(p: Pointer): (r: (int, int))
    requires SpaceComputable(p)
    ensures p.inlineSegment.Some? ==> r.0 == r.1 == |p.inlineSegment.value|
    ensures p.inlineSegment.None? && p.remote.None? ==> r == (0, 0)
    ensures p.inlineSegment.None? && p.remote.Some? ==>
      r.0 == p.segmentSize
      && r.1 == GoDiv(p.segmentSize, p.remote.value.redundancy.minReq) * |p.remote.value.pieces|
  {
    if p.inlineSegment.Some? then (|p.inlineSegment.value|, |p.inlineSegment.value|)
    else if p.remote.None? then (0, 0)
    else
      var minReq := p.remote.value.redundancy.minReq;
      var pieceSize := GoDiv(p.segmentSize, minReq);
      (p.segmentSize, pieceSize * |p.remote.value.pieces|)
  }

  /** The stored total is the truncated per-piece share times the piece count, so it lies
      within one share per piece of segmentSize·pieces/minReq: below it for a non-negative
      size, above it for a negative one (Go truncates toward zero). */
  lemma SpaceUsedBound(p: Pointer)
    requires p.inlineSegment.None? && p.remote.Some?
    requires p.remote.value.redundancy.minReq > 0
    ensures var k, n := p.remote.value.redundancy.minReq, |p.remote.value.pieces|;
      p.segmentSize >= 0 ==>
        && CalculateSpaceUsed(p).1 * k <= p.segmentSize * n
        && (n > 0 ==> p.segmentSize * n < (CalculateSpaceUsed(p).1 + n) * k)
    ensures var k, n := p.remote.value.redundancy.minReq, |p.remote.value.pieces|;
      p.segmentSize < 0 ==>
        && p.segmentSize * n <= CalculateSpaceUsed(p).1 * k
        && (n > 0 ==> (CalculateSpaceUsed(p).1 - n) * k < p.segmentSize * n)
  {
    var k, n := p.remote.value.redundancy.minReq, |p.remote.value.pieces|;
    assert CalculateSpaceUsed(p).1 == GoDiv(p.segmentSize, k) * n;
    if p.segmentSize >= 0 {
      ShareBracketNonNegative(p.segmentSize, k, n);
    } else {
      ShareBracketNegative(p.segmentSize, k, n);
    }
  }

  lemma ShareBracketNonNegative(s: int, k: int, n: nat)
    requires s >= 0 && k > 0
    ensures GoDiv(s, k) * n * k <= s * n
    ensures n > 0 ==> s * n < (GoDiv(s, k) * n + n) * k
  {
    var q := s / k;
    assert GoDiv(s, k) == q;
    assert s == k * q + s % k && 0 <= s % k < k;
    assert q * k <= s < (q + 1) * k;
    MulMono(q * k, s, n);
    assert (q * k) * n == (q * n) * k;
    if n > 0 {
      MulStrict(s, (q + 1) * k, n);
      assert ((q + 1) * k) * n == (q * n + n) * k;
    }
  }

  lemma ShareBracketNegative(s: int, k: int, n: nat)
    requires s < 0 && k > 0
    ensures s * n <= GoDiv(s, k) * n * k
    ensures n > 0 ==> (GoDiv(s, k) * n - n) * k < s * n
  {
    var t := -s;
    var q := -(t / k);
    assert GoDiv(s, k) == q;
    assert t == k * (t / k) + t % k && 0 <= t % k < k;
    assert (q - 1) * k < s <= q * k;
    MulMono(s, q * k, n);
    assert (q * k) * n == (q * n) * k;
    if n > 0 {
      MulStrict((q - 1) * k, s, n);
      assert ((q - 1) * k) * n == (q * n - n) * k;
    }
  }

  lemma MulMono(a: int, b: int, n: nat)
    requires a <= b
    ensures a * n <= b * n
  {
  }

  lemma MulStrict(a: int, b: int, n: int)
    requires a < b && n > 0
    ensures a * n < b * n
  {
  }

  /** The pointer store: a key → pointer map, plus the keys whose access fails
      with an error other than "not found" (an unavailable store backend). */
  datatype Store = Store(entries: map<string, Pointer>, broken: set<string>)

  datatype StoreError = KeyNotFound | StoreFailure

  /** `metainfo.Get`. */
  function Get(s: Store, path: string): (r: Result<Pointer, StoreError>)
    ensures r.Ok? <==> path !in s.broken && path in s.entries
    ensures r.Ok? ==> r.value == s.entries[path]
    ensures r == Err(KeyNotFound) <==> path !in s.broken && path !in s.entries
  {
    if path in s.broken then Err(StoreFailure)
    else if path in s.entries then Ok(s.entries[path])
    else Err(KeyNotFound)
  }

  /** `metainfo.UnsynchronizedPut`: last writer wins. */
  function Put(s: Store, path: string, p: Pointer): (r: Result<Store, StoreError>)
    ensures r.Ok? <==> path !in s.broken
    ensures r.Ok? ==> r.value.entries == s.entries[path := p] && r.value.broken == s.broken
  {
    if path in s.broken then Err(StoreFailure)
    else Ok(s.(entries := s.entries[path := p]))
  }

  /** `metainfo.UnsynchronizedDelete`. */
  function Delete(s: Store, path: string): (r: Result<Store, StoreError>)
    ensures r.Ok? <==> path !in s.broken && path in s.entries
    ensures r.Ok? ==> r.value.entries == s.entries - {path} && r.value.broken == s.broken
    ensures r == Err(KeyNotFound) <==> path !in s.broken && path !in s.entries
  {
    if path in s.broken then Err(StoreFailure)
    else if path in s.entries then Ok(s.(entries := s.entries - {path}))
    else Err(KeyNotFound)
  }

  /** Every stored pointer admits space accounting. */
  predicate WellFormedStore(s: Store) {
    forall path :: path in s.entries ==> SpaceComputable(s.entries[path])
  }

  /** Every stored REMOTE pointer has its remote part (`GetRemote()` is not nil). */
  predicate RemotePartsPresent(s: Store) {
    forall path :: path in s.entries && s.entries[path].ptype == Remote ==> s.entries[path].remote.Some?
  }
}

=== FILE: rs_config.dfy ===
/** The default redundancy strategy flag of satellite/metainfo/config.go: `RSConfig.String`
    writes `min/repair/success/total-size` and `RSConfig.Set` reads it back. */
module RsConfig {
  import opened Wrappers
  import opened Text
  import opened Decimal

  datatype RsConfig = RsConfig(erasureShareSize: int, min: int, repair: int, success: int, total: int)

  /** `memory.Size`'s text form: `String` and `ParseString`, which are not part of this model. */
  datatype SizeCodec = SizeCodec(format: int -> string, parse: string -> Option<int>)

  datatype ConfigError =
    | WrongShape        // not exactly one `-`
    | BadShareSize      // the size part does not parse
    | WrongCount        // not exactly four numbers
    | NotInteger        // a number does not parse as an int
    | Decreasing        // a number is below 1 or below its predecessor

  /** The numbers a valid flag lists: each parses, the first is at least `minValue`
      and none is below the one before. */
  predicate NumbersValid(parts: seq<string>, minValue: int) {
    && (forall i :: 0 <= i < |parts| ==> ParseInt64(parts[i]).Some?)
    && (forall i :: 0 <= i < |parts| ==> Floor(parts, minValue, i) <= ParseInt64(parts[i]).value)
  }

  /** The least value the number at `i` may take: `minValue` first, then its predecessor. */
  function Floor(parts: seq<string>, minValue: int, i: int): int
    requires 0 <= i < |parts|
  {
    if i == 0 then minValue
    else match ParseInt64(parts[i - 1]) case Some(v) => v case None => minValue
  }

  /** The loop of `Set` over the `/`-separated numbers, stopping at the first that fails. */
  function ParseNumbers(parts: seq<string>, minValue: int): (r: Result<seq<int>, ConfigError>)
    ensures r.Ok? <==> NumbersValid(parts, minValue)
    ensures r.Ok? ==> |r.value| == |parts| && forall i :: 0 <= i < |parts| ==> ParseInt64(parts[i]) == Some(r.value[i])
    ensures r.Err? ==> r.error == NotInteger || r.error == Decreasing
    ensures r == Err(NotInteger) ==> exists i :: 0 <= i < |parts| && ParseInt64(parts[i]).None?
    decreases |parts|
  {
    if |parts| == 0 then Ok([])
    else
      match ParseInt64(parts[0])
      case None => Err(NotInteger)
      case Some(next) =>
        if next < minValue then
          assert Floor(parts, minValue, 0) > ParseInt64(parts[0]).value;
          Err(Decreasing)
        else
          assert forall i :: 1 <= i < |parts| ==> parts[i] == parts[1..][i - 1];
          forall i | 1 <= i < |parts| && ParseInt64(parts[i - 1]).Some?
            ensures Floor(parts, minValue, i) == Floor(parts[1..], next, i - 1)
          {
            if i > 1 {
              assert parts[1..][i - 2] == parts[i - 1];
            }
          }
          assert NumbersValid(parts, minValue) <==> NumbersValid(parts[1..], next);
          match ParseNumbers(parts[1..], next)
          case Err(e) => Err(e)
          case Ok(rest) => Ok([next] + rest)
  }

  /** `RSConfig.Set`. */
  function Set(codec: SizeCodec, s: string): (r: Result<RsConfig, ConfigError>)
    ensures r.Ok? ==>
      var info := Split(s, '-');
      var nums := Split(info[0], '/');
      && |info| == 2 && codec.parse(info[1]) == Some(r.value.erasureShareSize)
      && |nums| == 4
      && ParseInt64(nums[0]) == Some(r.value.min)
      && ParseInt64(nums[1]) == Some(r.value.repair)
      && ParseInt64(nums[2]) == Some(r.value.success)
      && ParseInt64(nums[3]) == Some(r.value.total)
      && 1 <= r.value.min <= r.value.repair <= r.value.success <= r.value.total
    ensures r == Err(WrongShape) <==> |Split(s, '-')| != 2
    ensures r == Err(BadShareSize) <==> |Split(s, '-')| == 2 && codec.parse(Split(s, '-')[1]).None?
    ensures r == Err(WrongCount) <==>
      |Split(s, '-')| == 2 && codec.parse(Split(s, '-')[1]).Some? && |Split(Split(s, '-')[0], '/')| != 4
    ensures r.Err? && |Split(s, '-')| == 2 && codec.parse(Split(s, '-')[1]).Some? && |Split(Split(s, '-')[0], '/')| == 4 ==>
      !NumbersValid(Split(Split(s, '-')[0], '/'), 1)
  {
    var info := Split(s, '-');
    if |info| != 2 then Err(WrongShape)
    else
      match codec.parse(info[1])
      case None => Err(BadShareSize)
      case Some(shareSize) =>
        var rsNumbers := Split(info[0], '/');
        if |rsNumbers| != 4 then Err(WrongCount)
        else
          var values :- ParseNumbers(rsNumbers, 1);
          Ok(RsConfig(shareSize, values[0], values[1], values[2], values[3]))
  }

  /** `RSConfig.String`: `%d/%d/%d/%d-%s`. */
  function Format(codec: SizeCodec, rs: RsConfig): string {
    Join([Join([FormatInt(rs.min), FormatInt(rs.repair), FormatInt(rs.success), FormatInt(rs.total)], '/'),
          codec.format(rs.erasureShareSize)], '-')
  }

  /** The configurations `Set` can produce. */
  predicate Valid(rs: RsConfig) {
    1 <= rs.min <= rs.repair <= rs.success <= rs.total <= MaxInt64
  }

  /** The decimal text of a natural has neither separator. */
  lemma DigitsHaveNoSeparator(n: nat)
    ensures !Contains(FormatNat(n), '/') && !Contains(FormatNat(n), '-')
  {
    var s := FormatNat(n);
    assert AllDigits(s);
    forall i | 0 <= i < |s| ensures s[i] != '/' && s[i] != '-' {
      assert IsDigit(s[i]);
    }
  }

  /** Round trip: a valid configuration written with `String` is read back by `Set`,
      provided the size codec round-trips and writes no `-`. */
  lemma {:induction false} SetFormatRoundTrip(codec: SizeCodec, rs: RsConfig)
    requires Valid(rs)
    requires !Contains(codec.format(rs.erasureShareSize), '-')
    requires codec.parse(codec.format(rs.erasureShareSize)) == Some(rs.erasureShareSize)
    ensures Set(codec, Format(codec, rs)) == Ok(rs)
  {
    var numbers := [FormatInt(rs.min), FormatInt(rs.repair), FormatInt(rs.success), FormatInt(rs.total)];
    var values := [rs.min, rs.repair, rs.success, rs.total];
    forall i | 0 <= i < 4
      ensures numbers[i] == FormatNat(values[i])
      ensures !Contains(numbers[i], '/') && !Contains(numbers[i], '-')
      ensures ParseInt64(numbers[i]) == Some(values[i])
    {
      DigitsHaveNoSeparator(values[i]);
      ParseFormatInt(values[i]);
    }
    SplitJoin(numbers, '/');
    var head := Join(numbers, '/');
    assert !Contains(head, '-') by {
      JoinFree(numbers, '/', '-');
    }
    var info := [head, codec.format(rs.erasureShareSize)];
    SplitJoin(info, '-');
    assert Split(Format(codec, rs), '-') == info;
    assert Split(info[0], '/') == numbers;
    var parsed := ParseNumbers(numbers, 1);
    assert NumbersValid(numbers, 1);
  }
}

=== FILE: segment_path.dfy ===
/** Keys of the pointer store: `CreatePath` and `createBucketID`
    (satellite/metainfo/metainfo.go). */
module SegmentPath {
  import opened Wrappers
  import opened Text
  import opened Decimal

  /** The segment index of the sentinel final segment. */
  const LastSegment: int := -1

  /** `storj.JoinPaths`: the components joined with `/`. */
  function JoinPaths(entries: seq<string>): string {
    Join(entries, '/')
  }

  /** The segment component: `l` for the last segment, `s<n>` otherwise. */
  function SegmentMarker(segmentIndex: int): (m: string)
    requires segmentIndex >= -1
    ensures |m| >= 1 && !Contains(m, '/')
    ensures m[0] == 'l' <==> segmentIndex == LastSegment
  {
    if segmentIndex == LastSegment then "l" else "s" + FormatNat(segmentIndex)
  }

  /** `CreatePath`: project, segment marker, then bucket and key when non-empty. */
  function CreatePath(projectId: string, segmentIndex: int, bucket: string, key: string): (r: Result<string, StatusCode>)
    ensures r.Err? <==> segmentIndex < -1
    ensures r.Ok? ==> r.value == projectId + "/" + SegmentMarker(segmentIndex) + Tail(bucket, key)
  {
    if segmentIndex < -1 then Err(InvalidArgument)
    else
      var entries := [projectId, SegmentMarker(segmentIndex)]
        + (if |bucket| != 0 then [bucket] else [])
        + (if |key| != 0 then [key] else []);
      JoinLemma(projectId, SegmentMarker(segmentIndex), bucket, key);
      Ok(JoinPaths(entries))
  }

  /** `createBucketID`: project and bucket joined with `/`, bucket kept even when empty. */
  function CreateBucketId(projectId: string, bucket: string): (id: string)
    ensures id == projectId + "/" + bucket
  {
    assert [projectId, bucket][1..] == [bucket];
    assert Join([bucket], '/') == bucket;
    JoinPaths([projectId, bucket])
  }

  /** Distinct projects or buckets never share a bucket ID, since a project ID has no `/`. */
  lemma BucketIdInjective(p: string, b: string, p': string, b': string)
    requires !Contains(p, '/') && !Contains(p', '/')
    requires CreateBucketId(p, b) == CreateBucketId(p', b')
    ensures p == p' && b == b'
  {
    SplitAtSeparator(p, b, p', b');
  }

  lemma JoinLemma(p: string, m: string, bucket: string, key: string)
    ensures JoinPaths([p, m] + (if |bucket| != 0 then [bucket] else []) + (if |key| != 0 then [key] else []))
      == p + "/" + m + Tail(bucket, key)
  {
    var entries := [p, m] + (if |bucket| != 0 then [bucket] else []) + (if |key| != 0 then [key] else []);
    if |bucket| != 0 && |key| != 0 {
      assert entries == [p] + [m, bucket, key];
      JoinCons(p, [m, bucket, key], '/');
      JoinCons(m, [bucket, key], '/');
      JoinCons(bucket, [key], '/');
    } else if |bucket| != 0 || |key| != 0 {
      var t := if |bucket| != 0 then bucket else key;
      assert entries == [p] + [m, t];
      JoinCons(p, [m, t], '/');
      JoinCons(m, [t], '/');
    } else {
      assert entries == [p] + [m];
      JoinCons(p, [m], '/');
    }
  }

  lemma JoinCons(x: string, rest: seq<string>, sep: char)
    requires |rest| >= 1
    ensures Join([x] + rest, sep) == x + [sep] + Join(rest, sep)
  {
    assert ([x] + rest)[1..] == rest;
  }

  /** The path of a segment, for indices that CreatePath accepts. */
  function SegmentKey(projectId: string, segmentIndex: int, bucket: string, key: string): string
    requires segmentIndex >= -1
  {
    CreatePath(projectId, segmentIndex, bucket, key).value
  }

  /** A path tuple is well formed when the project and bucket carry no `/`
      and a key never appears without a bucket. */
  predicate ValidTuple(projectId: string, bucket: string, key: string) {
    && !Contains(projectId, '/')
    && !Contains(bucket, '/')
    && (bucket == "" ==> key == "")
  }

  /** Index of the first `c` in `s`, or `|s|` when there is none. */
  function IndexOf(s: string, c: char): (n: nat)
    ensures n <= |s|
  {
    if |s| == 0 then 0 else if s[0] == c then 0 else 1 + IndexOf(s[1..], c)
  }

  /** A separator-free head followed by nothing or by a separator ends at the first separator. */
  lemma {:induction false} IndexOfAfterFreeHead(a: string, t: string, c: char)
    requires !Contains(a, c)
    requires t == [] || t[0] == c
    ensures IndexOf(a + t, c) == |a|
    decreases |a|
  {
    if |a| > 0 {
      assert (a + t)[1..] == a[1..] + t;
      assert !Contains(a[1..], c) by {
        forall i | 0 <= i < |a[1..]| ensures a[1..][i] != c {
          assert a[1..][i] == a[i + 1];
        }
      }
      IndexOfAfterFreeHead(a[1..], t, c);
    } else {
      assert a + t == t;
    }
  }

  /** Two strings free of the separator followed by it can be split apart again. */
  lemma {:induction false} SplitAtSeparator(a: string, r: string, a': string, r': string)
    requires !Contains(a, '/') && !Contains(a', '/')
    requires a + "/" + r == a' + "/" + r'
    ensures a == a' && r == r'
  {
    var s := a + "/" + r;
    assert s == a + ("/" + r);
    assert s == a' + ("/" + r');
    IndexOfAfterFreeHead(a, "/" + r, '/');
    IndexOfAfterFreeHead(a', "/" + r', '/');
    assert a == s[..|a|];
    assert a' == s[..|a'|];
    assert r == s[|a| + 1..];
    assert r' == s[|a'| + 1..];
  }

  /** The part of a path after the segment marker. */
  function Tail(bucket: string, key: string): string {
    (if bucket == "" then "" else "/" + bucket) + (if key == "" then "" else "/" + key)
  }

  /** The part of the tail after the bucket. */
  function KeyPart(key: string): string {
    if key == "" then "" else "/" + key
  }

  lemma {:induction false} TailInjective(b: string, k: string, b': string, k': string)
    requires !Contains(b, '/') && !Contains(b', '/')
    requires b == "" ==> k == ""
    requires b' == "" ==> k' == ""
    requires Tail(b, k) == Tail(b', k')
    ensures b == b' && k == k'
  {
    assert (Tail(b, k) == "") == (b == "");
    assert (Tail(b', k') == "") == (b' == "");
    if b != "" {
      var t, t' := KeyPart(k), KeyPart(k');
      var s := Tail(b, k)[1..];
      assert s == b + t;
      assert Tail(b', k')[1..] == b' + t';
      IndexOfAfterFreeHead(b, t, '/');
      IndexOfAfterFreeHead(b', t', '/');
      assert b == s[..|b|];
      assert b' == s[..|b'|];
      assert t == s[|b|..];
      assert t' == s[|b'|..];
      assert (t == "") == (k == "");
      assert (t' == "") == (k' == "");
      if k != "" {
        assert k == t[1..];
        assert k' == t'[1..];
      }
    }
  }

  lemma SegmentKeyShape(p: string, i: int, b: string, k: string)
    requires i >= -1
    ensures SegmentKey(p, i, b, k) == p + "/" + (SegmentMarker(i) + Tail(b, k))
  {
  }

  /** A tail is empty or starts with the separator. */
  lemma TailStartsWithSeparator(b: string, k: string)
    ensures Tail(b, k) == "" || Tail(b, k)[0] == '/'
  {
  }

  lemma {:induction false} MarkerTailSplit(m: string, t: string, m': string, t': string)
    requires !Contains(m, '/') && !Contains(m', '/')
    requires t == "" || t[0] == '/'
    requires t' == "" || t'[0] == '/'
    requires m + t == m' + t'
    ensures m == m' && t == t'
  {
    var s := m + t;
    IndexOfAfterFreeHead(m, t, '/');
    IndexOfAfterFreeHead(m', t', '/');
    assert m == s[..|m|];
    assert m' == s[..|m'|];
    assert t == s[|m|..];
    assert t' == s[|m'|..];
  }

  lemma {:induction false} SegmentMarkerInjective(i: int, i': int)
    requires i >= -1 && i' >= -1
    requires SegmentMarker(i) == SegmentMarker(i')
    ensures i == i'
  {
    var m, m' := SegmentMarker(i), SegmentMarker(i');
    assert (i == -1) == (i' == -1);
    if i >= 0 {
      assert m[1..] == FormatNat(i);
      assert m'[1..] == FormatNat(i');
      FormatNatInjective(i, i');
    }
  }

  /** Path injectivity: well-formed tuples with distinct components encode to distinct paths. */
  lemma {:induction false} CreatePathInjective(
    p: string, i: int, b: string, k: string,
    p': string, i': int, b': string, k': string)
    requires i >= -1 && i' >= -1
    requires ValidTuple(p, b, k) && ValidTuple(p', b', k')
    requires SegmentKey(p, i, b, k) == SegmentKey(p', i', b', k')
    ensures p == p' && i == i' && b == b' && k == k'
  {
    var m, m' := SegmentMarker(i), SegmentMarker(i');
    var t, t' := Tail(b, k), Tail(b', k');
    SegmentKeyShape(p, i, b, k);
    SegmentKeyShape(p', i', b', k');
    SplitAtSeparator(p, m + t, p', m' + t');
    TailStartsWithSeparator(b, k);
    TailStartsWithSeparator(b', k');
    MarkerTailSplit(m, t, m', t');
    SegmentMarkerInjective(i, i');
    TailInjective(b, k, b', k');
  }

  /** Prefix listing: a bucket-level path followed by `/` prefixes the paths of its objects. */
  lemma BucketPathIsPrefix(p: string, i: int, b: string, k: string)
    requires i >= -1 && b != "" && k != ""
    ensures SegmentKey(p, i, b, "") + "/" <= SegmentKey(p, i, b, k)
  {
    assert SegmentKey(p, i, b, k) == SegmentKey(p, i, b, "") + "/" + k;
  }

  /** Prefix listing: a project-level path followed by `/` prefixes the paths in its buckets. */
  lemma ProjectPathIsPrefix(p: string, i: int, b: string, k: string)
    requires i >= -1 && b != ""
    ensures SegmentKey(p, i, "", "") + "/" <= SegmentKey(p, i, b, k)
  {
    assert SegmentKey(p, i, b, k) == SegmentKey(p, i, "", "") + "/" + b + Tail("", k);
  }
}

=== FILE: segment_store.dfy ===
/** Segment lookups of satellite/metainfo/metainfo.go: `getPointer`, `deletePointer`,
    `getObjectNumberOfSegments` and `findIndexPreviousLastSegmentWhenNotKnowingNumSegments`. */
module SegmentStore {
  import opened Wrappers
  import opened Pointers
  import opened SegmentPath

  /** The object whose segments are looked up. */
  datatype Location = Location(projectId: string, bucket: string, encryptedPath: string)

  /** The store key of segment `index` of the object. */
  function PathOf(loc: Location, index: int): string
    requires index >= -1
  {
    SegmentKey(loc.projectId, index, loc.bucket, loc.encryptedPath)
  }

  /** `getPointer`: an unusable index is InvalidArgument, a missing key NotFound,
      any other store failure Internal. */
  function GetPointer(s: Store, loc: Location, index: int): (r: Result<Pointer, StatusCode>)
    ensures index < -1 ==> r == Err(InvalidArgument)
    ensures index >= -1 ==>
      && (r.Ok? <==> PathOf(loc, index) in s.entries && PathOf(loc, index) !in s.broken)
      && (r.Ok? ==> r.value == s.entries[PathOf(loc, index)])
      && (r == Err(NotFound) <==> PathOf(loc, index) !in s.entries && PathOf(loc, index) !in s.broken)
      && (r.Err? ==> r.error == NotFound || r.error == Internal)
  {
    var path :- CreatePath(loc.projectId, index, loc.bucket, loc.encryptedPath);
    match Get(s, path)
    case Ok(p) => Ok(p)
    case Err(KeyNotFound) => Err(NotFound)
    case Err(StoreFailure) => Err(Internal)
  }

  /** Segment `index` exists and is readable. */
  predicate Present(s: Store, loc: Location, index: int) {
    GetPointer(s, loc, index).Ok?
  }

  /** Segments `lo` .. `hi - 1` all exist. */
  predicate AllPresent(s: Store, loc: Location, lo: int, hi: int) {
    forall i :: lo <= i < hi ==> GetPointer(s, loc, i).Ok?
  }

  lemma AllPresentExtend(s: Store, loc: Location, lo: int, hi: int)
    requires Present(s, loc, lo) && AllPresent(s, loc, lo + 1, hi)
    ensures AllPresent(s, loc, lo, hi)
  {
  }

  /** The object's segments 0 .. n - 2 are stored and segment n - 1 is not
      (it lives under the last-segment key). */
  predicate ConsistentObject(s: Store, loc: Location, n: int) {
    && n > 0
    && AllPresent(s, loc, 0, n - 1)
    && GetPointer(s, loc, n - 1) == Err(NotFound)
  }

  /** Where a run of present segments from 0 ends is unique. */
  lemma RunEndUnique(s: Store, loc: Location, a: int, b: int)
    requires 0 <= a && 0 <= b
    requires AllPresent(s, loc, 0, a) && GetPointer(s, loc, a) == Err(NotFound)
    requires AllPresent(s, loc, 0, b) && GetPointer(s, loc, b) == Err(NotFound)
    ensures a == b
  {
  }

  /** `deletePointer`: read the segment, then remove it from the store. */
  function DeletePointer(s: Store, loc: Location, index: int): (r: Result<(Pointer, Store), StatusCode>)
    ensures r.Ok? <==> Present(s, loc, index)
    ensures r.Ok? ==>
      && r.value.0 == GetPointer(s, loc, index).value
      && r.value.1.entries == s.entries - {PathOf(loc, index)}
      && r.value.1.broken == s.broken
    ensures r.Err? ==> r == GetPointer(s, loc, index).PropagateFailure()
  {
    var p :- GetPointer(s, loc, index);
    var path := PathOf(loc, index);
    match Delete(s, path)
    case Ok(s') => Ok((p, s'))
    case Err(_) => Err(Internal)
  }

  /** `getObjectNumberOfSegments`: the segment count recorded in the last segment's
      stream metadata, 0 when none is recorded. */
  function GetObjectNumberOfSegments(s: Store, loc: Location): (r: Result<int, StatusCode>)
    ensures r.Ok? <==> Present(s, loc, LastSegment) && NumberOfSegments(GetPointer(s, loc, LastSegment).value.metadata).Some?
    ensures r.Ok? ==> r.value == NumberOfSegments(GetPointer(s, loc, LastSegment).value.metadata).value
    ensures r == Err(NotFound) <==> GetPointer(s, loc, LastSegment) == Err(NotFound)
  {
    var p :- GetPointer(s, loc, LastSegment);
    match NumberOfSegments(p.metadata)
    case Some(n) => Ok(n)
    case None => Err(Internal)
  }

  /** Different indices of one object are stored under different keys. */
  lemma PathOfInjective(loc: Location, i: int, j: int)
    requires i >= -1 && j >= -1 && i != j
    ensures PathOf(loc, i) != PathOf(loc, j)
  {
    var pre := loc.projectId + "/";
    var tail := Tail(loc.bucket, loc.encryptedPath);
    var a, b := SegmentMarker(i), SegmentMarker(j);
    if PathOf(loc, i) == PathOf(loc, j) {
      assert PathOf(loc, i) == pre + a + tail && PathOf(loc, j) == pre + b + tail;
      assert |a| == |b|;
      assert a == PathOf(loc, i)[|pre|..|pre| + |a|];
      assert b == PathOf(loc, j)[|pre|..|pre| + |b|];
      SegmentMarkerInjective(i, j);
    }
  }

  lemma {:induction false} SubsetCardinality<T>(a: set<T>, b: set<T>)
    requires a <= b
    ensures |a| <= |b|
    decreases |a|
  {
    if a != {} {
      var x :| x in a;
      SubsetCardinality(a - {x}, b - {x});
    }
  }

  /** The keys of segments 0 .. n - 1. */
  function RunPaths(loc: Location, n: nat): set<string> {
    if n == 0 then {} else RunPaths(loc, n - 1) + {PathOf(loc, n - 1)}
  }

  /** The paths of segments below `n` are those of the indices below `n`. */
  lemma {:induction false} RunPathsMember(loc: Location, n: nat, k: nat)
    requires PathOf(loc, k) in RunPaths(loc, n)
    ensures k < n
  {
    if n > 0 && PathOf(loc, k) != PathOf(loc, n - 1) {
      assert PathOf(loc, k) in RunPaths(loc, n - 1);
      RunPathsMember(loc, n - 1, k);
    } else if n > 0 && k != n - 1 {
      PathOfInjective(loc, k, n - 1);
    }
  }

  lemma {:induction false} RunPathsCount(loc: Location, n: nat)
    ensures |RunPaths(loc, n)| == n
  {
    if n > 0 {
      RunPathsCount(loc, n - 1);
      if PathOf(loc, n - 1) in RunPaths(loc, n - 1) {
        RunPathsMember(loc, n - 1, n - 1);
      }
      assert RunPaths(loc, n) == RunPaths(loc, n - 1) + {PathOf(loc, n - 1)};
    }
  }

  lemma {:induction false} RunPathsStored(s: Store, loc: Location, n: nat)
    requires AllPresent(s, loc, 0, n)
    ensures RunPaths(loc, n) <= s.entries.Keys
  {
    if n > 0 {
      assert AllPresent(s, loc, 0, n - 1);
      RunPathsStored(s, loc, n - 1);
      assert GetPointer(s, loc, n - 1).Ok?;
      assert PathOf(loc, n - 1) in s.entries;
      assert RunPaths(loc, n) == RunPaths(loc, n - 1) + {PathOf(loc, n - 1)};
    }
  }

  /** A run of present segments from 0 is never longer than the store. */
  lemma PresentRunBounded(s: Store, loc: Location, n: nat)
    requires AllPresent(s, loc, 0, n)
    ensures n <= |s.entries.Keys|
  {
    RunPathsCount(loc, n);
    RunPathsStored(s, loc, n);
    SubsetCardinality(RunPaths(loc, n), s.entries.Keys);
  }

  /** `findIndexPreviousLastSegmentWhenNotKnowingNumSegments`: probe segments 0, 1, …
      until one is missing; the index before it, -1 when segment 0 is missing. */
  method FindIndexPreviousLastSegment(s: Store, loc: Location) returns (r: Result<int, StatusCode>)
    ensures r.Ok? ==>
      && r.value >= -1
      && AllPresent(s, loc, 0, r.value + 1)
      && GetPointer(s, loc, r.value + 1) == Err(NotFound)
    ensures r.Err? ==>
      && r.error == Internal
      && exists j :: 0 <= j && AllPresent(s, loc, 0, j) && GetPointer(s, loc, j) == Err(Internal)
    ensures forall n :: ConsistentObject(s, loc, n) ==> r == Ok(n - 2)
  {
    var lastIdxFound := -1;
    while true
      invariant lastIdxFound >= -1
      invariant AllPresent(s, loc, 0, lastIdxFound + 1)
      decreases |s.entries.Keys| - lastIdxFound
    {
      PresentRunBounded(s, loc, lastIdxFound + 1);
      var probe := GetPointer(s, loc, lastIdxFound + 1);
      if probe.Err? {
        if probe.error == NotFound {
          break;
        }
        return Err(probe.error);
      }
      PresentRunBounded(s, loc, lastIdxFound + 2);
      lastIdxFound := lastIdxFound + 1;
    }
    return Ok(lastIdxFound);
  }
}

=== FILE: text.dfy ===
/** The small part of Go's `strings` package the model relies on. */
module Text {

  predicate Contains(s: string, c: char) {
    exists i :: 0 <= i < |s| && s[i] == c
  }

  /** `strings.Split(s, string(sep))`: never empty; the empty string splits into `[""]`. */
  function Split(s: string, sep: char): (parts: seq<string>)
    ensures |parts| >= 1
    decreases |s|
  {
    if |s| == 0 then [""]
    else
      var rest := Split(s[1..], sep);
      if s[0] == sep then [""] + rest
      else [[s[0]] + rest[0]] + rest[1..]
  }

  /** `strings.Join(parts, string(sep))`. */
  function Join(parts: seq<string>, sep: char): string
    decreases |parts|
  {
    if |parts| == 0 then ""
    else if |parts| == 1 then parts[0]
    else parts[0] + [sep] + Join(parts[1..], sep)
  }

  /** `strings.Replace(s, string(from), string(to), -1)` for single characters. */
  function ReplaceAll(s: string, from: char, to: char): (r: string)
    ensures |r| == |s|
    ensures forall i :: 0 <= i < |s| ==> r[i] == (if s[i] == from then to else s[i])
  {
    seq(|s|, i requires 0 <= i < |s| => if s[i] == from then to else s[i])
  }

  /** A string without the separator splits into itself. */
  lemma {:induction false} SplitNoSeparator(s: string, sep: char)
    requires !Contains(s, sep)
    ensures Split(s, sep) == [s]
    decreases |s|
  {
    if |s| > 0 {
      assert !Contains(s[1..], sep) by {
        forall i | 0 <= i < |s[1..]| ensures s[1..][i] != sep {
          assert s[1..][i] == s[i + 1];
        }
      }
      SplitNoSeparator(s[1..], sep);
      assert s == [s[0]] + s[1..];
    }
  }

  /** Splitting stops at the first separator. */
  lemma {:induction false} SplitFirstSeparator(a: string, sep: char, b: string)
    requires !Contains(a, sep)
    ensures Split(a + [sep] + b, sep) == [a] + Split(b, sep)
    decreases |a|
  {
    if |a| == 0 {
      assert a + [sep] + b == [sep] + b;
      assert ([sep] + b)[1..] == b;
    } else {
      var s := a + [sep] + b;
      assert s[0] == a[0];
      assert s[1..] == a[1..] + [sep] + b;
      assert !Contains(a[1..], sep) by {
        forall i | 0 <= i < |a[1..]| ensures a[1..][i] != sep {
          assert a[1..][i] == a[i + 1];
        }
      }
      SplitFirstSeparator(a[1..], sep, b);
      assert [a[0]] + a[1..] == a;
    }
  }

  /** Join and Split are inverse on non-empty lists of separator-free parts. */
  lemma {:induction false} SplitJoin(parts: seq<string>, sep: char)
    requires |parts| >= 1
    requires forall i :: 0 <= i < |parts| ==> !Contains(parts[i], sep)
    ensures Split(Join(parts, sep), sep) == parts
    decreases |parts|
  {
    if |parts| == 1 {
      SplitNoSeparator(parts[0], sep);
    } else {
      SplitJoin(parts[1..], sep);
      SplitFirstSeparator(parts[0], sep, Join(parts[1..], sep));
      assert [parts[0]] + parts[1..] == parts;
    }
  }

  /** A piece of Split never holds the separator. */
  lemma {:induction false} SplitPartsFree(s: string, sep: char)
    ensures forall i :: 0 <= i < |Split(s, sep)| ==> !Contains(Split(s, sep)[i], sep)
    decreases |s|
  {
    if |s| > 0 {
      SplitPartsFree(s[1..], sep);
      var rest := Split(s[1..], sep);
      if s[0] != sep {
        assert !Contains([s[0]] + rest[0], sep) by {
          forall i | 0 <= i < |[s[0]] + rest[0]| ensures ([s[0]] + rest[0])[i] != sep {
            if i > 0 { assert ([s[0]] + rest[0])[i] == rest[0][i - 1]; }
          }
        }
      }
    }
  }

  /** Split followed by Join gives back the string. */
  lemma {:induction false} JoinSplit(s: string, sep: char)
    ensures Join(Split(s, sep), sep) == s
    decreases |s|
  {
    if |s| > 0 {
      JoinSplit(s[1..], sep);
      var rest := Split(s[1..], sep);
      if s[0] == sep {
        assert ([""] + rest)[1..] == rest;
      } else {
        var parts := [[s[0]] + rest[0]] + rest[1..];
        if |rest| == 1 {
          assert parts == [[s[0]] + rest[0]];
        } else {
          assert parts[1..] == rest[1..];
          assert Join(rest, sep) == rest[0] + [sep] + Join(rest[1..], sep);
        }
        assert s == [s[0]] + s[1..];
      }
    }
  }

  /** Joining parts free of `c` with a separator other than `c` gives a string free of `c`. */
  lemma {:induction false} JoinFree(parts: seq<string>, sep: char, c: char)
    requires sep != c
    requires forall i :: 0 <= i < |parts| ==> !Contains(parts[i], c)
    ensures !Contains(Join(parts, sep), c)
    decreases |parts|
  {
    if |parts| > 1 {
      JoinFree(parts[1..], sep, c);
      var tail := Join(parts[1..], sep);
      var joined := parts[0] + [sep] + tail;
      forall i | 0 <= i < |joined| ensures joined[i] != c {
        if i < |parts[0]| {
          assert joined[i] == parts[0][i];
        } else if i > |parts[0]| {
          assert joined[i] == tail[i - |parts[0]| - 1];
        }
      }
    }
  }
}

=== FILE: tokens.dfy ===
/** The satellite-signed stream and segment identifiers handed to uplinks between
    the begin and commit calls, and their unpacking (satellite/metainfo/metainfo.go). */
module Tokens {
  import opened Wrappers
  import opened Pointers
  import opened PieceValidation

  /** `satIDExpiration`: 24 hours, in nanoseconds as a Go `time.Duration`. */
  const SatIdExpiration: int := 24 * 60 * 60 * 1_000_000_000

  /** `pb.SatStreamID`. */
  datatype StreamId = StreamId(
    bucket: string,
    encryptedPath: string,
    redundancy: Redundancy,
    creationDate: int,
    expirationDate: int,
    signature: seq<Byte>)

  /** `pb.SatSegmentID`. */
  datatype SegmentId = SegmentId(
    streamId: Option<StreamId>,
    index: int,
    rootPieceId: nat,
    originalLimits: seq<Option<OrderLimit>>,
    creationDate: int,
    signature: seq<Byte>)

  /** The satellite's signing identity: the signature it computes over an unsigned message. */
  datatype Signer = Signer(signStream: StreamId -> seq<Byte>, signSegment: SegmentId -> seq<Byte>)

  datatype TokenError = Undecodable | StreamMissing | BadSignature | IdExpired

  /** `CreationDate.Before(now - satIDExpiration)`. */
  predicate Expired(creationDate: int, now: int) {
    creationDate < now - SatIdExpiration
  }

  /** `signing.SignStreamID`: sign the message with its signature field cleared. */
  function SignStreamId(signer: Signer, s: StreamId): (signed: StreamId)
    ensures signed.(signature := []) == s.(signature := [])
  {
    s.(signature := signer.signStream(s.(signature := [])))
  }

  /** `signing.VerifyStreamID`. */
  predicate StreamIdVerifies(signer: Signer, s: StreamId) {
    s.signature == signer.signStream(s.(signature := []))
  }

  function SignSegmentId(signer: Signer, s: SegmentId): (signed: SegmentId)
    ensures signed.(signature := []) == s.(signature := [])
  {
    s.(signature := signer.signSegment(s.(signature := [])))
  }

  predicate SegmentIdVerifies(signer: Signer, s: SegmentId) {
    s.signature == signer.signSegment(s.(signature := []))
  }

  /** `unmarshalSatStreamID`; `decoded` is None when the bytes do not decode. */
  function UnmarshalStreamId(signer: Signer, decoded: Option<StreamId>, now: int): (r: Result<StreamId, TokenError>)
    ensures r.Ok? <==> decoded.Some? && StreamIdVerifies(signer, decoded.value) && !Expired(decoded.value.creationDate, now)
    ensures r.Ok? ==> r.value == decoded.value
    ensures r == Err(IdExpired) <==>
      decoded.Some? && StreamIdVerifies(signer, decoded.value) && Expired(decoded.value.creationDate, now)
  {
    if decoded.None? then Err(Undecodable)
    else if !StreamIdVerifies(signer, decoded.value) then Err(BadSignature)
    else if Expired(decoded.value.creationDate, now) then Err(IdExpired)
    else Ok(decoded.value)
  }

  /** `unmarshalSatSegmentID`: a segment ID must carry its stream ID. */
  function UnmarshalSegmentId(signer: Signer, decoded: Option<SegmentId>, now: int): (r: Result<SegmentId, TokenError>)
    ensures r.Ok? <==>
      && decoded.Some? && decoded.value.streamId.Some?
      && SegmentIdVerifies(signer, decoded.value) && !Expired(decoded.value.creationDate, now)
    ensures r.Ok? ==> r.value == decoded.value
    ensures r == Err(StreamMissing) <==> decoded.Some? && decoded.value.streamId.None?
  {
    if decoded.None? then Err(Undecodable)
    else if decoded.value.streamId.None? then Err(StreamMissing)
    else if !SegmentIdVerifies(signer, decoded.value) then Err(BadSignature)
    else if Expired(decoded.value.creationDate, now) then Err(IdExpired)
    else Ok(decoded.value)
  }

  /** A stream ID the satellite packed is accepted back, unchanged, for 24 hours after its creation date. */
  lemma PackedStreamIdRoundTrip(signer: Signer, s: StreamId, now: int)
    requires now <= s.creationDate + SatIdExpiration
    ensures UnmarshalStreamId(signer, Some(SignStreamId(signer, s)), now) == Ok(SignStreamId(signer, s))
  {
    var signed := SignStreamId(signer, s);
    assert signed.(signature := []) == s.(signature := []);
  }

  lemma PackedSegmentIdRoundTrip(signer: Signer, s: SegmentId, now: int)
    requires s.streamId.Some? && now <= s.creationDate + SatIdExpiration
    ensures UnmarshalSegmentId(signer, Some(SignSegmentId(signer, s)), now) == Ok(SignSegmentId(signer, s))
  {
    var signed := SignSegmentId(signer, s);
    assert signed.(signature := []) == s.(signature := []);
  }

  /** The signer is collision-free on stream IDs: different messages get different signatures. */
  ghost predicate StreamSignaturesDistinct(signer: Signer) {
    forall a, b | a != b :: signer.signStream(a) != signer.signStream(b)
  }

  /** With a collision-free signer, changing any field other than the signature of a
      stream ID the satellite signed makes it fail verification, whatever the time. */
  lemma TamperedStreamIdRejected(signer: Signer, s: StreamId, forged: StreamId, now: int)
    requires StreamSignaturesDistinct(signer)
    requires forged.signature == SignStreamId(signer, s).signature
    requires forged.(signature := []) != s.(signature := [])
    ensures UnmarshalStreamId(signer, Some(forged), now) == Err(BadSignature)
  {
    assert signer.signStream(forged.(signature := [])) != signer.signStream(s.(signature := []));
  }

  /** Expiry is permanent: an identifier refused as expired stays refused later on. */
  lemma ExpiryIsPermanent(signer: Signer, decoded: Option<StreamId>, now: int, later: int)
    requires now <= later
    requires UnmarshalStreamId(signer, decoded, now) == Err(IdExpired)
    ensures UnmarshalStreamId(signer, decoded, later) == Err(IdExpired)
  {
  }
}

=== FILE: wrappers.dfy ===
/** Failure-carrying values shared by every module of the model. */
module Wrappers {

  /** A value that may be absent: Go's nil pointers and "not set" fields. */
  datatype Option<+T> = None | Some(value: T) {
    predicate IsFailure() { None? }

    function PropagateFailure<U>(): Option<U>
      requires None?
    {
      None
    }

    function Extract(): T
      requires Some?
    {
      value
    }
  }

  /** Either a value or an error, the shape of Go's `(T, error)` returns. */
  datatype Result<+T, +E> = Ok(value: T) | Err(error: E) {
    predicate IsFailure() { Err? }

    function PropagateFailure<U>(): Result<U, E>
      requires Err?
    {
      Err(error)
    }

    function Extract(): T
      requires Ok?
    {
      value
    }
  }

  /** The status codes of the remote procedure interface (rpcstatus). */
  datatype StatusCode =
    | Unauthenticated
    | InvalidArgument
    | NotFound
    | AlreadyExists
    | ResourceExhausted
    | Internal
}
